=== FILE: README.md ===
# F1 live dashboard: snapshot cache, derivations, hub and reconnecting client

A Dafny model of the data path of a live Formula 1 dashboard:

- **SnapshotCache** (`cache.dfy`) is the in-memory TTL cache of
  `services/cache-service.js`. It holds a map of entries together with the insertion
  order that a JavaScript `Map` keeps. `set` evicts the first-inserted key at capacity.
  An entry expires once the clock is strictly past `timestamp + ttl`. The read
  operations delete what they find expired.
- **Latest** (`latest.dfy`) is `getLatestDataPerDriver`, written once over any sample
  type. For each driver it keeps the sample with the greatest date, taking the first on
  ties, and lists drivers in order of first appearance.
- **Normalizer** (`normalizer.dfy`) is the derivation engine of
  `services/data-normalizer.js`. It covers the leaderboard with its retired-last order,
  battle detection between ranked neighbours, the intensity table, track positions,
  driver names and the percentage clamp.
- **Sorting** (`sorting.dfy`) is the insertion sort by an integer-pair key that stands
  for `Array.prototype.sort`. Each element is placed after every element whose key is
  at most its own, so equal keys keep their arrival order (`InsertPlacement`). Every
  comparator of the source is expressed as such a key.
- **Decimal** (`decimal.dfy`) holds decimal rendering and parsing of driver numbers.
  Battle ids and placeholder names are built from it.
- **Hub** (`hub.dfy`) is the realtime hub of `server.js`. It covers the client
  registry, broadcast to open clients, the poll cycle that derives, caches and
  broadcasts one `update` envelope, and the read-through GET handlers.
- **ReconnectHook** (`reconnect.dfy`) is the React hook
  `frontend/app/hooks/useWebSocket.js`, modelled as a state machine. Its state is the
  sockets it opened, the pending timers, the attempt counter and the React state.
  Events are socket callbacks, timer firings, user actions and unmount.
- **NetlifyLeaderboard** (`netlify.dfy`) is the serverless `normalizeLeaderboard` of
  `netlify/functions/leaderboard.js`. It produces placeholder rows from the latest
  samples. The rows are listed in `Object.values` order, ascending by driver number,
  and then sorted on position alone.

Several things are parameters rather than part of the model:

- The clock is a parameter `now` (ms), and `new Date(...)` dates are already integers.
- The upstream API's results are parameters, with `None` standing for a thrown error
  or a non-array.
- Which client sockets are open is a parameter.
- Intervals and coordinates are `real`. Intervals go through `parseFloat(x) || 0`,
  which the model renders by mapping a missing value to 0. A coordinate is used as
  given (`location.x || 0`), and a point is valid only when both x and y are present
  and non-zero.

Three facts about the hook that the model keeps:

- The hook allows 5 reconnect attempts (`useWebSocket.js:11`).
- It has no polling state.
- Unmounting does not cancel a scheduled retry (`TimerOutlivesUnmount`).

## Model

| member | source | states |
|---|---|---|
| SnapshotCache.New | services/cache-service.js:2-9 | A new cache is empty. A non-zero TTL setting of s seconds gives s · 1000 ms, and a non-zero size setting is used as given. An unset or zero TTL gives 30 000 ms and an unset or zero size gives 1000, as `\|\|` does, so neither bound is ever 0. |
| SnapshotCache.Set | services/cache-service.js:14-27 | The key holds the value with expiry `now + ttl`. At capacity exactly the first-inserted key is evicted, even when the written key already exists. Every other entry is kept unchanged, and no key appears that was not written. The new order is the JavaScript `Map` order. |
| SnapshotCache.Evict | services/cache-service.js:15-19 | At capacity the cache loses exactly its first-inserted key, and the order drops its head. Below capacity nothing changes. |
| SnapshotCache.Put | services/cache-service.js:21-26 | `Map.set`: the store maps the key to the entry. A new key joins the order at the end, and an existing key keeps its place. |
| SnapshotCache.SetKeepsBound | services/cache-service.js:14-27 | The size bound is an invariant of `set`: a cache within its bound stays within it. |
| SnapshotCache.SetAtCapacityEvictsOldest | services/cache-service.js:15-19 | At capacity a new key evicts only the oldest entry, and the size stays the same. |
| SnapshotCache.SetThenGet | services/cache-service.js:14-48 | `get` returns a value stored at `t` at any time up to `t + ttl`. |
| SnapshotCache.SetThenGetExpired | services/cache-service.js:38-43 | After `t + ttl` the value is gone without any sweep: `get` misses and deletes the entry. |
| SnapshotCache.SetKeepsOtherKey | services/cache-service.js:14-27 | Writing one key keeps another key's entry, unless that other key is the one evicted. |
| SnapshotCache.SetAllOrder | services/cache-service.js:14-27 | A batch of `set`s leaves exactly the insertion order that the single `set`s produce one after another. |
| SnapshotCache.SetAllWithRoom | services/cache-service.js:14-27 | With room for a batch of distinct keys, every write of the batch holds afterwards. |
| SnapshotCache.SetAllLastHolds | services/cache-service.js:14-27 | The last write of any batch always holds afterwards. |
| SnapshotCache.Get | services/cache-service.js:32-48 | An absent key misses and changes nothing. An expired entry misses and is deleted: its key leaves the insertion order, and the other entries and the settings stay. A live entry returns its value, and only its access time changes. |
| SnapshotCache.Has | services/cache-service.js:53-66 | Answers true exactly when the entry is live, and then changes nothing. A false answer for a present key deletes it, together with its place in the insertion order. The other entries and the settings stay. |
| SnapshotCache.HasAgreesWithGet | services/cache-service.js:32-66 | `has` answers exactly what `get` finds, and leaves the same keys behind. |
| SnapshotCache.Delete | services/cache-service.js:71-73 | Reports whether the key was present. Removes exactly that key and its place in the insertion order, and keeps the settings. |
| SnapshotCache.Clear | services/cache-service.js:78-80 | Empties the store and keeps the settings. |
| SnapshotCache.Size | services/cache-service.js:85-87 | The size is the number of stored entries, expired ones included. |
| SnapshotCache.Keys | services/cache-service.js:108-110 | Lists every stored key, expired or not, each once, in insertion order. |
| SnapshotCache.Entries | services/cache-service.js:115-126 | Lists exactly the unexpired (key, value) pairs, and changes nothing. The pairs follow the live keys in insertion order, each key once, each with its stored value. |
| SnapshotCache.LiveEntriesFollowLiveKeys | services/cache-service.js:115-126 | The pairs the loop collects are, position by position, the unexpired keys in insertion order with their values. |
| SnapshotCache.Cleanup | services/cache-service.js:131-146 | Deletes exactly the expired entries. The survivors keep their values and their relative order. |
| SnapshotCache.CleanupKeepsEntries | services/cache-service.js:115-146 | After a sweep every entry is live, and `entries` lists the same pairs as before it. |
| SnapshotCache.SetTtl | services/cache-service.js:166-168 | The TTL is stored in milliseconds, and entries already stored are untouched. |
| SnapshotCache.TtlRoundTrip | services/cache-service.js:166-175 | `getTTL` after `setTTL(s)` returns `s` seconds. |
| SnapshotCache.TrimTo | services/cache-service.js:184-187 | The trim keeps the last `m` keys in insertion order, with their values. |
| SnapshotCache.TrimIsLoop | services/cache-service.js:184-187 | The trim equals the source's loop: within the bound nothing is deleted; above it, deleting the first key and trimming again gives the same cache. |
| SnapshotCache.SetMaxSize | services/cache-service.js:180-188 | Records the bound, which `getMaxSize` returns. Size never exceeds it. A cache within the bound is untouched; otherwise exactly the newest `m` keys remain. |
| Latest.LatestPerDriver | services/data-normalizer.js:171-187 | One sample per driver, for every driver of the input, each being that driver's latest (first of equal dates). |
| Latest.LatestCoversDrivers | services/data-normalizer.js:171-187 | A driver appears in the result exactly when it appears in the input. |
| Latest.LatestFirstSeenOrder | services/data-normalizer.js:175-186 | Drivers are listed in the order in which they first appear in the input, as `Map` insertion order gives. |
| Latest.LatestComplete | services/data-normalizer.js:171-187 | Every latest sample of the input is in the result. |
| Latest.LatestIsUnique | services/data-normalizer.js:179-183 | A driver has exactly one latest sample: the strict `<` keeps the first of equal dates. |
| Normalizer.FindDriver | services/data-normalizer.js:29 | Returns the first metadata record with the driver's number, or none when no record carries it. |
| Normalizer.FormatDriverName | services/data-normalizer.js:192-208 | Uses the acronym when there is one. A missing record gives "Unknown", and an empty record gives "Driver ?". The name is never empty. |
| Normalizer.ToEntry | services/data-normalizer.js:28-41 | A row carries its sample's driver, position and date. It is flagged retired exactly when the position is null or 0. |
| Normalizer.NormalizeLeaderboard | services/data-normalizer.js:20-50 | A non-array input gives no rows. Otherwise there is one row per input driver, from its latest sample. The retired flag agrees with the position. Running drivers come first in ascending position, then retired drivers in ascending number. |
| Normalizer.LeaderboardCoversDrivers | services/data-normalizer.js:20-41 | The leaderboard has a row for a driver exactly when the driver appears in the input. |
| Normalizer.RankedField | services/data-normalizer.js:60-66 | The battle field is exactly the latest samples with a positive position, sorted by position, each driver once. |
| Normalizer.CalculateBattleIntensity | services/data-normalizer.js:258-263 | The threshold table as four if-and-only-ifs: very high for gaps up to 0.2, high up to 0.5, medium up to 0.8, low beyond. |
| Normalizer.IntensityMonotone | services/data-normalizer.js:258-263 | A smaller gap never gives a less intense battle. |
| Normalizer.BattleIdInjective | services/data-normalizer.js:76 | The `"<leading>_<chasing>"` id determines both driver numbers. |
| Normalizer.AdjacentBattles | services/data-normalizer.js:68-90 | Every battle comes from an adjacent pair whose interval is in (0, 1] s, and every such pair gives its battle. There are at most n - 1 battles for n ranked drivers. |
| Normalizer.AdjacentInRankOrder | services/data-normalizer.js:68-90 | The loop yields the battle of each close pair exactly once, in rank order: battle j is that of the j-th close pair. |
| Normalizer.ClosePairsAscending | services/data-normalizer.js:68-72 | The indices of the close pairs are listed in strictly ascending order. |
| Normalizer.ClosePairsComplete | services/data-normalizer.js:68-72 | Every close pair's index is listed. |
| Normalizer.IntervalsExample | services/data-normalizer.js:68-90 | For chaser intervals 0.9, 1.2 and 0.05 s, exactly two battles are found: a low one and a very-high one. The 1.2 s pair is skipped. |
| Normalizer.DetectBattles | services/data-normalizer.js:55-93 | A non-array input gives no battles. Otherwise the battles are exactly those of the close adjacent pairs of the ranked field. Each battle has distinct cars, the leader ahead, a gap in (0, 1] with its intensity, and the time of detection. |
| Normalizer.DetectedInRankOrder | services/data-normalizer.js:55-93 | The detected battles are the battles of the close pairs of the ranked field, one per pair, in rank order. |
| Normalizer.DetectedBattlesDistinct | services/data-normalizer.js:68-76 | No two detected battles share an id. |
| Normalizer.AllCloseGivesAllPairs | services/data-normalizer.js:68-90 | When all ranked neighbours are within a second, n ranked drivers give n - 1 battles. |
| Normalizer.LatestPositionUnique | services/data-normalizer.js:171-187 | Two latest samples of one driver are the same sample. |
| Normalizer.BattleCarsOnBoard | services/data-normalizer.js:20-93 | Both cars of every detected battle are on the leaderboard built from the same samples, unretired and at the battle's positions. |
| Normalizer.ValidPointsKeepOrder | services/data-normalizer.js:134-143 | The `filter` over the mapped points keeps the surviving drivers in the order they had. |
| Normalizer.NormalizePositions | services/data-normalizer.js:129-144 | A non-array input gives no points. Otherwise every point comes from a driver's latest location with both coordinates non-zero, and every such location gives its point. There is one point per driver, at most as many points as drivers, in the order in which the input first mentions each driver. |
| Normalizer.NormalizePercentage | services/data-normalizer.js:248-253 | Clamps into [0, 100]. A value already in range is unchanged, and a missing value gives 0. |
| Normalizer.NormalizePercentageIdempotent | services/data-normalizer.js:248-253 | Normalizing twice is the same as normalizing once. |
| Sorting.SortByKey | services/data-normalizer.js:42-49 | The result is a permutation of the input (same multiset), sorted by the key. |
| Sorting.InsertPlacement | netlify/functions/leaderboard.js:78 | Insertion places the element after every element whose key is at most its own and before every greater one, so equal keys keep their arrival order. |
| Sorting.StrictSortedUnique | netlify/functions/leaderboard.js:78 | Two strictly sorted arrangements of the same elements are equal. |
| Sorting.PermutationKeepsDistinct | services/data-normalizer.js:42-49 | Sorting keeps rows distinct per driver. |
| Decimal.ParseNatToString | services/data-normalizer.js:76 | Reading back a rendered driver number gives the number. |
| Decimal.SplitJoinPair | services/data-normalizer.js:76 | Splitting an id at its separator gives back both numbers. |
| Hub.Connect | server.js:39-41 | A new connection registers its client and changes nothing else. |
| Hub.Drop | server.js:43-51 | A `close` or `error` event unregisters the client and changes nothing else. |
| Hub.RegistryRoundTrip | server.js:37-52 | Registering twice is registering once. A client that connects and then closes leaves the registry as it was. |
| Hub.Broadcast | server.js:55-62 | Each registered client with an open socket receives the message once. No other client receives anything. |
| Hub.PollCycle | server.js:201-237 | When the adapter or a derivation throws, nothing is cached or sent. Otherwise each open registered client receives one `update` envelope with the derived snapshots, and the driver list is cached. |
| Hub.StoreSnapshotOrder | server.js:217-220 | The four writes of a poll leave exactly the insertion order that four single `set`s produce. |
| Hub.PollCachesBroadcast | server.js:201-232 | With room for four more entries, a poll caches exactly the snapshots it broadcasts. |
| Hub.FullCacheLosesLeaderboard | server.js:217-220 | As written, a poll into a full cache of four (telemetry, leaderboard, telemetry, driver) leaves no leaderboard entry behind. |
| Hub.LeaderboardRewriteLost | server.js:217-220 | A full cache of four holding the leaderboard second loses it in a poll, whatever the first key is and whatever the third and fourth keys are, provided neither of them is `battles`, `positions` or `drivers`. |
| Hub.RefreshingPollHoldsSnapshot | server.js:201-232 | With the corrected write, a poll into any cache of capacity at least four holds all four snapshots it broadcast. |
| SnapshotCache.SetRefreshing | services/cache-service.js:14-27 | The corrected write: rewriting a key evicts nothing and moves the key last. A new key at capacity evicts the first-inserted. Other entries are kept. |
| SnapshotCache.SetAllRefreshingKeepsBatch | services/cache-service.js:14-27 | With the corrected write and capacity for the batch, every write of a batch of distinct keys holds afterwards. |
| Hub.EnvelopeIsCoherent | server.js:212-232 | In every broadcast envelope, both cars of each battle are on its leaderboard at the battle's positions. |
| Hub.ReadThrough | server.js:67-84 | A live cached snapshot is served unchanged. A miss computes the snapshot, caches it with a fresh expiry and serves it. A failed fetch answers 500 and leaves only the expired entry deleted. |
| Hub.HitIgnoresAdapter | server.js:69-72 | A cache hit does not depend on what the adapter would return. |
| Hub.MissThenHit | server.js:69-79 | After a successful miss, every read until expiry is served from the cache. |
| Hub.LeaderboardRoute | server.js:67-84 | On a miss, serves the normalized leaderboard of the fetched positions and drivers. |
| Hub.BattlesRoute | server.js:87-103 | On a miss, serves the battles detected in the fetched positions. |
| Hub.PositionsRoute | server.js:128-144 | On a miss, serves the normalized track positions. |
| Hub.DriversRoute | server.js:147-162 | On a miss, serves the fetched driver list. |
| Hub.RouteServesPolledBoard | server.js:67-72 | With room in the cache, a leaderboard read within the TTL after a poll serves the broadcast leaderboard, whatever the adapter would say. |
| ReconnectHook.Mount | frontend/app/hooks/useWebSocket.js:60-63 | Mounting connects once: a socket exists exactly when the URL is valid. The counter is 0, no timer is pending, and the hook is not yet connected. |
| ReconnectHook.Connect | frontend/app/hooks/useWebSocket.js:13-58 | A valid URL opens a new current socket. An invalid one leaves the sockets as they were and records the creation error. |
| ReconnectHook.OnOpen | frontend/app/hooks/useWebSocket.js:17-22 | Opening the connecting socket sets it open, resets the attempt counter and, while mounted, marks the hook connected and clears the error. The other sockets, `ws.current`, the data and the pending timers stay. Any other socket's open event changes nothing. |
| ReconnectHook.OnMessage | frontend/app/hooks/useWebSocket.js:24-31 | A parsable message becomes the latest data. An unparsable one changes nothing. |
| ReconnectHook.OnError | frontend/app/hooks/useWebSocket.js:49-52 | Records the connection error and schedules nothing. |
| ReconnectHook.OnClose | frontend/app/hooks/useWebSocket.js:33-47 | The socket is marked closed and the hook disconnected. A retry after `2^attempts` s is scheduled exactly when the close is abnormal and attempts remain. |
| ReconnectHook.Fire | frontend/app/hooks/useWebSocket.js:38-45 | A fired retry bumps the counter and then connects. A fired manual reconnect connects without bumping it. |
| ReconnectHook.SendMessage | frontend/app/hooks/useWebSocket.js:70-76 | A message is sent exactly when the current socket is open. Otherwise nothing changes. |
| ReconnectHook.CloseCurrent | frontend/app/hooks/useWebSocket.js:78-82 | The current socket starts closing, and no other socket changes. |
| ReconnectHook.DisconnectThenCloseNoRetry | frontend/app/hooks/useWebSocket.js:78-82 | Closing what `disconnect()` closed, with the normal code, schedules no retry. |
| ReconnectHook.Reconnect | frontend/app/hooks/useWebSocket.js:84-88 | Closes the current socket, resets the counter and schedules one connect after a second. |
| ReconnectHook.Unmount | frontend/app/hooks/useWebSocket.js:64-67 | Closes the current socket. No pending timer is cancelled and the counter is unchanged. |
| ReconnectHook.NextKeepsInv | frontend/app/hooks/useWebSocket.js:13-88 | Every event keeps the invariant: `ws.current`, when set, names one of the opened sockets, every pending retry waits one of the delays 1, 2, 4, 8 or 16 s, and every pending manual connect waits 1 s. |
| ReconnectHook.RunKeepsInv | frontend/app/hooks/useWebSocket.js:13-88 | The invariant holds through any run of events. |
| ReconnectHook.FailuresFollowBackoff | frontend/app/hooks/useWebSocket.js:33-47 | Consecutive abnormal closes without an open schedule exactly the remaining delays `2^k` s up to 16 s, and then nothing (if and only if). |
| ReconnectHook.BackoffScheduleFromMount | frontend/app/hooks/useWebSocket.js:11-45 | From a fresh mount, repeated abnormal closes retry after 1, 2, 4, 8 and 16 s and never again. |
| ReconnectHook.NormalCloseNeverRetries | frontend/app/hooks/useWebSocket.js:38 | A normal closure (code 1000) never schedules a retry. |
| ReconnectHook.TimerOutlivesUnmount | frontend/app/hooks/useWebSocket.js:60-68 | A retry scheduled before unmount survives it and opens a new socket afterwards. |
| ReconnectHook.OpenRestartsSchedule | frontend/app/hooks/useWebSocket.js:17-22 | After an open, the next abnormal close retries after one second again. |
| NetlifyLeaderboard.NormalizeLeaderboard | netlify/functions/leaderboard.js:51-79 | Missing or empty input gives no rows. Otherwise there is one row per input driver, from its latest sample, with the placeholder name, team, colour and gaps, never retired. Rows are strictly ordered by position (null as 0), ties by driver number. |
| NetlifyLeaderboard.CoversDrivers | netlify/functions/leaderboard.js:56-77 | There is a row for a driver exactly when the driver appears in the input. |
| NetlifyLeaderboard.OrderIndependent | netlify/functions/leaderboard.js:66-78 | The leaderboard is the one arrangement of the latest rows in (position, driver number) order: sorting any arrangement of them by that key gives it. |
| NetlifyLeaderboard.ObjectValues | netlify/functions/leaderboard.js:57-66 | `Object.values` lists the per-driver rows, each once, by ascending driver number. |
| NetlifyLeaderboard.SourceSortIsKeySort | netlify/functions/leaderboard.js:66-78 | Sorting the `Object.values` rows on `a.position - b.position` alone gives the order by (position, driver number). |
| NetlifyLeaderboard.PositionSortOfAscending | netlify/functions/leaderboard.js:78 | Rows by strictly ascending driver number, sorted on position alone, come out ordered by position with ties by driver number. |
| NetlifyLeaderboard.NameNamesDriver | netlify/functions/leaderboard.js:70 | The placeholder name is "Driver " followed by digits that parse back to the driver number. |
| NetlifyLeaderboard.UnplacedRanksFirst | netlify/functions/leaderboard.js:78 | A driver with a null position sorts ahead of every driver with a positive position. |

## Left out

- The `setInterval` sweeps and polls and their timing are left out. `Cleanup` and `PollCycle` model one run each, at the time given.
- `getStats` and `estimateMemoryUsage` in `services/cache-service.js` are left out. They report approximate byte counts of JSON text, which is diagnostics only.
- The upstream API client (`services/openf1-service.js`) is not part of this model. Its results are parameters.
- The Express and `ws` wiring, JSON serialization, logging, `/api/health`, and the telemetry and single-driver routes (`server.js:106-126`, `165-190`) are left out. They do not touch the cache protocol beyond what the four modelled routes show.
- `getTeamColor`, `generateColorFromString`, `formatGap` and `formatLapTime` (text formatting) are left out. Leaderboard rows keep the team name and the raw gap values, not their display strings.
- `normalizeTelemetry`, `normalizeDriverData` and `normalizeLapTimes` are outside the modelled derivations.
- Date parsing is left out: dates are integers, and an unparsable date (NaN in the source) is not modelled.
- The `z` coordinate of a track point is left out: it is not part of the validity test.
- The other serverless functions and the frontend components are left out, including the page's choice between the socket and HTTP data.
- The hook's `console` output, the React re-render mechanics and the JSON parse itself are left out. A parse failure is the `None` of `OnMessage`.
- Normalizer.FormatDriverName: only the acronym, missing-record and empty-record cases are stated. The initial-and-surname and full-name branches are computed but not separately stated.
- Normalizer.NormalizeLeaderboard: the comparator's `a.position - b.position` for two running drivers is NaN-free only because a running driver has a positive or negative integer position. A NaN or non-integer position is not modelled. A missing (undefined) position is treated as null and so retired, which the source does not do: its `=== null || === 0` test leaves it unretired, and the comparator then returns NaN.
- NetlifyLeaderboard.NormalizeLeaderboard: an undefined or non-numeric position is treated like null (as 0). The source's comparator returns NaN for it, and the resulting order depends on the engine's sort.
- SnapshotCache.SetTtl: takes whole seconds. The source's `ttlSeconds * 1000` also accepts fractions.
- Hub.ReadThrough: the cache read, the upstream fetch and the cache write happen in one step at one time `now`. The handler awaits between them, so a poll may write the same key in the meantime. The route's write then replaces the poll's entry with the route's own value and a later expiry. The battles route also stamps its battles with the clock at detection, which the model takes to be that same `now`.
- SnapshotCache.SetMaxSize: the bound is a natural number. For a negative bound the source's loop never ends, because deleting the first key of an empty map does nothing.
- Hub.PollCycle: the leaderboard, battles and positions entries are stated only through `PollCachesBroadcast` (with room) and the full-cache finding. Without room, only the last write, `drivers`, is guaranteed.

## Findings

| source | as written | input that shows it | evidently intended | confidence | as-written member | corrected member |
|---|---|---|---|---|---|---|
| services/cache-service.js:14-27 | `set` evicts the first-inserted key whenever the cache is at capacity, even when the written key is already present. A JavaScript `Map` also keeps a rewritten key in its old place, so the poll's four rewrites can evict the leaderboard that the same poll has just written. | A cache of capacity 4 holding `telemetry_1`, `leaderboard`, `telemetry_16`, `driver_44` in that order. One poll: the leaderboard rewrite evicts `telemetry_1`, `battles` evicts nothing new, and `positions` then evicts `leaderboard`. The broadcast carries a leaderboard that `GET /api/leaderboard` no longer finds. | Rewriting a present key evicts nothing and refreshes its place. Only a new key at capacity evicts the oldest. A poll into any cache with room for the four snapshot keys then holds all four. | not executed | Hub.FullCacheLosesLeaderboard | Hub.RefreshingPollHoldsSnapshot |

=== FILE: cache.dfy ===
/**
 * The TTL snapshot cache of services/cache-service.js: a JavaScript `Map` from string
 * keys to entries, modelled as a `map` plus the `Map`'s insertion order. Every
 * operation takes the current time `now` (ms) in place of `Date.now()`.
 */
module SnapshotCache {
  import opened Wrappers

  const DefaultTtl: int := 30000
  const DefaultMaxSize: int := 1000

  /** A stored snapshot: the value, its absolute expiry and its last access time. */
  datatype Entry<V> = Entry(value: V, expiry: int, accessed: int)

  /**
   * The cache: `store` holds the entries, `order` lists their keys in insertion order
   * (the iteration order of the JavaScript `Map`).
   */
  datatype Cache<V> = Cache(store: map<string, Entry<V>>, order: seq<string>, ttl: int, maxSize: int)

  ghost predicate NoDuplicates(s: seq<string>) {
    forall i, j | 0 <= i < j < |s| :: s[i] != s[j]
  }

  /** The order lists each stored key exactly once. */
  ghost predicate Valid<V>(c: Cache<V>) {
    && NoDuplicates(c.order)
    && (forall k :: k in c.store <==> k in c.order)
  }

  /** An entry is expired once the time is strictly past its expiry. */
  predicate Expired<V>(e: Entry<V>, now: int) {
    now > e.expiry
  }

  function Size<V>(c: Cache<V>): (n: nat)
    requires Valid(c)
    ensures n == |c.store|
  {
    KeysCount(c);
    |c.order|
  }

  lemma KeysCount<V>(c: Cache<V>)
    requires Valid(c)
    ensures |c.order| == |c.store|
  {
    DistinctLength(c.order, c.store.Keys);
  }

  lemma {:induction false} DistinctLength(s: seq<string>, ks: set<string>)
    requires NoDuplicates(s)
    requires forall k :: k in ks <==> k in s
    ensures |s| == |ks|
    decreases |s|
  {
    if |s| > 0 {
      var n := |s| - 1;
      assert s[n] !in s[..n];
      assert forall k :: k in ks - {s[n]} <==> k in s[..n];
      DistinctLength(s[..n], ks - {s[n]});
    }
  }

  /**
   * The constructor. `ttlSeconds` and `maxSize` are the parsed environment settings
   * (`None` when unset or not a number); zero falls back to the default, as `||` does.
   */
  function New<V>(ttlSeconds: Option<int>, maxSize: Option<int>): (c: Cache<V>)
    ensures Valid(c) && |c.order| == 0
    ensures c.ttl != 0 && c.maxSize != 0
    ensures ttlSeconds.None? || ttlSeconds == Some(0) ==> c.ttl == DefaultTtl
    ensures maxSize.None? || maxSize == Some(0) ==> c.maxSize == DefaultMaxSize
    ensures ttlSeconds.Some? && ttlSeconds.value != 0 ==> c.ttl == ttlSeconds.value * 1000
    ensures maxSize.Some? && maxSize.value != 0 ==> c.maxSize == maxSize.value
  {
    var ttl := if ttlSeconds.Some? && ttlSeconds.value * 1000 != 0 then ttlSeconds.value * 1000 else DefaultTtl;
    var max := if maxSize.Some? && maxSize.value != 0 then maxSize.value else DefaultMaxSize;
    Cache(map[], [], ttl, max)
  }

  /** The sequence without `k`. */
  function Without(s: seq<string>, k: string): (r: seq<string>)
    ensures forall x :: x in r <==> x in s && x != k
    ensures NoDuplicates(s) ==> NoDuplicates(r)
    ensures k !in s ==> r == s
    ensures |r| <= |s|
  {
    if |s| == 0 then []
    else
      var rest := Without(s[1..], k);
      assert NoDuplicates(s) ==> NoDuplicates(s[1..]) && s[0] !in s[1..];
      if s[0] == k then rest else [s[0]] + rest
  }

  /** `Map.prototype.delete`: drops `key` and its place in the order. */
  function Remove<V>(c: Cache<V>, key: string): (r: Cache<V>)
    requires Valid(c)
    ensures Valid(r)
    ensures r.store == c.store - {key} && r.order == Without(c.order, key)
    ensures r.ttl == c.ttl && r.maxSize == c.maxSize
    ensures key !in c.store ==> r == c
  {
    Cache(c.store - {key}, Without(c.order, key), c.ttl, c.maxSize)
  }

  /** Removing the first key leaves exactly the rest of the order. */
  lemma RemoveFirst<V>(c: Cache<V>)
    requires Valid(c)
    ensures |c.order| > 0 ==> Remove(c, c.order[0]).order == c.order[1..]
  {
    if |c.order| > 0 {
      var s := c.order;
      assert s[0] !in s[1..];
      assert s == [s[0]] + s[1..];
    }
  }

  /** `Map.prototype.set` of an entry: a new key goes last, an existing one keeps its place. */
  function Put<V>(c: Cache<V>, key: string, e: Entry<V>): (r: Cache<V>)
    requires Valid(c)
    ensures Valid(r)
    ensures r.store == c.store[key := e]
    ensures r.order == if key in c.order then c.order else c.order + [key]
    ensures r.ttl == c.ttl && r.maxSize == c.maxSize
  {
    if key in c.store then Cache(c.store[key := e], c.order, c.ttl, c.maxSize)
    else Cache(c.store[key := e], c.order + [key], c.ttl, c.maxSize)
  }

  /** The cache is at capacity: the next `set` evicts the first key. */
  predicate AtCapacity<V>(c: Cache<V>) {
    |c.order| >= c.maxSize
  }

  /**
   * The insertion order after a `set` of `key` into a cache whose order is `order`: at
   * capacity the first key goes; then, as with a JavaScript `Map`, a key still present
   * keeps its place and a new or re-inserted key goes last.
   */
  function SetOrder(order: seq<string>, maxSize: int, key: string): seq<string> {
    var base := if |order| >= maxSize && |order| > 0 then order[1..] else order;
    if key in base then base else base + [key]
  }

  /**
   * `set`: at capacity, delete the first-inserted key (whatever `key` is), then store
   * the value with expiry `now + ttl`.
   */
  function Set<V>(c: Cache<V>, key: string, value: V, now: int): (r: Cache<V>)
    requires Valid(c)
    ensures Valid(r)
    ensures key in r.store && r.store[key] == Entry(value, now + c.ttl, now)
    ensures r.ttl == c.ttl && r.maxSize == c.maxSize
    // Exactly the first key is evicted, and only at capacity.
    ensures AtCapacity(c) && |c.order| > 0 && c.order[0] != key ==> c.order[0] !in r.store
    ensures forall k | k in c.store && k != key && !(AtCapacity(c) && k == c.order[0]) :: k in r.store && r.store[k] == c.store[k]
    ensures forall k | k in r.store :: k == key || k in c.store
    ensures |r.order| <= |c.order| + 1
    ensures r.order == SetOrder(c.order, c.maxSize, key)
  {
    Put(Evict(c), key, Entry(value, now + c.ttl, now))
  }

  /** The capacity check of `set`: at capacity the first-inserted key is deleted. */
  function Evict<V>(c: Cache<V>): (r: Cache<V>)
    requires Valid(c)
    ensures Valid(r)
    ensures r.store == if AtCapacity(c) && |c.order| > 0 then c.store - {c.order[0]} else c.store
    ensures r.order == if AtCapacity(c) && |c.order| > 0 then c.order[1..] else c.order
    ensures r.ttl == c.ttl && r.maxSize == c.maxSize
  {
    if AtCapacity(c) && |c.order| > 0 then DropOldest(c) else c
  }

  /** Deletes the first-inserted key. */
  function DropOldest<V>(c: Cache<V>): (r: Cache<V>)
    requires Valid(c) && |c.order| > 0
    ensures Valid(r)
    ensures r.store == c.store - {c.order[0]} && r.order == c.order[1..]
    ensures r.ttl == c.ttl && r.maxSize == c.maxSize
  {
    RemoveFirst(c);
    Remove(c, c.order[0])
  }

  /**
   * The write the capacity check evidently intends: a rewritten key moves to the end
   * and evicts nothing; only a new key arriving at capacity evicts the first-inserted
   * entry.
   */
  function SetRefreshing<V>(c: Cache<V>, key: string, value: V, now: int): (r: Cache<V>)
    requires Valid(c)
    ensures Valid(r)
    ensures key in r.store && r.store[key] == Entry(value, now + c.ttl, now)
    ensures r.ttl == c.ttl && r.maxSize == c.maxSize
    ensures forall k | k in r.store && k != key :: k in c.store && r.store[k] == c.store[k]
    ensures key in c.store ==> r.store.Keys == c.store.Keys
    ensures r.order == Survivors(c, key) + [key]
  {
    var c0 := Remove(c, key);
    var c1 := if key !in c.store && AtCapacity(c) && |c0.order| > 0 then Remove(c0, c0.order[0]) else c0;
    RemoveFirst(c0);
    Put(c1, key, Entry(value, now + c.ttl, now))
  }

  /**
   * The keys a refreshing write of `key` keeps ahead of it: all others, less the first
   * when a new key arrives at capacity.
   */
  function Survivors<V>(c: Cache<V>, key: string): seq<string> {
    var base := Without(c.order, key);
    if key !in c.store && AtCapacity(c) && |base| > 0 then base[1..] else base
  }

  /** `s` ends with `ks`. */
  ghost predicate EndsWith(s: seq<string>, ks: seq<string>) {
    |ks| <= |s| && s[|s| - |ks|..] == ks
  }

  lemma {:induction false} WithoutKeepsSuffix(s: seq<string>, ks: seq<string>, k: string)
    requires EndsWith(s, ks) && k !in ks
    ensures EndsWith(Without(s, k), ks)
    decreases |s|
  {
    if |s| > |ks| {
      WithoutKeepsSuffix(s[1..], ks, k);
      assert s[1..][|s| - 1 - |ks|..] == s[|s| - |ks|..];
      var rest := Without(s[1..], k);
      if s[0] != k {
        assert ([s[0]] + rest)[|rest| + 1 - |ks|..] == rest[|rest| - |ks|..];
      }
    } else {
      assert s == ks;
      assert k !in s;
    }
  }

  /**
   * With the refreshing write, keys written one after another stay the newest entries:
   * as long as fewer than `maxSize` of them were written, none of them is evicted.
   */
  lemma SetRefreshingKeepsRecent<V>(c: Cache<V>, ks: seq<string>, key: string, value: V, now: int)
    requires Valid(c) && EndsWith(c.order, ks) && key !in ks && |ks| < c.maxSize
    ensures EndsWith(SetRefreshing(c, key, value, now).order, ks + [key])
  {
    SurvivorsKeepSuffix(c, ks, key);
    AppendKeepsSuffix(Survivors(c, key), ks, key);
  }

  lemma SurvivorsKeepSuffix<V>(c: Cache<V>, ks: seq<string>, key: string)
    requires Valid(c) && EndsWith(c.order, ks) && key !in ks && |ks| < c.maxSize
    ensures EndsWith(Survivors(c, key), ks)
  {
    WithoutKeepsSuffix(c.order, ks, key);
    if key !in c.store && AtCapacity(c) {
      WithoutAbsent(c, key);
      DropFirstKeepsSuffix(c.order, ks);
    }
  }

  /** Removing a key the cache does not hold leaves the order as it is. */
  lemma WithoutAbsent<V>(c: Cache<V>, key: string)
    requires Valid(c) && key !in c.store
    ensures Without(c.order, key) == c.order
  {
    assert key !in c.order;
  }

  lemma DropFirstKeepsSuffix(s: seq<string>, ks: seq<string>)
    requires EndsWith(s, ks) && |s| > |ks|
    ensures EndsWith(s[1..], ks)
  {
    assert s[1..][|s| - 1 - |ks|..] == s[|s| - |ks|..];
  }

  lemma AppendKeepsSuffix(s: seq<string>, ks: seq<string>, k: string)
    requires EndsWith(s, ks)
    ensures EndsWith(s + [k], ks + [k])
  {
    assert (s + [k])[|s| - |ks|..] == s[|s| - |ks|..] + [k];
  }

  /** Below capacity `set` evicts nothing: every other entry stays as it was. */
  lemma SetBelowCapacity<V>(c: Cache<V>, key: string, value: V, now: int)
    requires Valid(c) && !AtCapacity(c)
    ensures var r := Set(c, key, value, now);
      && |r.order| <= |c.order| + 1
      && forall k | k in c.store && k != key :: k in r.store && r.store[k] == c.store[k]
  {
  }

  // ---------------------------------------------------------------- batches of writes

  /** The keys of a batch of writes. */
  function WriteKeys<V>(writes: seq<(string, V)>): (ks: seq<string>)
    ensures |ks| == |writes|
    ensures forall i | 0 <= i < |writes| :: ks[i] == writes[i].0
  {
    seq(|writes|, i requires 0 <= i < |writes| => writes[i].0)
  }

  ghost predicate DistinctKeys<V>(writes: seq<(string, V)>) {
    forall i, j | 0 <= i < j < |writes| :: writes[i].0 != writes[j].0
  }

  /** `key` holds `value`, written at `now`. */
  ghost predicate Holds<V>(c: Cache<V>, key: string, value: V, now: int) {
    key in c.store && c.store[key] == Entry(value, now + c.ttl, now)
  }

  /** Every write of the batch holds. */
  ghost predicate HoldsAll<V>(c: Cache<V>, writes: seq<(string, V)>, now: int) {
    forall i | 0 <= i < |writes| :: Holds(c, writes[i].0, writes[i].1, now)
  }

  /** The writes made one after another with `set`. */
  function SetAll<V>(c: Cache<V>, writes: seq<(string, V)>, now: int): (r: Cache<V>)
    requires Valid(c)
    ensures Valid(r) && r.ttl == c.ttl && r.maxSize == c.maxSize
    decreases |writes|
  {
    if |writes| == 0 then c
    else
      var last := writes[|writes| - 1];
      Set(SetAll(c, writes[..|writes| - 1], now), last.0, last.1, now)
  }

  /** The last write of a batch always holds afterwards. */
  lemma SetAllLastHolds<V>(c: Cache<V>, writes: seq<(string, V)>, now: int)
    requires Valid(c) && |writes| > 0
    ensures Holds(SetAll(c, writes, now), writes[|writes| - 1].0, writes[|writes| - 1].1, now)
  {
  }

  /** The insertion order after `set`s of `keys`, one after another. */
  function BatchOrder(order: seq<string>, maxSize: int, keys: seq<string>): seq<string>
    decreases |keys|
  {
    if |keys| == 0 then order
    else SetOrder(BatchOrder(order, maxSize, keys[..|keys| - 1]), maxSize, keys[|keys| - 1])
  }

  /** A batch of writes leaves the order its keys' `set`s produce. */
  lemma {:induction false} SetAllOrder<V>(c: Cache<V>, writes: seq<(string, V)>, now: int)
    requires Valid(c)
    ensures SetAll(c, writes, now).order == BatchOrder(c.order, c.maxSize, WriteKeys(writes))
    decreases |writes|
  {
    if |writes| > 0 {
      var n := |writes| - 1;
      SetAllOrder(c, writes[..n], now);
      assert WriteKeys(writes)[..n] == WriteKeys(writes[..n]);
    }
  }

  /** The writes made one after another with the refreshing write. */
  function SetAllRefreshing<V>(c: Cache<V>, writes: seq<(string, V)>, now: int): (r: Cache<V>)
    requires Valid(c)
    ensures Valid(r) && r.ttl == c.ttl && r.maxSize == c.maxSize
    decreases |writes|
  {
    if |writes| == 0 then c
    else
      var last := writes[|writes| - 1];
      SetRefreshing(SetAllRefreshing(c, writes[..|writes| - 1], now), last.0, last.1, now)
  }

  /** With room for the whole batch, `set` evicts nothing and every write is kept. */
  lemma {:induction false} SetAllWithRoom<V>(c: Cache<V>, writes: seq<(string, V)>, now: int)
    requires Valid(c) && DistinctKeys(writes)
    requires |c.order| + |writes| <= c.maxSize
    ensures var r := SetAll(c, writes, now);
      |r.order| <= |c.order| + |writes| && HoldsAll(r, writes, now)
    decreases |writes|
  {
    if |writes| > 0 {
      var n := |writes| - 1;
      SetAllWithRoom(c, writes[..n], now);
      RoomStep(SetAll(c, writes[..n], now), writes, now);
    }
  }

  /** One write below capacity keeps every earlier write of a batch of distinct keys. */
  lemma RoomStep<V>(before: Cache<V>, writes: seq<(string, V)>, now: int)
    requires Valid(before) && DistinctKeys(writes) && |writes| > 0 && !AtCapacity(before)
    requires HoldsAll(before, writes[..|writes| - 1], now)
    ensures var r := Set(before, writes[|writes| - 1].0, writes[|writes| - 1].1, now);
      |r.order| <= |before.order| + 1 && HoldsAll(r, writes, now)
  {
    var n := |writes| - 1;
    var r := Set(before, writes[n].0, writes[n].1, now);
    forall i | 0 <= i < n ensures Holds(r, writes[i].0, writes[i].1, now) {
      assert writes[..n][i] == writes[i];
      assert writes[i].0 != writes[n].0;
    }
  }

  /**
   * With the refreshing write, a batch of at most `maxSize` distinct keys is kept
   * whole, as the newest entries, however full the cache was.
   */
  lemma {:induction false} SetAllRefreshingKeepsBatch<V>(c: Cache<V>, writes: seq<(string, V)>, now: int)
    requires Valid(c) && DistinctKeys(writes)
    requires |writes| <= c.maxSize
    ensures var r := SetAllRefreshing(c, writes, now);
      EndsWith(r.order, WriteKeys(writes)) && HoldsAll(r, writes, now)
    decreases |writes|
  {
    if |writes| == 0 {
      assert c.order[|c.order|..] == [];
    } else {
      var n := |writes| - 1;
      var before := SetAllRefreshing(c, writes[..n], now);
      SetAllRefreshingKeepsBatch(c, writes[..n], now);
      RefreshBatchStep(before, writes, now);
      assert SetAllRefreshing(c, writes, now) == SetRefreshing(before, writes[n].0, writes[n].1, now);
    }
  }

  /** One write of a batch: the earlier writes survive it and it goes last. */
  lemma RefreshBatchStep<V>(before: Cache<V>, writes: seq<(string, V)>, now: int)
    requires Valid(before) && DistinctKeys(writes) && 0 < |writes| <= before.maxSize
    requires EndsWith(before.order, WriteKeys(writes[..|writes| - 1]))
    requires HoldsAll(before, writes[..|writes| - 1], now)
    ensures var r := SetRefreshing(before, writes[|writes| - 1].0, writes[|writes| - 1].1, now);
      EndsWith(r.order, WriteKeys(writes)) && HoldsAll(r, writes, now)
  {
    var n := |writes| - 1;
    var prefix := writes[..n];
    LastKeyIsNew(writes);
    SetRefreshingKeepsRecent(before, WriteKeys(prefix), writes[n].0, writes[n].1, now);
    var r := SetRefreshing(before, writes[n].0, writes[n].1, now);
    assert EndsWith(r.order, WriteKeys(writes));
    forall i | 0 <= i < |writes| ensures Holds(r, writes[i].0, writes[i].1, now) {
      if i < n {
        assert prefix[i] == writes[i];
        SuffixMember(r.order, WriteKeys(writes), i);
        KeptByRefresh(before, writes[n].0, writes[n].1, now, writes[i].0, writes[i].1);
      } else {
        assert i == n;
        assert Holds(r, writes[n].0, writes[n].1, now);
      }
    }
  }

  /** The last key of a batch of distinct keys is not among the earlier ones. */
  lemma LastKeyIsNew<V>(writes: seq<(string, V)>)
    requires DistinctKeys(writes) && |writes| > 0
    ensures var n := |writes| - 1;
      && writes[n].0 !in WriteKeys(writes[..n])
      && WriteKeys(writes) == WriteKeys(writes[..n]) + [writes[n].0]
  {
    var n := |writes| - 1;
    var ks := WriteKeys(writes[..n]);
    forall i | 0 <= i < |ks| ensures ks[i] != writes[n].0 {
      assert ks[i] == writes[i].0;
    }
    assert WriteKeys(writes) == ks + [writes[n].0];
  }

  lemma SuffixMember(s: seq<string>, ks: seq<string>, i: int)
    requires EndsWith(s, ks) && 0 <= i < |ks|
    ensures ks[i] in s
  {
    assert s[|s| - |ks| + i] == ks[i];
  }

  /** An entry that the refreshing write leaves in the order keeps its value. */
  lemma KeptByRefresh<V>(c: Cache<V>, key: string, value: V, now: int, k: string, v: V)
    requires Valid(c) && Holds(c, k, v, now) && k != key
    requires k in SetRefreshing(c, key, value, now).order
    ensures Holds(SetRefreshing(c, key, value, now), k, v, now)
  {
  }

  /** With room for at least one entry, `set` never takes the cache past `maxSize`. */
  lemma SetKeepsBound<V>(c: Cache<V>, key: string, value: V, now: int)
    requires Valid(c)
    requires c.maxSize >= 1 && |c.order| <= c.maxSize
    ensures |Set(c, key, value, now).order| <= c.maxSize
  {
  }

  /** At capacity a new key evicts exactly one entry, the first inserted, and the size stays. */
  lemma SetAtCapacityEvictsOldest<V>(c: Cache<V>, key: string, value: V, now: int)
    requires Valid(c) && |c.order| > 0 && AtCapacity(c)
    requires key !in c.store
    ensures var r := Set(c, key, value, now);
      && r.store.Keys == c.store.Keys - {c.order[0]} + {key}
      && |r.order| == |c.order|
  {
  }

  /** The result of `get`/`has`: the cache afterwards and the answer. */
  datatype Lookup<V, A> = Lookup(cache: Cache<V>, answer: A)

  /**
   * `get`: a miss for an absent key; an expired entry is deleted and reported as a miss;
   * a hit refreshes only the access time.
   */
  function Get<V>(c: Cache<V>, key: string, now: int): (r: Lookup<V, Option<V>>)
    requires Valid(c)
    ensures Valid(r.cache)
    ensures key !in c.store ==> r == Lookup(c, None)
    ensures key in c.store && Expired(c.store[key], now) ==>
      && r.answer == None
      && r.cache.store == c.store - {key} && r.cache.order == Without(c.order, key)
      && r.cache.ttl == c.ttl && r.cache.maxSize == c.maxSize
    ensures key in c.store && !Expired(c.store[key], now) ==>
      && r.answer == Some(c.store[key].value)
      && r.cache.order == c.order
      && r.cache.store == c.store[key := c.store[key].(accessed := now)]
      && r.cache.ttl == c.ttl && r.cache.maxSize == c.maxSize
  {
    if key !in c.store then Lookup(c, None)
    else
      var e := c.store[key];
      if now > e.expiry then Lookup(Remove(c, key), None)
      else Lookup(Put(c, key, e.(accessed := now)), Some(e.value))
  }

  /** `has`: like `get`, but a hit changes nothing. */
  function Has<V>(c: Cache<V>, key: string, now: int): (r: Lookup<V, bool>)
    requires Valid(c)
    ensures Valid(r.cache)
    ensures r.answer <==> key in c.store && !Expired(c.store[key], now)
    ensures r.answer ==> r.cache == c
    ensures key !in c.store ==> r.cache == c
    ensures !r.answer ==>
      && r.cache.store == c.store - {key} && r.cache.order == Without(c.order, key)
      && r.cache.ttl == c.ttl && r.cache.maxSize == c.maxSize
  {
    if key !in c.store then Lookup(c, false)
    else if now > c.store[key].expiry then Lookup(Remove(c, key), false)
    else Lookup(c, true)
  }

  /** `has` answers exactly what `get` does, and leaves the same entries behind. */
  lemma HasAgreesWithGet<V>(c: Cache<V>, key: string, now: int)
    requires Valid(c)
    ensures Has(c, key, now).answer <==> Get(c, key, now).answer.Some?
    ensures Has(c, key, now).cache.store.Keys == Get(c, key, now).cache.store.Keys
  {
  }

  /** `delete`: reports whether the key was present. */
  function Delete<V>(c: Cache<V>, key: string): (r: Lookup<V, bool>)
    requires Valid(c)
    ensures Valid(r.cache)
    ensures r.answer <==> key in c.store
    ensures r.cache.store == c.store - {key} && r.cache.order == Without(c.order, key)
    ensures r.cache.ttl == c.ttl && r.cache.maxSize == c.maxSize
  {
    Lookup(Remove(c, key), key in c.store)
  }

  /** `clear`. */
  function Clear<V>(c: Cache<V>): (r: Cache<V>)
    ensures Valid(r) && |r.store| == 0
    ensures r.ttl == c.ttl && r.maxSize == c.maxSize
  {
    Cache(map[], [], c.ttl, c.maxSize)
  }

  /**
   * `keys`: every stored key, expired or not, once each; the listing is the insertion
   * order, which `Put` keeps in `order` (a new key goes last).
   */
  function Keys<V>(c: Cache<V>): (ks: seq<string>)
    requires Valid(c)
    ensures forall k :: k in ks <==> k in c.store
    ensures |ks| == |c.store|
    ensures ks == c.order
  {
    KeysCount(c);
    c.order
  }

  /** The unexpired (key, value) pairs among `ks`, in order. */
  function LiveEntries<V>(store: map<string, Entry<V>>, ks: seq<string>, now: int): (r: seq<(string, V)>)
    requires forall k | k in ks :: k in store
    ensures |r| <= |ks|
    ensures forall p | p in r :: p.0 in ks && p.0 in store && !Expired(store[p.0], now) && p.1 == store[p.0].value
    ensures forall k | k in ks && !Expired(store[k], now) :: (k, store[k].value) in r
  {
    if |ks| == 0 then []
    else
      var k := ks[0];
      (if now <= store[k].expiry then [(k, store[k].value)] else []) + LiveEntries(store, ks[1..], now)
  }

  /** `entries`: exactly the unexpired pairs, in insertion order; the cache is not changed. */
  function Entries<V>(c: Cache<V>, now: int): (r: seq<(string, V)>)
    requires Valid(c)
    ensures forall p | p in r :: p.0 in c.store && !Expired(c.store[p.0], now) && p.1 == c.store[p.0].value
    ensures forall k | k in c.store && !Expired(c.store[k], now) :: (k, c.store[k].value) in r
    // The pairs follow the live keys in insertion order, each key once.
    ensures |r| == |LiveKeys(c.store, c.order, now)|
    ensures forall i | 0 <= i < |r| ::
      r[i] == (LiveKeys(c.store, c.order, now)[i], c.store[LiveKeys(c.store, c.order, now)[i]].value)
    ensures NoDuplicates(LiveKeys(c.store, c.order, now))
  {
    LiveEntriesFollowLiveKeys(c.store, c.order, now);
    LiveEntries(c.store, c.order, now)
  }

  /** The live pairs of `ks` are exactly its live keys, in order, with their values. */
  lemma {:induction false} LiveEntriesFollowLiveKeys<V>(store: map<string, Entry<V>>, ks: seq<string>, now: int)
    requires forall k | k in ks :: k in store
    ensures |LiveEntries(store, ks, now)| == |LiveKeys(store, ks, now)|
    ensures forall i | 0 <= i < |LiveKeys(store, ks, now)| ::
      LiveEntries(store, ks, now)[i] == (LiveKeys(store, ks, now)[i], store[LiveKeys(store, ks, now)[i]].value)
    decreases |ks|
  {
    if |ks| > 0 {
      var k, tail := ks[0], ks[1..];
      LiveEntriesFollowLiveKeys(store, tail, now);
      if now <= store[k].expiry {
        assert LiveEntries(store, ks, now) == [(k, store[k].value)] + LiveEntries(store, tail, now);
        assert LiveKeys(store, ks, now) == [k] + LiveKeys(store, tail, now);
        ConsFollows(store, k, LiveEntries(store, tail, now), LiveKeys(store, tail, now));
      } else {
        assert LiveEntries(store, ks, now) == LiveEntries(store, tail, now);
        assert LiveKeys(store, ks, now) == LiveKeys(store, tail, now);
      }
    }
  }

  /** Prepending a key and its pair keeps the pairs in step with the keys. */
  lemma ConsFollows<V>(store: map<string, Entry<V>>, k: string, es: seq<(string, V)>, ks: seq<string>)
    requires k in store && forall j | j in ks :: j in store
    requires |es| == |ks| && forall i | 0 <= i < |ks| :: es[i] == (ks[i], store[ks[i]].value)
    ensures var es', ks' := [(k, store[k].value)] + es, [k] + ks;
      |es'| == |ks'| && forall i | 0 <= i < |ks'| :: es'[i] == (ks'[i], store[ks'[i]].value)
  {
    var es', ks' := [(k, store[k].value)] + es, [k] + ks;
    forall i | 0 <= i < |ks'| ensures es'[i] == (ks'[i], store[ks'[i]].value) {
      if i > 0 {
        assert es'[i] == es[i - 1] && ks'[i] == ks[i - 1];
      }
    }
  }

  /** The keys of `s` whose entries are not expired, in order. */
  function LiveKeys<V>(store: map<string, Entry<V>>, s: seq<string>, now: int): (r: seq<string>)
    requires forall k | k in s :: k in store
    ensures forall k :: k in r <==> k in s && !Expired(store[k], now)
    ensures NoDuplicates(s) ==> NoDuplicates(r)
    ensures |r| <= |s|
  {
    if |s| == 0 then []
    else (if now <= store[s[0]].expiry then [s[0]] else []) + LiveKeys(store, s[1..], now)
  }

  /** `cleanup`: deletes exactly the expired entries; the rest keep their values and order. */
  function Cleanup<V>(c: Cache<V>, now: int): (r: Cache<V>)
    requires Valid(c)
    ensures Valid(r)
    ensures forall k :: k in r.store <==> k in c.store && !Expired(c.store[k], now)
    ensures forall k | k in r.store :: r.store[k] == c.store[k]
    ensures r.order == LiveKeys(c.store, c.order, now)
    ensures r.ttl == c.ttl && r.maxSize == c.maxSize
  {
    var keep := LiveKeys(c.store, c.order, now);
    Cache(map k | k in c.store && now <= c.store[k].expiry :: c.store[k], keep, c.ttl, c.maxSize)
  }

  /** After a sweep every remaining entry is live, and the entries listing is unchanged. */
  lemma CleanupKeepsEntries<V>(c: Cache<V>, now: int)
    requires Valid(c)
    ensures forall k | k in Cleanup(c, now).store :: !Expired(Cleanup(c, now).store[k], now)
    ensures Entries(Cleanup(c, now), now) == Entries(c, now)
  {
    LiveEntriesSkipExpired(c.store, c.order, now);
    var r := Cleanup(c, now);
    LiveEntriesRestrict(c.store, r.store, LiveKeys(c.store, c.order, now), now);
  }

  /** Dropping expired keys from the list does not change the live pairs. */
  lemma {:induction false} LiveEntriesSkipExpired<V>(store: map<string, Entry<V>>, s: seq<string>, now: int)
    requires forall k | k in s :: k in store
    ensures LiveEntries(store, LiveKeys(store, s, now), now) == LiveEntries(store, s, now)
    decreases |s|
  {
    if |s| > 0 {
      LiveEntriesSkipExpired(store, s[1..], now);
      var rest := LiveKeys(store, s[1..], now);
      if now <= store[s[0]].expiry {
        assert LiveKeys(store, s, now) == [s[0]] + rest;
        assert ([s[0]] + rest)[1..] == rest;
        assert LiveEntries(store, [s[0]] + rest, now) == [(s[0], store[s[0]].value)] + LiveEntries(store, rest, now);
      } else {
        assert LiveKeys(store, s, now) == rest;
        assert LiveEntries(store, s, now) == LiveEntries(store, s[1..], now);
      }
    }
  }

  /** Live pairs agree on two stores that agree on the listed keys. */
  lemma {:induction false} LiveEntriesRestrict<V>(store: map<string, Entry<V>>, small: map<string, Entry<V>>, s: seq<string>, now: int)
    requires forall k | k in s :: k in store && k in small && small[k] == store[k]
    ensures LiveEntries(small, s, now) == LiveEntries(store, s, now)
    decreases |s|
  {
    if |s| > 0 {
      LiveEntriesRestrict(store, small, s[1..], now);
    }
  }

  /** `setTTL`: applies to entries stored from now on. */
  function SetTtl<V>(c: Cache<V>, ttlSeconds: int): (r: Cache<V>)
    ensures r.store == c.store && r.order == c.order && r.maxSize == c.maxSize
    ensures r.ttl == ttlSeconds * 1000
  {
    c.(ttl := ttlSeconds * 1000)
  }

  /** `getTTL`, in seconds. */
  function GetTtl<V>(c: Cache<V>): real {
    c.ttl as real / 1000.0
  }

  /** Reading the TTL back gives the seconds that were set. */
  lemma TtlRoundTrip<V>(c: Cache<V>, ttlSeconds: int)
    ensures GetTtl(SetTtl(c, ttlSeconds)) == ttlSeconds as real
  {
  }

  /** `getMaxSize`. */
  function GetMaxSize<V>(c: Cache<V>): int {
    c.maxSize
  }

  /** The keys the trim to `m` keeps: the last `m` in insertion order. */
  function Kept(order: seq<string>, m: nat): (ks: seq<string>)
    ensures |ks| == if |order| > m then m else |order|
  {
    if |order| > m then order[|order| - m..] else order
  }

  /** Deletes first-inserted keys until at most `m` remain (the loop of `setMaxSize`). */
  function TrimTo<V>(c: Cache<V>, m: nat): (r: Cache<V>)
    requires Valid(c)
    ensures Valid(r)
    ensures r.order == Kept(c.order, m)
    ensures forall k | k in r.store :: k in c.store && r.store[k] == c.store[k]
    ensures r.ttl == c.ttl && r.maxSize == c.maxSize
  {
    var kept := Kept(c.order, m);
    assert forall k | k in kept :: k in c.order;
    Cache(map k | k in c.store && k in kept :: c.store[k], kept, c.ttl, c.maxSize)
  }

  /**
   * The trim is the source's loop: with more than `m` keys, deleting the first one and
   * trimming again gives the same cache; with at most `m` nothing is deleted.
   */
  lemma TrimIsLoop<V>(c: Cache<V>, m: nat)
    requires Valid(c)
    ensures |c.order| <= m ==> TrimTo(c, m) == c
    ensures |c.order| > m ==> TrimTo(c, m) == TrimTo(DropOldest(c), m)
  {
    if |c.order| > m {
      TrimDropStep(c, m);
    } else {
      assert TrimTo(c, m).store == c.store;
    }
  }

  lemma TrimDropStep<V>(c: Cache<V>, m: nat)
    requires Valid(c) && |c.order| > m
    ensures TrimTo(c, m) == TrimTo(DropOldest(c), m)
  {
    KeptAfterDrop(c.order, m);
    FirstNotKept(c, m);
    KeptStoreWithout(c.store, c.order[0], Kept(c.order, m));
  }

  lemma KeptAfterDrop(order: seq<string>, m: nat)
    requires |order| > m
    ensures Kept(order[1..], m) == Kept(order, m)
  {
    assert order[1..][|order| - 1 - m..] == order[|order| - m..];
  }

  lemma FirstNotKept<V>(c: Cache<V>, m: nat)
    requires Valid(c) && |c.order| > m
    ensures c.order[0] !in Kept(c.order, m)
  {
    var kept := Kept(c.order, m);
    forall i | 0 <= i < |kept| ensures kept[i] != c.order[0] {
      assert kept[i] == c.order[|c.order| - m + i];
    }
  }

  /** Restricting to keys that exclude `x` ignores whether `x` was deleted first. */
  lemma KeptStoreWithout<V>(store: map<string, Entry<V>>, x: string, kept: seq<string>)
    requires x !in kept
    ensures (map k | k in store - {x} && k in kept :: (store - {x})[k]) == (map k | k in store && k in kept :: store[k])
  {
  }

  /**
   * `setMaxSize`: records the bound and trims the oldest keys, leaving the last `m`
   * in insertion order. The source loops forever for a negative bound (deleting the
   * first key of an empty map does nothing), so the bound is a `nat`.
   */
  function SetMaxSize<V>(c: Cache<V>, m: nat): (r: Cache<V>)
    requires Valid(c)
    ensures Valid(r)
    ensures r.maxSize == m && GetMaxSize(r) == m
    ensures |r.order| <= m
    ensures |c.order| <= m ==> r.store == c.store && r.order == c.order
    ensures |c.order| > m ==> r.order == c.order[|c.order| - m..]
    ensures forall k | k in r.store :: r.store[k] == c.store[k]
  {
    TrimTo(c.(maxSize := m), m)
  }

  /** A value stored at `t` is read back at any time up to `t + ttl`. */
  lemma SetThenGet<V>(c: Cache<V>, key: string, value: V, t: int, t': int)
    requires Valid(c)
    requires t' <= t + c.ttl
    ensures Get(Set(c, key, value, t), key, t').answer == Some(value)
  {
  }

  /** A value stored at `t` is gone at any time after `t + ttl`, even without a sweep. */
  lemma SetThenGetExpired<V>(c: Cache<V>, key: string, value: V, t: int, t': int)
    requires Valid(c)
    requires t' > t + c.ttl
    ensures Get(Set(c, key, value, t), key, t').answer == None
    ensures key !in Get(Set(c, key, value, t), key, t').cache.store
  {
  }

  /** Storing another key keeps `key`'s entry, unless `key` is the one evicted. */
  lemma SetKeepsOtherKey<V>(c: Cache<V>, key: string, other: string, value: V, now: int)
    requires Valid(c) && key in c.store && key != other
    requires !(AtCapacity(c) && c.order[0] == key)
    ensures key in Set(c, other, value, now).store
    ensures Set(c, other, value, now).store[key] == c.store[key]
  {
  }
}

=== FILE: decimal.dfy ===
/**
 * Decimal text of non-negative integers, as JavaScript's template literals render a
 * driver number (`${n}`), together with the parser that inverts it.
 */
module Decimal {
  import opened Wrappers

  predicate IsDigit(c: char) {
    '0' <= c <= '9'
  }

  predicate AllDigits(s: string) {
    forall i | 0 <= i < |s| :: IsDigit(s[i])
  }

  function DigitChar(d: nat): (c: char)
    requires d < 10
    ensures IsDigit(c)
  {
    (d + '0' as int) as char
  }

  function DigitValue(c: char): (d: nat)
    requires IsDigit(c)
    ensures d < 10
  {
    c as int - '0' as int
  }

  /** The shortest decimal rendering of `n`: digits only, no leading zero. */
  function NatToString(n: nat): (s: string)
    ensures |s| >= 1 && AllDigits(s)
    ensures |s| > 1 ==> s[0] != '0'
    ensures n < 10 <==> |s| == 1
  {
    if n < 10 then [DigitChar(n)]
    else NatToString(n / 10) + [DigitChar(n % 10)]
  }

  /** The value of a non-empty digit string. */
  function ParseNat(s: string): nat
    requires |s| >= 1 && AllDigits(s)
    decreases |s|
  {
    if |s| == 1 then DigitValue(s[0])
    else ParseNat(s[..|s| - 1]) * 10 + DigitValue(s[|s| - 1])
  }

  /** Parsing undoes rendering. */
  lemma {:induction false} ParseNatToString(n: nat)
    ensures ParseNat(NatToString(n)) == n
    decreases n
  {
    if n >= 10 {
      var s := NatToString(n);
      assert s[..|s| - 1] == NatToString(n / 10);
      ParseNatToString(n / 10);
    }
  }

  /** Distinct numbers render to distinct strings. */
  lemma NatToStringInjective(a: nat, b: nat)
    requires NatToString(a) == NatToString(b)
    ensures a == b
  {
    ParseNatToString(a);
    ParseNatToString(b);
  }

  /** The index of the first occurrence of `c` in `s`, if any. */
  function IndexOf(s: string, c: char): (r: Option<nat>)
    ensures r.Some? ==> r.value < |s| && s[r.value] == c
    ensures r.Some? ==> forall i | 0 <= i < r.value :: s[i] != c
    ensures r.None? ==> forall i | 0 <= i < |s| :: s[i] != c
  {
    if |s| == 0 then None
    else if s[0] == c then Some(0)
    else match IndexOf(s[1..], c)
      case None => None
      case Some(i) => Some(i + 1)
  }

  /** Text of a pair of numbers joined by `sep`, as `${a}${sep}${b}` renders it. */
  function JoinPair(a: nat, sep: char, b: nat): string
  {
    NatToString(a) + [sep] + NatToString(b)
  }

  /** Splits `s` at the first `sep` and parses both halves as numbers. */
  function SplitPair(s: string, sep: char): Option<(nat, nat)>
  {
    match IndexOf(s, sep)
    case None => None
    case Some(i) =>
      var left := s[..i];
      var right := s[i + 1..];
      if |left| >= 1 && AllDigits(left) && |right| >= 1 && AllDigits(right)
      then Some((ParseNat(left), ParseNat(right)))
      else None
  }

  /** A joined pair splits back into the same pair when the separator is not a digit. */
  lemma SplitJoinPair(a: nat, sep: char, b: nat)
    requires !IsDigit(sep)
    ensures SplitPair(JoinPair(a, sep, b), sep) == Some((a, b))
  {
    var sa := NatToString(a);
    var s := JoinPair(a, sep, b);
    assert s[|sa|] == sep;
    assert forall i | 0 <= i < |sa| :: s[i] == sa[i];
    var idx := IndexOf(s, sep);
    assert idx == Some(|sa|);
    assert s[..|sa|] == sa;
    assert s[|sa| + 1..] == NatToString(b);
    ParseNatToString(a);
    ParseNatToString(b);
  }

  /** Joined pairs are equal only when the pairs are. */
  lemma JoinPairInjective(a: nat, b: nat, c: nat, d: nat, sep: char)
    requires !IsDigit(sep)
    requires JoinPair(a, sep, b) == JoinPair(c, sep, d)
    ensures a == c && b == d
  {
    SplitJoinPair(a, sep, b);
    SplitJoinPair(c, sep, d);
  }
}

=== FILE: hub.dfy ===
/**
 * The realtime hub of server.js: the registry of WebSocket clients, the broadcast to
 * open clients, the poll cycle that derives the four snapshots, caches them and sends
 * one `update` envelope, and the read-through GET handlers. The adapter's results, the
 * clock and which client sockets are open are parameters.
 */
module Hub {
  import opened Wrappers
  import opened Normalizer
  import SnapshotCache

  const LeaderboardKey: string := "leaderboard"
  const BattlesKey: string := "battles"
  const PositionsKey: string := "positions"
  const DriversKey: string := "drivers"

  /** A cached value: one of the four snapshots. */
  datatype Payload =
    | Board(rows: seq<LeaderboardEntry>)
    | Fights(battles: seq<Battle>)
    | Points(points: seq<PositionPoint>)
    | Roster(drivers: seq<Driver>)

  /**
   * What the adapter returned: raw position samples, driver metadata and location
   * samples. A position or location result that is not an array is `None`.
   */
  datatype Fetched = Fetched(
    positions: Option<seq<PositionSample>>,
    drivers: seq<Driver>,
    locations: Option<seq<LocationSample>>)

  datatype Snapshot = Snapshot(
    leaderboard: seq<LeaderboardEntry>,
    battles: seq<Battle>,
    positions: seq<PositionPoint>,
    drivers: seq<Driver>)

  /** The broadcast envelope; its `type` is always `"update"`. */
  datatype Envelope = Update(timestamp: int, data: Snapshot)

  /** The hub: its cache, the registered clients and every message each client was sent. */
  datatype Server = Server(
    cache: SnapshotCache.Cache<Payload>,
    clients: set<nat>,
    outbox: map<nat, seq<Envelope>>)

  ghost predicate Valid(s: Server) {
    SnapshotCache.Valid(s.cache)
  }

  /** The messages client `id` has been sent. */
  function Sent(s: Server, id: nat): seq<Envelope> {
    if id in s.outbox then s.outbox[id] else []
  }

  // ---------------------------------------------------------------- client registry

  /** A new connection registers its client. */
  function Connect(s: Server, id: nat): (r: Server)
    ensures r.clients == s.clients + {id}
    ensures r.cache == s.cache && r.outbox == s.outbox
  {
    s.(clients := s.clients + {id})
  }

  /** A `close` or `error` event unregisters the client. */
  function Drop(s: Server, id: nat): (r: Server)
    ensures r.clients == s.clients - {id}
    ensures r.cache == s.cache && r.outbox == s.outbox
  {
    s.(clients := s.clients - {id})
  }

  /** Registering is idempotent, and a client that closes after connecting leaves no trace. */
  lemma RegistryRoundTrip(s: Server, id: nat)
    ensures Connect(Connect(s, id), id) == Connect(s, id)
    ensures Drop(Drop(s, id), id) == Drop(s, id)
    ensures id !in s.clients ==> Drop(Connect(s, id), id) == s
  {
    if id !in s.clients {
      assert s.clients + {id} - {id} == s.clients;
    }
  }

  // ---------------------------------------------------------------- broadcast

  /** `broadcastToClients`: the same message to every registered client whose socket is open. */
  function Broadcast(s: Server, open: set<nat>, m: Envelope): (r: Server)
    ensures r.clients == s.clients && r.cache == s.cache
    ensures forall id | id in s.clients && id in open :: Sent(r, id) == Sent(s, id) + [m]
    ensures forall id | !(id in s.clients && id in open) :: Sent(r, id) == Sent(s, id)
  {
    var targets := s.clients * open;
    var outbox := map id | id in s.outbox.Keys + targets ::
      if id in targets then Sent(s, id) + [m] else s.outbox[id];
    s.(outbox := outbox)
  }

  // ---------------------------------------------------------------- the poll cycle

  /** The end of a successful poll: the refreshed cache is installed and `m` broadcast. */
  function Publish(s: Server, cache: SnapshotCache.Cache<Payload>, open: set<nat>, m: Envelope): (r: Server)
    ensures r.cache == cache && r.clients == s.clients
    ensures forall id | id in s.clients && id in open :: Sent(r, id) == Sent(s, id) + [m]
    ensures forall id | !(id in s.clients && id in open) :: Sent(r, id) == Sent(s, id)
  {
    Broadcast(s.(cache := cache), open, m)
  }

  /** The four snapshots of one poll. `now` also stamps the detected battles. */
  function Derive(f: Fetched, now: int): Snapshot {
    Snapshot(
      NormalizeLeaderboard(f.positions, f.drivers),
      DetectBattles(f.positions, now),
      NormalizePositions(f.locations),
      f.drivers)
  }

  /** The four cache writes of a poll, in the order the source makes them. */
  function SnapshotWrites(snap: Snapshot): seq<(string, Payload)> {
    [(LeaderboardKey, Board(snap.leaderboard)), (BattlesKey, Fights(snap.battles)),
     (PositionsKey, Points(snap.positions)), (DriversKey, Roster(snap.drivers))]
  }

  /** The four writes of a poll, made with `set`. */
  function StoreSnapshot(c: SnapshotCache.Cache<Payload>, snap: Snapshot, now: int): (r: SnapshotCache.Cache<Payload>)
    requires SnapshotCache.Valid(c)
    ensures SnapshotCache.Valid(r)
    ensures r.ttl == c.ttl && r.maxSize == c.maxSize
  {
    SnapshotCache.SetAll(c, SnapshotWrites(snap), now)
  }

  /** The last write, `drivers`, always survives the batch. */
  lemma StoreSnapshotKeepsDrivers(c: SnapshotCache.Cache<Payload>, snap: Snapshot, now: int)
    requires SnapshotCache.Valid(c)
    ensures DriversKey in StoreSnapshot(c, snap, now).store
    ensures StoreSnapshot(c, snap, now).store[DriversKey] == SnapshotCache.Entry(Roster(snap.drivers), now + c.ttl, now)
  {
    var ws := SnapshotWrites(snap);
    SnapshotCache.SetAllLastHolds(c, ws, now);
    assert ws[|ws| - 1] == (DriversKey, Roster(snap.drivers));
  }

  /** The insertion order after the batch is the one the four `set` calls produce. */
  lemma StoreSnapshotOrder(c: SnapshotCache.Cache<Payload>, snap: Snapshot, now: int)
    requires SnapshotCache.Valid(c)
    ensures StoreSnapshot(c, snap, now).order == StoreOrder(c.order, c.maxSize)
  {
    StoreOrderIsBatchOrder(c, SnapshotWrites(snap), now);
  }

  /** The insertion order the four writes of a poll leave behind. */
  function StoreOrder(order: seq<string>, maxSize: int): seq<string> {
    var o1 := SnapshotCache.SetOrder(order, maxSize, LeaderboardKey);
    var o2 := SnapshotCache.SetOrder(o1, maxSize, BattlesKey);
    var o3 := SnapshotCache.SetOrder(o2, maxSize, PositionsKey);
    SnapshotCache.SetOrder(o3, maxSize, DriversKey)
  }

  lemma StoreOrderIsBatchOrder(c: SnapshotCache.Cache<Payload>, ws: seq<(string, Payload)>, now: int)
    requires SnapshotCache.Valid(c) && |ws| == 4
    requires ws[0].0 == LeaderboardKey && ws[1].0 == BattlesKey && ws[2].0 == PositionsKey && ws[3].0 == DriversKey
    ensures SnapshotCache.SetAll(c, ws, now).order == StoreOrder(c.order, c.maxSize)
  {
    SnapshotCache.SetAllOrder(c, ws, now);
    FourWriteKeys(ws);
    FourKeysOrder(c.order, c.maxSize);
  }

  lemma FourWriteKeys(ws: seq<(string, Payload)>)
    requires |ws| == 4
    requires ws[0].0 == LeaderboardKey && ws[1].0 == BattlesKey && ws[2].0 == PositionsKey && ws[3].0 == DriversKey
    ensures SnapshotCache.WriteKeys(ws) == [LeaderboardKey, BattlesKey, PositionsKey, DriversKey]
  {
  }

  lemma FourKeysOrder(order: seq<string>, maxSize: int)
    ensures SnapshotCache.BatchOrder(order, maxSize, [LeaderboardKey, BattlesKey, PositionsKey, DriversKey]) == StoreOrder(order, maxSize)
  {
    FourOrder(order, maxSize, LeaderboardKey, BattlesKey, PositionsKey, DriversKey);
  }

  lemma FourOrder(order: seq<string>, m: int, a: string, b: string, c: string, d: string)
    ensures SnapshotCache.BatchOrder(order, m, [a, b, c, d])
      == SnapshotCache.SetOrder(SnapshotCache.SetOrder(SnapshotCache.SetOrder(SnapshotCache.SetOrder(order, m, a), m, b), m, c), m, d)
  {
    var ks := [a, b, c, d];
    assert ks[..3] == [a, b, c] && [a, b, c][..2] == [a, b] && [a, b][..1] == [a] && [a][..0] == [];
    assert SnapshotCache.BatchOrder(order, m, []) == order;
    var o1 := SnapshotCache.BatchOrder(order, m, [a]);
    assert o1 == SnapshotCache.SetOrder(order, m, a);
    var o2 := SnapshotCache.BatchOrder(order, m, [a, b]);
    assert o2 == SnapshotCache.SetOrder(o1, m, b);
    var o3 := SnapshotCache.BatchOrder(order, m, [a, b, c]);
    assert o3 == SnapshotCache.SetOrder(o2, m, c);
  }

  /**
   * `pollAndBroadcast`: `fetched` is `None` when the adapter or a derivation throws,
   * and then nothing is cached or sent. Otherwise the snapshots are cached and one
   * `update` envelope goes to every open registered client.
   */
  function PollCycle(s: Server, fetched: Option<Fetched>, open: set<nat>, now: int): (r: Server)
    requires Valid(s)
    ensures Valid(r)
    ensures fetched.None? ==> r == s
    ensures r.clients == s.clients
    ensures fetched.Some? ==> forall id | id in s.clients && id in open ::
      Sent(r, id) == Sent(s, id) + [Update(now, Derive(fetched.value, now))]
    ensures forall id | fetched.None? || !(id in s.clients && id in open) :: Sent(r, id) == Sent(s, id)
    ensures fetched.Some? ==>
      DriversKey in r.cache.store && r.cache.store[DriversKey].value == Roster(fetched.value.drivers)
  {
    match fetched
    case None => s
    case Some(f) =>
      var snap := Derive(f, now);
      StoreSnapshotKeepsDrivers(s.cache, snap, now);
      Publish(s, StoreSnapshot(s.cache, snap, now), open, Update(now, snap))
  }

  /** The cache holds the four snapshots of `snap`, written at `now`. */
  ghost predicate HoldsSnapshot(c: SnapshotCache.Cache<Payload>, snap: Snapshot, now: int) {
    && LeaderboardKey in c.store && c.store[LeaderboardKey] == SnapshotCache.Entry(Board(snap.leaderboard), now + c.ttl, now)
    && BattlesKey in c.store && c.store[BattlesKey] == SnapshotCache.Entry(Fights(snap.battles), now + c.ttl, now)
    && PositionsKey in c.store && c.store[PositionsKey] == SnapshotCache.Entry(Points(snap.positions), now + c.ttl, now)
    && DriversKey in c.store && c.store[DriversKey] == SnapshotCache.Entry(Roster(snap.drivers), now + c.ttl, now)
  }

  /** The four snapshot keys are distinct. */
  lemma KeysDistinct()
    ensures LeaderboardKey != BattlesKey && LeaderboardKey != PositionsKey && LeaderboardKey != DriversKey
    ensures BattlesKey != PositionsKey && BattlesKey != DriversKey && PositionsKey != DriversKey
  {
    assert LeaderboardKey[0] == 'l' && BattlesKey[0] == 'b' && PositionsKey[0] == 'p' && DriversKey[0] == 'd';
  }

  /** With room for four more entries, the four writes evict nothing they wrote. */
  lemma StoreWithRoomHoldsSnapshot(c: SnapshotCache.Cache<Payload>, snap: Snapshot, now: int)
    requires SnapshotCache.Valid(c)
    requires |c.order| + 4 <= c.maxSize
    ensures HoldsSnapshot(StoreSnapshot(c, snap, now), snap, now)
  {
    KeysDistinct();
    var ws := SnapshotWrites(snap);
    SnapshotCache.SetAllWithRoom(c, ws, now);
    BatchHoldsSnapshot(SnapshotCache.SetAll(c, ws, now), snap, now);
  }

  /** A cache holding every write of the batch holds the snapshot. */
  lemma BatchHoldsSnapshot(c: SnapshotCache.Cache<Payload>, snap: Snapshot, now: int)
    requires SnapshotCache.HoldsAll(c, SnapshotWrites(snap), now)
    ensures HoldsSnapshot(c, snap, now)
  {
    var ws := SnapshotWrites(snap);
    assert SnapshotCache.Holds(c, ws[0].0, ws[0].1, now);
    assert SnapshotCache.Holds(c, ws[1].0, ws[1].1, now);
    assert SnapshotCache.Holds(c, ws[2].0, ws[2].1, now);
    assert SnapshotCache.Holds(c, ws[3].0, ws[3].1, now);
  }

  /** With room for four more entries, a poll caches exactly what it broadcasts. */
  lemma PollCachesBroadcast(s: Server, f: Fetched, open: set<nat>, now: int)
    requires Valid(s)
    requires |s.cache.order| + 4 <= s.cache.maxSize
    ensures HoldsSnapshot(PollCycle(s, Some(f), open, now).cache, Derive(f, now), now)
  {
    StoreWithRoomHoldsSnapshot(s.cache, Derive(f, now), now);
  }

  // ---------------------------------------------------------------- a full cache

  const Telemetry1: string := "telemetry_1"
  const Telemetry16: string := "telemetry_16"
  const Driver44: string := "driver_44"

  /**
   * A cache at its capacity of four: a telemetry entry, the leaderboard, another
   * telemetry entry and a driver entry, in that insertion order.
   */
  function FullCache(e: SnapshotCache.Entry<Payload>): SnapshotCache.Cache<Payload> {
    SnapshotCache.Cache(
      map[Telemetry1 := e, LeaderboardKey := e, Telemetry16 := e, Driver44 := e],
      [Telemetry1, LeaderboardKey, Telemetry16, Driver44],
      SnapshotCache.DefaultTtl, 4)
  }

  lemma FullCacheValid(e: SnapshotCache.Entry<Payload>)
    ensures SnapshotCache.Valid(FullCache(e))
  {
    KeysDistinct();
    assert Telemetry1[0] == 't' && Telemetry16[0] == 't' && Driver44[0] == 'd';
    assert |Telemetry1| == 11 && |Telemetry16| == 12;
  }

  /**
   * As written, a poll can drop the leaderboard it has just cached: rewriting the
   * existing `leaderboard` key evicts the first entry although no entry is added, the
   * key keeps its early place, and the `positions` write then evicts it. The broadcast
   * carries a leaderboard that the leaderboard route no longer finds.
   */
  lemma FullCacheLosesLeaderboard(e: SnapshotCache.Entry<Payload>, f: Fetched, open: set<nat>, now: int)
    ensures SnapshotCache.Valid(FullCache(e))
    ensures LeaderboardKey !in PollCycle(Server(FullCache(e), {}, map[]), Some(f), open, now).cache.store
  {
    FullCacheValid(e);
    FullStoreLosesLeaderboard(e, Derive(f, now), now);
  }

  /** The four writes into the full cache leave no leaderboard entry behind. */
  lemma FullStoreLosesLeaderboard(e: SnapshotCache.Entry<Payload>, snap: Snapshot, now: int)
    requires SnapshotCache.Valid(FullCache(e))
    ensures LeaderboardKey !in StoreSnapshot(FullCache(e), snap, now).store
  {
    KeysDistinct();
    assert Telemetry1[0] == 't' && Telemetry16[0] == 't' && |Telemetry1| == 11 && |Telemetry16| == 12;
    assert Driver44[0] == 'd' && |Driver44| == 9 && |DriversKey| == 7;
    LeaderboardRewriteLost(FullCache(e), snap, now, Telemetry1, Telemetry16, Driver44);
  }

  /**
   * In a cache of capacity four holding `x`, the leaderboard, `y` and `z` (none of them
   * another snapshot key), the four writes of a poll evict the leaderboard.
   */
  lemma LeaderboardRewriteLost(c: SnapshotCache.Cache<Payload>, snap: Snapshot, now: int, x: string, y: string, z: string)
    requires SnapshotCache.Valid(c) && c.maxSize == 4 && c.order == [x, LeaderboardKey, y, z]
    requires y != BattlesKey && y != PositionsKey && y != DriversKey
    requires z != BattlesKey && z != PositionsKey && z != DriversKey
    ensures LeaderboardKey !in StoreSnapshot(c, snap, now).store
  {
    assert z != LeaderboardKey by {
      assert c.order[1] == LeaderboardKey && c.order[3] == z;
    }
    LeaderboardRewriteOrder(x, y, z);
    StoreSnapshotOrder(c, snap, now);
    UnlistedLeaderboard(StoreSnapshot(c, snap, now), z);
  }

  /** A cache whose order is `z` and the other three snapshot keys holds no leaderboard. */
  lemma UnlistedLeaderboard(r: SnapshotCache.Cache<Payload>, z: string)
    requires SnapshotCache.Valid(r) && r.order == [z, BattlesKey, PositionsKey, DriversKey]
    requires z != LeaderboardKey
    ensures LeaderboardKey !in r.store
  {
    KeysDistinct();
  }

  lemma LeaderboardRewriteOrder(x: string, y: string, z: string)
    requires y != BattlesKey && y != PositionsKey && y != DriversKey
    requires z != BattlesKey && z != PositionsKey && z != DriversKey
    ensures StoreOrder([x, LeaderboardKey, y, z], 4) == [z, BattlesKey, PositionsKey, DriversKey]
  {
    KeysDistinct();
    var o1 := SnapshotCache.SetOrder([x, LeaderboardKey, y, z], 4, LeaderboardKey);
    assert [x, LeaderboardKey, y, z][1..] == [LeaderboardKey, y, z];
    assert o1 == [LeaderboardKey, y, z];
    var o2 := SnapshotCache.SetOrder(o1, 4, BattlesKey);
    assert o2 == [LeaderboardKey, y, z, BattlesKey];
    var o3 := SnapshotCache.SetOrder(o2, 4, PositionsKey);
    assert o2[1..] == [y, z, BattlesKey];
    assert o3 == [y, z, BattlesKey, PositionsKey];
    assert o3[1..] == [z, BattlesKey, PositionsKey];
  }

  /** The four cache writes of a poll, made one after another with the refreshing write. */
  function StoreSnapshotRefreshing(c: SnapshotCache.Cache<Payload>, snap: Snapshot, now: int): (r: SnapshotCache.Cache<Payload>)
    requires SnapshotCache.Valid(c)
    ensures SnapshotCache.Valid(r)
    ensures r.ttl == c.ttl && r.maxSize == c.maxSize
  {
    SnapshotCache.SetAllRefreshing(c, SnapshotWrites(snap), now)
  }

  /** The poll cycle with the refreshing write; otherwise as `PollCycle`. */
  function PollCycleRefreshing(s: Server, fetched: Option<Fetched>, open: set<nat>, now: int): (r: Server)
    requires Valid(s)
    ensures Valid(r)
    ensures fetched.None? ==> r == s
    ensures r.clients == s.clients
    ensures fetched.Some? ==> forall id | id in s.clients && id in open ::
      Sent(r, id) == Sent(s, id) + [Update(now, Derive(fetched.value, now))]
    ensures forall id | fetched.None? || !(id in s.clients && id in open) :: Sent(r, id) == Sent(s, id)
  {
    match fetched
    case None => s
    case Some(f) =>
      var snap := Derive(f, now);
      Publish(s, StoreSnapshotRefreshing(s.cache, snap, now), open, Update(now, snap))
  }

  /**
   * With the refreshing write, a cache with room for the four snapshot keys holds all
   * four after every poll, however full it was.
   */
  lemma RefreshingStoreHoldsSnapshot(c: SnapshotCache.Cache<Payload>, snap: Snapshot, now: int)
    requires SnapshotCache.Valid(c) && c.maxSize >= 4
    ensures HoldsSnapshot(StoreSnapshotRefreshing(c, snap, now), snap, now)
  {
    KeysDistinct();
    var ws := SnapshotWrites(snap);
    assert SnapshotCache.DistinctKeys(ws);
    SnapshotCache.SetAllRefreshingKeepsBatch(c, ws, now);
    BatchHoldsSnapshot(StoreSnapshotRefreshing(c, snap, now), snap, now);
  }

  /** The corrected poll: the route finds every snapshot the poll broadcast. */
  lemma RefreshingPollHoldsSnapshot(s: Server, f: Fetched, open: set<nat>, now: int)
    requires Valid(s) && s.cache.maxSize >= 4
    ensures HoldsSnapshot(PollCycleRefreshing(s, Some(f), open, now).cache, Derive(f, now), now)
  {
    RefreshingStoreHoldsSnapshot(s.cache, Derive(f, now), now);
  }

  /**
   * The envelope is coherent: both cars of every battle it carries are on its
   * leaderboard, unretired, at the battle's positions.
   */
  lemma EnvelopeIsCoherent(f: Fetched, now: int)
    ensures var snap := Derive(f, now);
      forall b | b in snap.battles :: OnBoard(snap.leaderboard, b.leading) && OnBoard(snap.leaderboard, b.chasing)
  {
    if f.positions.Some? {
      BattleCarsOnBoard(f.positions.value, f.drivers, now);
    }
  }

  // ---------------------------------------------------------------- read-through routes

  /** An HTTP reply: the JSON payload, or the 500 error of a failed fetch. */
  datatype Reply = Json(payload: Payload) | ServerError

  /** `key` has an entry that has not expired at `now`. */
  predicate IsLive(c: SnapshotCache.Cache<Payload>, key: string, now: int) {
    key in c.store && !SnapshotCache.Expired(c.store[key], now)
  }

  /**
   * A read-through GET handler: a live cached snapshot is served without calling the
   * adapter; otherwise the freshly computed snapshot (`None` when the adapter throws)
   * is cached and served. Every payload is an array, so a cached one always counts as
   * present.
   */
  function ReadThrough(c: SnapshotCache.Cache<Payload>, key: string, now: int, computed: Option<Payload>): (r: SnapshotCache.Lookup<Payload, Reply>)
    requires SnapshotCache.Valid(c)
    ensures SnapshotCache.Valid(r.cache)
    ensures IsLive(c, key, now) ==> r.answer == Json(c.store[key].value) && r.cache.store.Keys == c.store.Keys
    ensures !IsLive(c, key, now) && computed.Some? ==>
      r.answer == Json(computed.value) && key in r.cache.store && r.cache.store[key] == SnapshotCache.Entry(computed.value, now + c.ttl, now)
    ensures !IsLive(c, key, now) && computed.None? ==> r.answer == ServerError && r.cache.store == c.store - {key}
  {
    var got := SnapshotCache.Get(c, key, now);
    match got.answer
    case Some(v) => SnapshotCache.Lookup(got.cache, Json(v))
    case None =>
      match computed
      case None => SnapshotCache.Lookup(got.cache, ServerError)
      case Some(p) => SnapshotCache.Lookup(SnapshotCache.Set(got.cache, key, p, now), Json(p))
  }

  /** A hit never depends on what the adapter would have returned. */
  lemma HitIgnoresAdapter(c: SnapshotCache.Cache<Payload>, key: string, now: int, f1: Option<Payload>, f2: Option<Payload>)
    requires SnapshotCache.Valid(c) && IsLive(c, key, now)
    ensures ReadThrough(c, key, now, f1) == ReadThrough(c, key, now, f2)
  {
  }

  /** A miss that succeeds is served from the cache by every read until the entry expires. */
  lemma MissThenHit(c: SnapshotCache.Cache<Payload>, key: string, now: int, later: int, p: Payload, f: Option<Payload>)
    requires SnapshotCache.Valid(c) && !IsLive(c, key, now)
    requires now <= later <= now + c.ttl
    ensures var first := ReadThrough(c, key, now, Some(p));
      IsLive(first.cache, key, later) && ReadThrough(first.cache, key, later, f).answer == Json(p)
  {
  }

  /** `GET /api/leaderboard`. */
  function LeaderboardRoute(c: SnapshotCache.Cache<Payload>, now: int, fetched: Option<Fetched>): (r: SnapshotCache.Lookup<Payload, Reply>)
    requires SnapshotCache.Valid(c)
    ensures SnapshotCache.Valid(r.cache)
    ensures !IsLive(c, LeaderboardKey, now) && fetched.Some? ==>
      r.answer == Json(Board(NormalizeLeaderboard(fetched.value.positions, fetched.value.drivers)))
  {
    ReadThrough(c, LeaderboardKey, now,
      if fetched.Some? then Some(Board(NormalizeLeaderboard(fetched.value.positions, fetched.value.drivers))) else None)
  }

  /** `GET /api/battles`. */
  function BattlesRoute(c: SnapshotCache.Cache<Payload>, now: int, fetched: Option<Fetched>): (r: SnapshotCache.Lookup<Payload, Reply>)
    requires SnapshotCache.Valid(c)
    ensures SnapshotCache.Valid(r.cache)
    ensures !IsLive(c, BattlesKey, now) && fetched.Some? ==>
      r.answer == Json(Fights(DetectBattles(fetched.value.positions, now)))
  {
    ReadThrough(c, BattlesKey, now,
      if fetched.Some? then Some(Fights(DetectBattles(fetched.value.positions, now))) else None)
  }

  /** `GET /api/positions`. */
  function PositionsRoute(c: SnapshotCache.Cache<Payload>, now: int, fetched: Option<Fetched>): (r: SnapshotCache.Lookup<Payload, Reply>)
    requires SnapshotCache.Valid(c)
    ensures SnapshotCache.Valid(r.cache)
    ensures !IsLive(c, PositionsKey, now) && fetched.Some? ==>
      r.answer == Json(Points(NormalizePositions(fetched.value.locations)))
  {
    ReadThrough(c, PositionsKey, now,
      if fetched.Some? then Some(Points(NormalizePositions(fetched.value.locations))) else None)
  }

  /** `GET /api/drivers`. */
  function DriversRoute(c: SnapshotCache.Cache<Payload>, now: int, fetched: Option<Fetched>): (r: SnapshotCache.Lookup<Payload, Reply>)
    requires SnapshotCache.Valid(c)
    ensures SnapshotCache.Valid(r.cache)
    ensures !IsLive(c, DriversKey, now) && fetched.Some? ==>
      r.answer == Json(Roster(fetched.value.drivers))
  {
    ReadThrough(c, DriversKey, now, if fetched.Some? then Some(Roster(fetched.value.drivers)) else None)
  }

  /**
   * Between polls the routes serve what the last poll broadcast: with room in the cache,
   * a leaderboard read at or after the poll, within the TTL, answers the broadcast
   * leaderboard whatever the adapter would say now.
   */
  lemma RouteServesPolledBoard(s: Server, f: Fetched, open: set<nat>, now: int, later: int, g: Option<Fetched>)
    requires Valid(s)
    requires |s.cache.order| + 4 <= s.cache.maxSize
    requires now <= later <= now + s.cache.ttl
    ensures LeaderboardRoute(PollCycle(s, Some(f), open, now).cache, later, g).answer
      == Json(Board(Derive(f, now).leaderboard))
  {
    PollCachesBroadcast(s, f, open, now);
  }
}

=== FILE: latest.dfy ===
/**
 * Reduction of a sample list to the latest sample per driver, as
 * `getLatestDataPerDriver` does with a JavaScript `Map` (services/data-normalizer.js).
 * The list is scanned front to back; a driver's held sample is replaced only by a
 * strictly newer one, and drivers keep the order in which they were first seen.
 */
module Latest {
  import opened Sorting

  /** The set of driver numbers occurring in `data`. */
  ghost function DriverSet<T>(data: seq<T>, driverOf: T -> nat): set<nat> {
    set i | 0 <= i < |data| :: driverOf(data[i])
  }

  /**
   * `data[k]` is the sample a strict-newer-wins scan keeps for its driver: no sample of
   * that driver is newer, and every earlier sample of that driver is strictly older.
   */
  ghost predicate IsLatestAt<T>(data: seq<T>, k: int, driverOf: T -> nat, dateOf: T -> int) {
    && 0 <= k < |data|
    && (forall j | 0 <= j < |data| && driverOf(data[j]) == driverOf(data[k]) :: dateOf(data[j]) <= dateOf(data[k]))
    && (forall j | 0 <= j < k && driverOf(data[j]) == driverOf(data[k]) :: dateOf(data[j]) < dateOf(data[k]))
  }

  /** `x` is a sample a strict-newer-wins scan of `data` keeps for its driver. */
  ghost predicate IsLatestSample<T>(data: seq<T>, x: T, driverOf: T -> nat, dateOf: T -> int) {
    exists k | 0 <= k < |data| :: IsLatestAt(data, k, driverOf, dateOf) && data[k] == x
  }

  /** Driver `a` occurs in `data` before driver `b` first does. */
  ghost predicate SeenBefore<T>(data: seq<T>, driverOf: T -> nat, a: nat, b: nat) {
    exists p | 0 <= p < |data| :: driverOf(data[p]) == a && forall q | 0 <= q <= p :: driverOf(data[q]) != b
  }

  ghost predicate Distinct(s: seq<nat>) {
    forall i, j | 0 <= i < j < |s| :: s[i] != s[j]
  }

  /**
   * The scan's state: drivers in first-seen order, and for each driver the index of
   * the sample it currently holds.
   */
  datatype Held = Held(order: seq<nat>, chosen: map<nat, nat>)

  /** Which drivers the scan has seen, each once, in a duplicate-free order. */
  ghost predicate KeysInvariant<T>(data: seq<T>, driverOf: T -> nat, h: Held) {
    && Distinct(h.order)
    && (forall d :: d in h.chosen <==> d in h.order)
    && (forall d :: d in h.chosen <==> d in DriverSet(data, driverOf))
  }

  /** Each held index points at that driver's latest sample. */
  ghost predicate ChosenInvariant<T>(data: seq<T>, driverOf: T -> nat, dateOf: T -> int, h: Held) {
    forall d | d in h.chosen :: IsLatestAt(data, h.chosen[d], driverOf, dateOf) && driverOf(data[h.chosen[d]]) == d
  }

  /** Drivers are listed in the order they were first seen. */
  ghost predicate OrderInvariant<T>(data: seq<T>, driverOf: T -> nat, h: Held) {
    forall i, j | 0 <= i < j < |h.order| :: SeenBefore(data, driverOf, h.order[i], h.order[j])
  }

  ghost predicate ScanInvariant<T>(data: seq<T>, driverOf: T -> nat, dateOf: T -> int, h: Held) {
    KeysInvariant(data, driverOf, h) && ChosenInvariant(data, driverOf, dateOf, h) && OrderInvariant(data, driverOf, h)
  }

  /** One step of the scan: `n` is the index of the sample being consumed. */
  function Step<T>(data: seq<T>, driverOf: T -> nat, dateOf: T -> int, h: Held, n: nat): Held
    requires n < |data|
    requires forall d | d in h.chosen :: h.chosen[d] < |data|
  {
    var d := driverOf(data[n]);
    if d !in h.chosen then Held(h.order + [d], h.chosen[d := n])
    else if dateOf(data[h.chosen[d]]) < dateOf(data[n]) then Held(h.order, h.chosen[d := n])
    else h
  }

  /** The scan over `data`, one sample at a time. */
  function Scan<T>(data: seq<T>, driverOf: T -> nat, dateOf: T -> int): (h: Held)
    ensures ScanInvariant(data, driverOf, dateOf, h)
    decreases |data|
  {
    if |data| == 0 then Held([], map[])
    else
      var n := |data| - 1;
      var h := Scan(data[..n], driverOf, dateOf);
      StepKeys(data, driverOf, dateOf, h);
      StepChosen(data, driverOf, dateOf, h);
      StepOrder(data, driverOf, dateOf, h);
      Step(data, driverOf, dateOf, h, n)
  }

  lemma DriverSetSnoc<T>(data: seq<T>, driverOf: T -> nat)
    requires |data| > 0
    ensures DriverSet(data, driverOf) == DriverSet(data[..|data| - 1], driverOf) + {driverOf(data[|data| - 1])}
  {
    var n := |data| - 1;
    var pre := data[..n];
    forall e | e in DriverSet(data, driverOf) ensures e in DriverSet(pre, driverOf) + {driverOf(data[n])} {
      var i :| 0 <= i < |data| && driverOf(data[i]) == e;
      if i < n { assert driverOf(pre[i]) == e; }
    }
    forall e | e in DriverSet(pre, driverOf) ensures e in DriverSet(data, driverOf) {
      var i :| 0 <= i < |pre| && driverOf(pre[i]) == e;
      assert driverOf(data[i]) == e;
    }
  }

  /** A driver the prefix has not seen occurs nowhere in it. */
  lemma UnseenDriver<T>(pre: seq<T>, driverOf: T -> nat, d: nat)
    requires d !in DriverSet(pre, driverOf)
    ensures forall j | 0 <= j < |pre| :: driverOf(pre[j]) != d
  {
    forall j | 0 <= j < |pre| ensures driverOf(pre[j]) != d {
      assert driverOf(pre[j]) in DriverSet(pre, driverOf);
    }
  }

  lemma StepKeys<T>(data: seq<T>, driverOf: T -> nat, dateOf: T -> int, h: Held)
    requires |data| > 0
    requires ScanInvariant(data[..|data| - 1], driverOf, dateOf, h)
    ensures forall d | d in h.chosen :: h.chosen[d] < |data|
    ensures KeysInvariant(data, driverOf, Step(data, driverOf, dateOf, h, |data| - 1))
  {
    DriverSetSnoc(data, driverOf);
  }

  lemma StepChosen<T>(data: seq<T>, driverOf: T -> nat, dateOf: T -> int, h: Held)
    requires |data| > 0
    requires ScanInvariant(data[..|data| - 1], driverOf, dateOf, h)
    ensures forall d | d in h.chosen :: h.chosen[d] < |data|
    ensures ChosenInvariant(data, driverOf, dateOf, Step(data, driverOf, dateOf, h, |data| - 1))
  {
    var h' := Step(data, driverOf, dateOf, h, |data| - 1);
    forall e | e in h'.chosen
      ensures IsLatestAt(data, h'.chosen[e], driverOf, dateOf) && driverOf(data[h'.chosen[e]]) == e
    {
      StepChosenOne(data, driverOf, dateOf, h, e);
    }
  }

  /** After one step, the index held for driver `e` points at its latest sample. */
  lemma StepChosenOne<T>(data: seq<T>, driverOf: T -> nat, dateOf: T -> int, h: Held, e: nat)
    requires |data| > 0
    requires ScanInvariant(data[..|data| - 1], driverOf, dateOf, h)
    requires forall d | d in h.chosen :: h.chosen[d] < |data|
    requires e in Step(data, driverOf, dateOf, h, |data| - 1).chosen
    ensures var h' := Step(data, driverOf, dateOf, h, |data| - 1);
      IsLatestAt(data, h'.chosen[e], driverOf, dateOf) && driverOf(data[h'.chosen[e]]) == e
  {
    var n := |data| - 1;
    var pre := data[..n];
    var d := driverOf(data[n]);
    if e != d {
      KeepLatest(data, h.chosen[e], driverOf, dateOf);
    } else if d !in h.chosen {
      TakeFirst(data, driverOf, dateOf);
    } else {
      var k := h.chosen[d];
      if dateOf(data[k]) < dateOf(data[n]) {
        TakeNewer(data, k, driverOf, dateOf);
      } else {
        KeepLatest(data, k, driverOf, dateOf);
      }
    }
  }

  /** The held sample stays the latest when the new sample is another driver's or not newer. */
  lemma KeepLatest<T>(data: seq<T>, k: nat, driverOf: T -> nat, dateOf: T -> int)
    requires |data| > 0 && IsLatestAt(data[..|data| - 1], k, driverOf, dateOf)
    requires var n := |data| - 1;
      driverOf(data[n]) != driverOf(data[k]) || dateOf(data[n]) <= dateOf(data[k])
    ensures IsLatestAt(data, k, driverOf, dateOf)
  {
    assert forall j | 0 <= j < |data| - 1 :: data[..|data| - 1][j] == data[j];
  }

  /** A strictly newer sample of the held driver becomes the latest. */
  lemma TakeNewer<T>(data: seq<T>, k: nat, driverOf: T -> nat, dateOf: T -> int)
    requires |data| > 0 && IsLatestAt(data[..|data| - 1], k, driverOf, dateOf)
    requires var n := |data| - 1;
      driverOf(data[n]) == driverOf(data[k]) && dateOf(data[k]) < dateOf(data[n])
    ensures IsLatestAt(data, |data| - 1, driverOf, dateOf)
  {
    assert forall j | 0 <= j < |data| - 1 :: data[..|data| - 1][j] == data[j];
  }

  /** The first sample of a driver is its latest so far. */
  lemma TakeFirst<T>(data: seq<T>, driverOf: T -> nat, dateOf: T -> int)
    requires |data| > 0
    requires driverOf(data[|data| - 1]) !in DriverSet(data[..|data| - 1], driverOf)
    ensures IsLatestAt(data, |data| - 1, driverOf, dateOf)
  {
    UnseenDriver(data[..|data| - 1], driverOf, driverOf(data[|data| - 1]));
    assert forall j | 0 <= j < |data| - 1 :: data[..|data| - 1][j] == data[j];
  }

  /** A first-seen witness in a prefix is still one in the whole list. */
  lemma SeenBeforeExtends<T>(data: seq<T>, driverOf: T -> nat, m: nat, a: nat, b: nat)
    requires m <= |data|
    requires SeenBefore(data[..m], driverOf, a, b)
    ensures SeenBefore(data, driverOf, a, b)
  {
    var pre := data[..m];
    var p :| 0 <= p < |pre| && driverOf(pre[p]) == a && forall q | 0 <= q <= p :: driverOf(pre[q]) != b;
    assert driverOf(data[p]) == a;
    assert forall q | 0 <= q <= p :: data[q] == pre[q];
  }

  lemma StepOrder<T>(data: seq<T>, driverOf: T -> nat, dateOf: T -> int, h: Held)
    requires |data| > 0
    requires ScanInvariant(data[..|data| - 1], driverOf, dateOf, h)
    ensures forall d | d in h.chosen :: h.chosen[d] < |data|
    ensures OrderInvariant(data, driverOf, Step(data, driverOf, dateOf, h, |data| - 1))
  {
    var n := |data| - 1;
    var pre := data[..n];
    var d := driverOf(data[n]);
    var h' := Step(data, driverOf, dateOf, h, n);
    forall i, j | 0 <= i < j < |h'.order| ensures SeenBefore(data, driverOf, h'.order[i], h'.order[j]) {
      if j < |h.order| {
        SeenBeforeExtends(data, driverOf, n, h.order[i], h.order[j]);
      } else {
        var a := h.order[i];
        assert a in DriverSet(pre, driverOf);
        var p :| 0 <= p < |pre| && driverOf(pre[p]) == a;
        UnseenDriver(pre, driverOf, d);
        assert driverOf(data[p]) == a;
        assert forall q | 0 <= q <= p :: data[q] == pre[q];
      }
    }
  }

  /** The held samples, listed in the order of `order`. */
  function Gather<T>(data: seq<T>, chosen: map<nat, nat>, order: seq<nat>): (r: seq<T>)
    requires forall i | 0 <= i < |order| :: order[i] in chosen && chosen[order[i]] < |data|
    ensures |r| == |order|
    ensures forall i | 0 <= i < |r| :: r[i] == data[chosen[order[i]]]
  {
    seq(|order|, i requires 0 <= i < |order| => data[chosen[order[i]]])
  }

  /** The samples a strict-newer-wins scan keeps, one per driver, in first-seen order. */
  function LatestPerDriver<T>(data: seq<T>, driverOf: T -> nat, dateOf: T -> int): (r: seq<T>)
    ensures |r| == |DriverSet(data, driverOf)|
    ensures DistinctBy(r, driverOf)
    ensures forall i | 0 <= i < |r| :: IsLatestSample(data, r[i], driverOf, dateOf)
  {
    var h := Scan(data, driverOf, dateOf);
    HeldInRange(data, driverOf, dateOf, h);
    var r := Gather(data, h.chosen, h.order);
    GatherDrivers(data, driverOf, dateOf, h, r);
    GatherCount(data, driverOf, dateOf, h, r);
    GatherLatest(data, driverOf, dateOf, h, r);
    r
  }

  /** Every driver of the input has a sample in the result. */
  lemma LatestCoversDrivers<T>(data: seq<T>, driverOf: T -> nat, dateOf: T -> int)
    ensures var r := LatestPerDriver(data, driverOf, dateOf);
      forall d :: d in DriverSet(data, driverOf) <==> exists i | 0 <= i < |r| :: driverOf(r[i]) == d
  {
    var h := Scan(data, driverOf, dateOf);
    HeldInRange(data, driverOf, dateOf, h);
    var r := Gather(data, h.chosen, h.order);
    GatherDrivers(data, driverOf, dateOf, h, r);
    GatherCovers(data, driverOf, dateOf, h, r);
    assert r == LatestPerDriver(data, driverOf, dateOf);
  }

  /** Drivers appear in the order in which the input first mentions them. */
  lemma LatestFirstSeenOrder<T>(data: seq<T>, driverOf: T -> nat, dateOf: T -> int)
    ensures var r := LatestPerDriver(data, driverOf, dateOf);
      forall i, j | 0 <= i < j < |r| :: SeenBefore(data, driverOf, driverOf(r[i]), driverOf(r[j]))
  {
    var h := Scan(data, driverOf, dateOf);
    HeldInRange(data, driverOf, dateOf, h);
    var r := Gather(data, h.chosen, h.order);
    GatherDrivers(data, driverOf, dateOf, h, r);
    assert r == LatestPerDriver(data, driverOf, dateOf);
  }

  /** Every sample a strict-newer-wins scan would keep is in the result. */
  lemma LatestComplete<T>(data: seq<T>, driverOf: T -> nat, dateOf: T -> int, x: T)
    requires IsLatestSample(data, x, driverOf, dateOf)
    ensures x in LatestPerDriver(data, driverOf, dateOf)
  {
    var r := LatestPerDriver(data, driverOf, dateOf);
    var k :| 0 <= k < |data| && IsLatestAt(data, k, driverOf, dateOf) && data[k] == x;
    assert driverOf(x) in DriverSet(data, driverOf);
    LatestCoversDrivers(data, driverOf, dateOf);
    var i :| 0 <= i < |r| && driverOf(r[i]) == driverOf(x);
    assert IsLatestSample(data, r[i], driverOf, dateOf);
    var k2 :| 0 <= k2 < |data| && IsLatestAt(data, k2, driverOf, dateOf) && data[k2] == r[i];
    LatestIsUnique(data, driverOf, dateOf, k, k2);
  }

  lemma HeldInRange<T>(data: seq<T>, driverOf: T -> nat, dateOf: T -> int, h: Held)
    requires ScanInvariant(data, driverOf, dateOf, h)
    ensures forall i | 0 <= i < |h.order| :: h.order[i] in h.chosen && h.chosen[h.order[i]] < |data|
  {
    forall i | 0 <= i < |h.order| ensures h.order[i] in h.chosen && h.chosen[h.order[i]] < |data| {
      assert h.order[i] in h.order;
      assert IsLatestAt(data, h.chosen[h.order[i]], driverOf, dateOf);
    }
  }

  lemma GatherDrivers<T>(data: seq<T>, driverOf: T -> nat, dateOf: T -> int, h: Held, r: seq<T>)
    requires ScanInvariant(data, driverOf, dateOf, h)
    requires |r| == |h.order|
    requires forall i | 0 <= i < |r| :: h.order[i] in h.chosen && h.chosen[h.order[i]] < |data| && r[i] == data[h.chosen[h.order[i]]]
    ensures forall i | 0 <= i < |r| :: driverOf(r[i]) == h.order[i]
    ensures DistinctBy(r, driverOf)
    ensures forall i, j | 0 <= i < j < |r| :: SeenBefore(data, driverOf, driverOf(r[i]), driverOf(r[j]))
  {
    forall i | 0 <= i < |r| ensures driverOf(r[i]) == h.order[i] {
      assert h.order[i] in h.order;
    }
  }

  lemma GatherCount<T>(data: seq<T>, driverOf: T -> nat, dateOf: T -> int, h: Held, r: seq<T>)
    requires KeysInvariant(data, driverOf, h)
    requires |r| == |h.order|
    ensures |r| == |DriverSet(data, driverOf)|
  {
    DistinctCard(h.order);
    assert (set i | 0 <= i < |h.order| :: h.order[i]) == DriverSet(data, driverOf) by {
      forall d | d in DriverSet(data, driverOf) ensures d in (set i | 0 <= i < |h.order| :: h.order[i]) {
        assert d in h.order;
      }
    }
  }

  lemma GatherCovers<T>(data: seq<T>, driverOf: T -> nat, dateOf: T -> int, h: Held, r: seq<T>)
    requires KeysInvariant(data, driverOf, h)
    requires |r| == |h.order|
    requires forall i | 0 <= i < |r| :: driverOf(r[i]) == h.order[i]
    ensures forall d :: d in DriverSet(data, driverOf) <==> exists i | 0 <= i < |r| :: driverOf(r[i]) == d
  {
    forall d ensures d in DriverSet(data, driverOf) <==> exists i | 0 <= i < |r| :: driverOf(r[i]) == d {
      if d in DriverSet(data, driverOf) {
        assert d in h.order;
        var i :| 0 <= i < |h.order| && h.order[i] == d;
        assert driverOf(r[i]) == d;
      }
      if exists i | 0 <= i < |r| :: driverOf(r[i]) == d {
        var i :| 0 <= i < |r| && driverOf(r[i]) == d;
        assert h.order[i] in h.order;
      }
    }
  }

  lemma GatherLatest<T>(data: seq<T>, driverOf: T -> nat, dateOf: T -> int, h: Held, r: seq<T>)
    requires ChosenInvariant(data, driverOf, dateOf, h)
    requires |r| == |h.order|
    requires forall i | 0 <= i < |r| :: h.order[i] in h.chosen && h.chosen[h.order[i]] < |data| && r[i] == data[h.chosen[h.order[i]]]
    ensures forall i | 0 <= i < |r| :: IsLatestSample(data, r[i], driverOf, dateOf)
  {
    forall i | 0 <= i < |r| ensures IsLatestSample(data, r[i], driverOf, dateOf) {
      var d := h.order[i];
      var k := h.chosen[d];
      assert IsLatestAt(data, k, driverOf, dateOf) && driverOf(data[k]) == d;
      assert r[i] == data[k];
    }
  }

  /** A duplicate-free sequence has as many distinct elements as it is long. */
  lemma {:induction false} DistinctCard(s: seq<nat>)
    requires Distinct(s)
    ensures |set i | 0 <= i < |s| :: s[i]| == |s|
    decreases |s|
  {
    if |s| > 0 {
      var n := |s| - 1;
      DistinctCard(s[..n]);
      var front := set i | 0 <= i < n :: s[..n][i];
      assert (set i | 0 <= i < |s| :: s[i]) == front + {s[n]};
      assert s[n] !in front;
    }
  }

  /** Each driver has exactly one sample that a strict-newer-wins scan would keep. */
  lemma LatestIsUnique<T>(data: seq<T>, driverOf: T -> nat, dateOf: T -> int, k1: int, k2: int)
    requires IsLatestAt(data, k1, driverOf, dateOf) && IsLatestAt(data, k2, driverOf, dateOf)
    requires driverOf(data[k1]) == driverOf(data[k2])
    ensures k1 == k2
  {
  }
}

=== FILE: netlify.dfy ===
/**
 * `normalizeLeaderboard` of netlify/functions/leaderboard.js, the serverless
 * leaderboard: the latest position sample per driver, turned into placeholder rows
 * (no driver metadata) and sorted by position.
 *
 * The rows are collected in a plain object keyed by driver number, so
 * `Object.values` lists them by ascending driver number (`ObjectValues`); they are
 * then sorted on position alone (`PositionKey`), a null position counting as 0 in the
 * comparator's subtraction. `SourceSortIsKeySort` shows that the result is the order
 * by (position or 0, driver number).
 */
module NetlifyLeaderboard {
  import opened Wrappers
  import opened Sorting
  import Decimal
  import Normalizer
  import Latest

  type PositionSample = Normalizer.PositionSample

  /** A row of the serverless leaderboard; gap and interval are already text. */
  datatype Row = Row(
    position: Option<int>,
    driverNumber: nat,
    driverName: string,
    teamName: string,
    teamColor: string,
    gap: string,
    interval: string,
    lastUpdate: int,
    isRetired: bool)

  const NamePrefix: string := "Driver "
  const UnknownTeam: string := "Unknown Team"
  const DefaultColor: string := "#808080"
  const ZeroGap: string := "0.000"

  /** The row built from a driver's latest sample. */
  function ToRow(p: PositionSample): Row {
    Row(p.position, p.driverNumber, NamePrefix + Decimal.NatToString(p.driverNumber),
        UnknownTeam, DefaultColor, ZeroGap, ZeroGap, p.date, false)
  }

  function ToRows(ps: seq<PositionSample>): (r: seq<Row>)
    ensures |r| == |ps|
    ensures forall i | 0 <= i < |r| :: r[i] == ToRow(ps[i])
  {
    seq(|ps|, i requires 0 <= i < |ps| => ToRow(ps[i]))
  }

  /** The comparator `a.position - b.position`, a null position counting as 0. */
  function PositionKey(r: Row): Key {
    Key(r.position.GetOr(0), 0)
  }

  /** The order of integer-like keys in a plain object: ascending driver number. */
  function DriverKey(r: Row): Key {
    Key(r.driverNumber, 0)
  }

  /** The position order with ties broken by driver number. */
  function RowKey(r: Row): Key {
    Key(r.position.GetOr(0), r.driverNumber)
  }

  /** `Object.values` of the object that maps each driver number to its row. */
  function ObjectValues(rows: seq<Row>): (r: seq<Row>)
    ensures multiset(r) == multiset(rows)
    ensures SortedBy(r, DriverKey)
  {
    SortByKey(rows, DriverKey)
  }

  function RowDriver(r: Row): nat { r.driverNumber }

  /** The fixed fields every row carries: never retired, placeholder team, colour and gaps. */
  ghost predicate IsPlaceholder(r: Row) {
    && !r.isRetired
    && r.teamName == UnknownTeam && r.teamColor == DefaultColor
    && r.gap == ZeroGap && r.interval == ZeroGap
    && r.driverName == NamePrefix + Decimal.NatToString(r.driverNumber)
  }

  /** `r` is the row of some driver's latest sample. */
  ghost predicate IsLatestRow(data: seq<PositionSample>, r: Row) {
    exists p | Normalizer.IsLatestPosition(data, p) :: r == ToRow(p)
  }

  /**
   * `normalizeLeaderboard`: null, missing or empty input gives no rows; otherwise one
   * row per driver, from its latest sample, in ascending position (null as 0), ties
   * by driver number.
   */
  function NormalizeLeaderboard(positions: Option<seq<PositionSample>>): (r: seq<Row>)
    ensures positions.None? || positions == Some([]) ==> r == []
    ensures positions.Some? ==> |r| == |Normalizer.PositionDrivers(positions.value)|
    ensures positions.Some? ==> forall i | 0 <= i < |r| :: IsLatestRow(positions.value, r[i])
    ensures forall i | 0 <= i < |r| :: IsPlaceholder(r[i])
    ensures DistinctBy(r, RowDriver)
    ensures StrictlySortedBy(r, RowKey)
  {
    match positions
    case None => []
    case Some(data) =>
      if |data| == 0 then []
      else
        var rows := ToRows(Normalizer.LatestPositions(data));
        var r := SortByKey(ObjectValues(rows), PositionKey);
        SourceSortIsKeySort(data, rows);
        BoardFacts(data, rows, r);
        r
  }

  /** The rows of the latest samples are distinct per driver and are latest rows. */
  lemma RowsOfLatest(data: seq<PositionSample>, rows: seq<Row>)
    requires rows == ToRows(Normalizer.LatestPositions(data))
    ensures |rows| == |Normalizer.PositionDrivers(data)|
    ensures DistinctBy(rows, RowDriver)
    ensures forall i | 0 <= i < |rows| :: IsLatestRow(data, rows[i]) && IsPlaceholder(rows[i])
  {
    var latest := Normalizer.LatestPositions(data);
    assert forall i | 0 <= i < |rows| :: RowDriver(rows[i]) == Normalizer.PositionDriver(latest[i]);
    forall i | 0 <= i < |rows| ensures IsLatestRow(data, rows[i]) {
      assert Normalizer.IsLatestPosition(data, latest[i]);
    }
  }

  /**
   * Sorting on position alone the rows that `Object.values` lists by ascending driver
   * number gives the order by (position, driver number): the sort keeps equal
   * positions in their arrival order, and that order is by driver number.
   */
  lemma SourceSortIsKeySort(data: seq<PositionSample>, rows: seq<Row>)
    requires rows == ToRows(Normalizer.LatestPositions(data))
    ensures SortByKey(ObjectValues(rows), PositionKey) == SortByKey(rows, RowKey)
  {
    var v := ObjectValues(rows);
    var t := SortByKey(v, PositionKey);
    var u := SortByKey(rows, RowKey);
    RowsOfLatest(data, rows);
    PermutationKeepsDistinct(rows, v, RowDriver);
    PositionSortOfAscending(v);
    PermutationKeepsDistinct(v, t, RowDriver);
    DistinctDriversStrict(t);
    PermutationKeepsDistinct(rows, u, RowDriver);
    DistinctDriversStrict(u);
    StrictSortedUnique(t, u, RowKey);
  }

  /** Rows listed by strictly ascending driver number, sorted on position, are in key order. */
  lemma {:induction false} PositionSortOfAscending(s: seq<Row>)
    requires SortedBy(s, DriverKey) && DistinctBy(s, RowDriver)
    ensures SortedBy(SortByKey(s, PositionKey), RowKey)
    decreases |s|
  {
    if |s| > 0 {
      var front := s[..|s| - 1];
      var x := s[|s| - 1];
      PositionSortOfAscending(front);
      var p := SortByKey(front, PositionKey);
      SortKeepsElements(front, PositionKey);
      forall i | 0 <= i < |p| ensures p[i].driverNumber < x.driverNumber {
        assert p[i] in p;
        var j :| 0 <= j < |front| && front[j] == p[i];
        assert RowDriver(s[j]) != RowDriver(s[|s| - 1]);
      }
      InsertKeepsKeyOrder(p, x);
    }
  }

  /** Inserting on position a row whose driver number exceeds all others keeps key order. */
  lemma InsertKeepsKeyOrder(p: seq<Row>, x: Row)
    requires SortedBy(p, PositionKey) && SortedBy(p, RowKey)
    requires forall i | 0 <= i < |p| :: p[i].driverNumber < x.driverNumber
    ensures SortedBy(Insert(p, x, PositionKey), RowKey)
  {
    InsertPlacement(p, x, PositionKey);
    var k := Place(p, x, PositionKey);
    assert forall i | 0 <= i < k :: KeyLe(RowKey(p[i]), RowKey(x));
    assert forall i | k <= i < |p| :: KeyLe(RowKey(x), RowKey(p[i]));
    SpliceSorted(p, k, x, RowKey);
  }

  /** Sorting the rows keeps every per-row fact and makes the order strict. */
  lemma BoardFacts(data: seq<PositionSample>, rows: seq<Row>, r: seq<Row>)
    requires rows == ToRows(Normalizer.LatestPositions(data))
    requires r == SortByKey(rows, RowKey)
    ensures |r| == |Normalizer.PositionDrivers(data)|
    ensures forall i | 0 <= i < |r| :: IsLatestRow(data, r[i]) && IsPlaceholder(r[i])
    ensures DistinctBy(r, RowDriver)
    ensures StrictlySortedBy(r, RowKey)
  {
    RowsOfLatest(data, rows);
    SortKeepsElements(rows, RowKey);
    PermutationKeepsDistinct(rows, r, RowDriver);
    forall i | 0 <= i < |r| ensures IsLatestRow(data, r[i]) && IsPlaceholder(r[i]) {
      assert r[i] in rows;
    }
    DistinctDriversStrict(r);
  }

  /** Rows of distinct drivers have distinct keys, so a sorted board is strictly sorted. */
  lemma DistinctDriversStrict(r: seq<Row>)
    requires SortedBy(r, RowKey) && DistinctBy(r, RowDriver)
    ensures StrictlySortedBy(r, RowKey)
  {
    forall i, j | 0 <= i < j < |r| ensures RowKey(r[i]) != RowKey(r[j]) {
      assert RowDriver(r[i]) != RowDriver(r[j]);
    }
    SortedDistinctIsStrict(r, RowKey);
  }

  /** Each driver of the input has exactly one row, and no other driver has one. */
  lemma CoversDrivers(data: seq<PositionSample>)
    ensures var r := NormalizeLeaderboard(Some(data));
      forall d :: d in Normalizer.PositionDrivers(data) <==> exists i | 0 <= i < |r| :: r[i].driverNumber == d
  {
    var r := NormalizeLeaderboard(Some(data));
    forall d ensures d in Normalizer.PositionDrivers(data) <==> exists i | 0 <= i < |r| :: r[i].driverNumber == d {
      if exists i | 0 <= i < |r| :: r[i].driverNumber == d {
        var i :| 0 <= i < |r| && r[i].driverNumber == d;
        RowDriverSeen(data, r[i]);
      }
      if d in Normalizer.PositionDrivers(data) {
        DriverHasRow(data, d);
      }
    }
  }

  lemma RowDriverSeen(data: seq<PositionSample>, row: Row)
    requires IsLatestRow(data, row)
    ensures row.driverNumber in Normalizer.PositionDrivers(data)
  {
    var p :| Normalizer.IsLatestPosition(data, p) && row == ToRow(p);
    var k :| 0 <= k < |data| && Latest.IsLatestAt(data, k, Normalizer.PositionDriver, Normalizer.PositionDate) && data[k] == p;
    assert Normalizer.PositionDriver(data[k]) == row.driverNumber;
  }

  lemma DriverHasRow(data: seq<PositionSample>, d: nat)
    requires d in Normalizer.PositionDrivers(data)
    ensures exists i | 0 <= i < |NormalizeLeaderboard(Some(data))| :: NormalizeLeaderboard(Some(data))[i].driverNumber == d
  {
    var rows := ToRows(Normalizer.LatestPositions(data));
    BoardIsSortedRows(data);
    LatestRowFor(data, d);
    SortedHasRow(rows, d);
  }

  lemma BoardIsSortedRows(data: seq<PositionSample>)
    requires |data| > 0
    ensures NormalizeLeaderboard(Some(data)) == SortByKey(ToRows(Normalizer.LatestPositions(data)), RowKey)
  {
    SourceSortIsKeySort(data, ToRows(Normalizer.LatestPositions(data)));
  }

  lemma LatestRowFor(data: seq<PositionSample>, d: nat)
    requires d in Normalizer.PositionDrivers(data)
    ensures |data| > 0
    ensures exists k | 0 <= k < |ToRows(Normalizer.LatestPositions(data))| :: ToRows(Normalizer.LatestPositions(data))[k].driverNumber == d
  {
    var latest := Normalizer.LatestPositions(data);
    Latest.LatestCoversDrivers(data, Normalizer.PositionDriver, Normalizer.PositionDate);
    RowsKeepDrivers(latest, d);
  }

  lemma RowsKeepDrivers(latest: seq<PositionSample>, d: nat)
    requires exists k | 0 <= k < |latest| :: Normalizer.PositionDriver(latest[k]) == d
    ensures exists k | 0 <= k < |ToRows(latest)| :: ToRows(latest)[k].driverNumber == d
  {
    var k :| 0 <= k < |latest| && Normalizer.PositionDriver(latest[k]) == d;
    assert ToRows(latest)[k].driverNumber == d;
  }

  lemma SortedHasRow(rows: seq<Row>, d: nat)
    requires exists k | 0 <= k < |rows| :: rows[k].driverNumber == d
    ensures exists i | 0 <= i < |SortByKey(rows, RowKey)| :: SortByKey(rows, RowKey)[i].driverNumber == d
  {
    var k :| 0 <= k < |rows| && rows[k].driverNumber == d;
    SortKeepsElements(rows, RowKey);
    assert rows[k] in SortByKey(rows, RowKey);
  }

  /**
   * The leaderboard is the one arrangement of the latest rows in (position, driver
   * number) order: sorting any arrangement of them by that key gives it.
   */
  lemma OrderIndependent(data: seq<PositionSample>, s: seq<Row>)
    requires |data| > 0
    requires multiset(s) == multiset(ToRows(Normalizer.LatestPositions(data)))
    ensures SortByKey(s, RowKey) == NormalizeLeaderboard(Some(data))
  {
    var rows := ToRows(Normalizer.LatestPositions(data));
    var r := NormalizeLeaderboard(Some(data));
    var t := SortByKey(s, RowKey);
    RowsOfLatest(data, rows);
    PermutationKeepsDistinct(rows, s, RowDriver);
    PermutationKeepsDistinct(s, t, RowDriver);
    DistinctDriversStrict(t);
    BoardIsSortedRows(data);
    StrictSortedUnique(t, r, RowKey);
  }

  /** The driver number can be read back from the row's name. */
  lemma NameNamesDriver(row: Row)
    requires IsPlaceholder(row)
    ensures |row.driverName| > |NamePrefix| && row.driverName[..|NamePrefix|] == NamePrefix
    ensures Decimal.AllDigits(row.driverName[|NamePrefix|..])
    ensures Decimal.ParseNat(row.driverName[|NamePrefix|..]) == row.driverNumber
  {
    var digits := Decimal.NatToString(row.driverNumber);
    assert row.driverName[|NamePrefix|..] == digits;
    Decimal.ParseNatToString(row.driverNumber);
  }

  /**
   * A driver without a position (null counts as 0) ranks ahead of every driver with a
   * positive position, where the server's board lists such a driver as retired, last.
   */
  lemma UnplacedRanksFirst(positions: Option<seq<PositionSample>>, i: int, j: int)
    requires var r := NormalizeLeaderboard(positions);
      0 <= i < |r| && 0 <= j < |r| && r[i].position.None? && r[j].position.Some? && r[j].position.value > 0
    ensures i < j
  {
    SortedUnplacedFirst(NormalizeLeaderboard(positions), i, j);
  }

  lemma SortedUnplacedFirst(r: seq<Row>, i: int, j: int)
    requires StrictlySortedBy(r, RowKey)
    requires 0 <= i < |r| && 0 <= j < |r| && r[i].position.None? && r[j].position.Some? && r[j].position.value > 0
    ensures i < j
  {
  }
}

=== FILE: normalizer.dfy ===
/**
 * The derivation engine of services/data-normalizer.js: pure functions from raw feed
 * samples to a leaderboard, a list of battles and a list of track positions.
 * Dates are already-parsed millisecond timestamps; intervals, gaps and coordinates are
 * exact rationals. A `None` position is a JSON null; the model has no separate case
 * for a sample without a position field. Other fields that are missing, null or
 * unparsable are `None`.
 */
module Normalizer {
  import opened Wrappers
  import opened Sorting
  import Latest
  import Decimal

  // ---------------------------------------------------------------- data model

  /** One record of the feed's `position` endpoint. */
  datatype PositionSample = PositionSample(
    driverNumber: nat,
    date: int,
    position: Option<int>,
    gapToLeader: Option<real>,
    interval: Option<real>)

  /** One record of the feed's `location` endpoint. */
  datatype LocationSample = LocationSample(
    driverNumber: nat,
    date: int,
    x: Option<real>,
    y: Option<real>,
    z: Option<real>)

  /**
   * Driver metadata. The empty string stands for an absent or empty text field:
   * JavaScript treats both as false.
   */
  datatype Driver = Driver(
    driverNumber: Option<nat>,
    nameAcronym: string,
    firstName: string,
    lastName: string,
    fullName: string,
    teamName: string)

  /** The `{}` used when no metadata matches a driver. */
  const NoDriver := Driver(None, "", "", "", "", "")

  /** A row of the leaderboard; gap and interval are kept unformatted. */
  datatype LeaderboardEntry = LeaderboardEntry(
    position: Option<int>,
    driverNumber: nat,
    driverName: string,
    teamName: string,
    gap: Option<real>,
    interval: Option<real>,
    lastUpdate: int,
    isRetired: bool)

  datatype Intensity = VeryHigh | High | Medium | Low

  /** A driver taking part in a battle, with its rank. */
  datatype Car = Car(driverNumber: nat, position: int)

  datatype Battle = Battle(
    id: string,
    leading: Car,
    chasing: Car,
    gap: real,
    intensity: Intensity,
    lastUpdate: int)

  /** A valid track position (the source's `isValid` is always true on these). */
  datatype PositionPoint = PositionPoint(driverNumber: nat, x: real, y: real, z: real, lastUpdate: int)

  // ---------------------------------------------------------------- latest samples

  function PositionDriver(p: PositionSample): nat { p.driverNumber }
  function PositionDate(p: PositionSample): int { p.date }
  function LocationDriver(l: LocationSample): nat { l.driverNumber }
  function LocationDate(l: LocationSample): int { l.date }

  /** `getLatestDataPerDriver` applied to position samples. */
  function LatestPositions(data: seq<PositionSample>): seq<PositionSample> {
    Latest.LatestPerDriver(data, PositionDriver, PositionDate)
  }

  /** `getLatestDataPerDriver` applied to location samples. */
  function LatestLocations(data: seq<LocationSample>): seq<LocationSample> {
    Latest.LatestPerDriver(data, LocationDriver, LocationDate)
  }

  ghost predicate IsLatestPosition(data: seq<PositionSample>, p: PositionSample) {
    Latest.IsLatestSample(data, p, PositionDriver, PositionDate)
  }

  ghost function PositionDrivers(data: seq<PositionSample>): set<nat> {
    Latest.DriverSet(data, PositionDriver)
  }

  // ---------------------------------------------------------------- driver names

  /** The first metadata record carrying driver number `n`, as `drivers.find` returns it. */
  function FindDriver(drivers: seq<Driver>, n: nat): (r: Option<Driver>)
    ensures r.Some? ==> r.value in drivers && r.value.driverNumber == Some(n)
    ensures r.Some? ==> exists k | 0 <= k < |drivers| ::
      drivers[k] == r.value && forall j | 0 <= j < k :: drivers[j].driverNumber != Some(n)
    ensures r.None? ==> forall j | 0 <= j < |drivers| :: drivers[j].driverNumber != Some(n)
  {
    if |drivers| == 0 then None
    else if drivers[0].driverNumber == Some(n) then Some(drivers[0])
    else
      var r := FindDriver(drivers[1..], n);
      if r.Some? then
        var k :| 0 <= k < |drivers[1..]| && drivers[1..][k] == r.value
          && forall j | 0 <= j < k :: drivers[1..][j].driverNumber != Some(n);
        assert drivers[k + 1] == r.value;
        r
      else r
  }

  /**
   * The display name of a driver: the acronym, else "F. Last", else the full name,
   * else "Driver <n>" (with "?" when the number is missing or 0).
   */
  function FormatDriverName(driver: Option<Driver>): (name: string)
    ensures |name| > 0
    ensures driver.None? ==> name == "Unknown"
    ensures driver.Some? && driver.value.nameAcronym != "" ==> name == driver.value.nameAcronym
    ensures driver == Some(NoDriver) ==> name == "Driver ?"
  {
    match driver
    case None => "Unknown"
    case Some(d) =>
      if d.nameAcronym != "" then d.nameAcronym
      else if d.firstName != "" && d.lastName != "" then [d.firstName[0]] + ". " + d.lastName
      else if d.fullName != "" then d.fullName
      else
        var n := d.driverNumber.GetOr(0);
        "Driver " + (if n != 0 then Decimal.NatToString(n) else "?")
  }

  // ---------------------------------------------------------------- leaderboard

  /** A null or zero position marks a retired driver. */
  predicate IsRetiredPosition(position: Option<int>) {
    position.None? || position == Some(0)
  }

  /** The leaderboard row built from a driver's latest sample. */
  function ToEntry(p: PositionSample, drivers: seq<Driver>): (e: LeaderboardEntry)
    ensures e.driverNumber == p.driverNumber && e.position == p.position && e.lastUpdate == p.date
    ensures e.isRetired <==> IsRetiredPosition(p.position)
  {
    var driver := FindDriver(drivers, p.driverNumber).GetOr(NoDriver);
    LeaderboardEntry(
      p.position,
      p.driverNumber,
      FormatDriverName(Some(driver)),
      if driver.teamName != "" then driver.teamName else "Unknown",
      p.gapToLeader,
      p.interval,
      p.date,
      IsRetiredPosition(p.position))
  }

  function ToEntries(ps: seq<PositionSample>, drivers: seq<Driver>): (r: seq<LeaderboardEntry>)
    ensures |r| == |ps|
    ensures forall i | 0 <= i < |r| :: r[i] == ToEntry(ps[i], drivers)
  {
    seq(|ps|, i requires 0 <= i < |ps| => ToEntry(ps[i], drivers))
  }

  /**
   * The leaderboard comparator as a key: running drivers first, by position; retired
   * drivers after them, by driver number.
   */
  function BoardKey(e: LeaderboardEntry): Key {
    if e.isRetired then Key(1, e.driverNumber) else Key(0, e.position.GetOr(0))
  }

  function EntryDriver(e: LeaderboardEntry): nat { e.driverNumber }

  /** Each row's retired flag holds exactly when its position is null or 0. */
  ghost predicate RetiredFlagsAgree(r: seq<LeaderboardEntry>) {
    forall i | 0 <= i < |r| :: r[i].isRetired <==> IsRetiredPosition(r[i].position)
  }

  /**
   * Running drivers come before retired ones; running drivers are in ascending
   * position, retired drivers in ascending driver number.
   */
  ghost predicate BoardOrdered(r: seq<LeaderboardEntry>) {
    forall i, j | 0 <= i < j < |r| ::
      && (r[i].isRetired ==> r[j].isRetired)
      && (!r[j].isRetired ==> r[i].position.GetOr(0) <= r[j].position.GetOr(0))
      && (r[i].isRetired ==> r[i].driverNumber < r[j].driverNumber)
  }

  /** `e` is the row of some driver's latest sample. */
  ghost predicate IsLatestRow(data: seq<PositionSample>, drivers: seq<Driver>, e: LeaderboardEntry) {
    exists p | IsLatestPosition(data, p) :: e == ToEntry(p, drivers)
  }

  /** Every row is the row of some driver's latest sample. */
  ghost predicate RowsFromLatest(data: seq<PositionSample>, drivers: seq<Driver>, r: seq<LeaderboardEntry>) {
    forall i | 0 <= i < |r| :: IsLatestRow(data, drivers, r[i])
  }

  /**
   * `normalizeLeaderboard`: the latest sample per driver, turned into rows and sorted.
   * A non-array input (`None`) gives the empty leaderboard.
   */
  function NormalizeLeaderboard(positions: Option<seq<PositionSample>>, drivers: seq<Driver>): (r: seq<LeaderboardEntry>)
    ensures positions.None? ==> r == []
    ensures positions.Some? ==> |r| == |PositionDrivers(positions.value)|
    ensures positions.Some? ==> RowsFromLatest(positions.value, drivers, r)
    ensures DistinctBy(r, EntryDriver)
    ensures RetiredFlagsAgree(r)
    ensures BoardOrdered(r)
  {
    match positions
    case None => []
    case Some(data) =>
      var latest := LatestPositions(data);
      var rows := ToEntries(latest, drivers);
      var r := SortByKey(rows, BoardKey);
      SortKeepsElements(rows, BoardKey);
      RowsDistinct(latest, drivers, rows);
      PermutationKeepsDistinct(rows, r, EntryDriver);
      RowsKeepFacts(data, drivers, latest, rows, r);
      SortedBoardIsOrdered(r);
      r
  }

  lemma RowsDistinct(latest: seq<PositionSample>, drivers: seq<Driver>, rows: seq<LeaderboardEntry>)
    requires DistinctBy(latest, PositionDriver)
    requires rows == ToEntries(latest, drivers)
    ensures DistinctBy(rows, EntryDriver)
  {
    assert forall i | 0 <= i < |rows| :: EntryDriver(rows[i]) == PositionDriver(latest[i]);
  }

  lemma RowsKeepFacts(data: seq<PositionSample>, drivers: seq<Driver>, latest: seq<PositionSample>,
                      rows: seq<LeaderboardEntry>, r: seq<LeaderboardEntry>)
    requires forall i | 0 <= i < |latest| :: IsLatestPosition(data, latest[i])
    requires rows == ToEntries(latest, drivers)
    requires forall x :: x in r <==> x in rows
    ensures RowsFromLatest(data, drivers, r)
    ensures RetiredFlagsAgree(r)
  {
    forall i | 0 <= i < |r| ensures IsLatestRow(data, drivers, r[i]) {
      assert r[i] in rows;
      var k :| 0 <= k < |rows| && rows[k] == r[i];
      var p := latest[k];
      assert IsLatestPosition(data, p) && r[i] == ToEntry(p, drivers);
    }
    forall i | 0 <= i < |r| ensures r[i].isRetired <==> IsRetiredPosition(r[i].position) {
      assert r[i] in rows;
    }
  }

  lemma SortedBoardIsOrdered(r: seq<LeaderboardEntry>)
    requires SortedBy(r, BoardKey)
    requires DistinctBy(r, EntryDriver)
    requires RetiredFlagsAgree(r)
    ensures BoardOrdered(r)
  {
    forall i, j | 0 <= i < j < |r| ensures
      && (r[i].isRetired ==> r[j].isRetired)
      && (!r[j].isRetired ==> r[i].position.GetOr(0) <= r[j].position.GetOr(0))
      && (r[i].isRetired ==> r[i].driverNumber < r[j].driverNumber)
    {
      assert KeyLe(BoardKey(r[i]), BoardKey(r[j]));
      assert EntryDriver(r[i]) != EntryDriver(r[j]);
    }
  }

  /** The leaderboard has a row for every driver of the input, and for no other. */
  lemma LeaderboardCoversDrivers(data: seq<PositionSample>, drivers: seq<Driver>)
    ensures var r := NormalizeLeaderboard(Some(data), drivers);
      forall d :: d in PositionDrivers(data) <==> exists i | 0 <= i < |r| :: r[i].driverNumber == d
  {
    var latest := LatestPositions(data);
    var rows := ToEntries(latest, drivers);
    var r := NormalizeLeaderboard(Some(data), drivers);
    assert r == SortByKey(rows, BoardKey);
    SortKeepsElements(rows, BoardKey);
    Latest.LatestCoversDrivers(data, PositionDriver, PositionDate);
    RowsCoverDrivers(PositionDrivers(data), latest, drivers, rows, r);
  }

  lemma RowsCoverDrivers(ds: set<nat>, latest: seq<PositionSample>, drivers: seq<Driver>,
                         rows: seq<LeaderboardEntry>, r: seq<LeaderboardEntry>)
    requires forall d :: d in ds <==> exists i | 0 <= i < |latest| :: PositionDriver(latest[i]) == d
    requires rows == ToEntries(latest, drivers)
    requires forall x :: x in r <==> x in rows
    ensures forall d :: d in ds <==> exists i | 0 <= i < |r| :: r[i].driverNumber == d
  {
    forall d ensures d in ds <==> exists i | 0 <= i < |r| :: r[i].driverNumber == d {
      if d in ds {
        var k :| 0 <= k < |latest| && PositionDriver(latest[k]) == d;
        assert rows[k] in r;
        var i :| 0 <= i < |r| && r[i] == rows[k];
        assert r[i].driverNumber == d;
      }
      if exists i | 0 <= i < |r| :: r[i].driverNumber == d {
        var i :| 0 <= i < |r| && r[i].driverNumber == d;
        assert r[i] in rows;
        var k :| 0 <= k < |rows| && rows[k] == r[i];
        assert PositionDriver(latest[k]) == d;
      }
    }
  }

  // ---------------------------------------------------------------- battles

  /** The rank filter of `detectBattles`: a present, positive position. */
  predicate IsRanked(p: PositionSample) {
    p.position.Some? && p.position.value > 0
  }

  ghost predicate AllRanked(s: seq<PositionSample>) {
    forall i | 0 <= i < |s| :: IsRanked(s[i])
  }

  /** Ascending by position. */
  ghost predicate ByPosition(s: seq<PositionSample>) {
    forall i, j | 0 <= i < j < |s| :: s[i].position.GetOr(0) <= s[j].position.GetOr(0)
  }

  function RankKey(p: PositionSample): Key {
    Key(p.position.GetOr(0), 0)
  }

  function KeepRanked(s: seq<PositionSample>): (r: seq<PositionSample>)
    ensures forall p :: p in r <==> p in s && IsRanked(p)
    ensures |r| <= |s|
  {
    if |s| == 0 then []
    else (if IsRanked(s[0]) then [s[0]] else []) + KeepRanked(s[1..])
  }

  /** The latest ranked samples, sorted by position: the list battles are read from. */
  function RankedField(data: seq<PositionSample>): (r: seq<PositionSample>)
    ensures forall p :: p in r <==> IsLatestPosition(data, p) && IsRanked(p)
    ensures AllRanked(r)
    ensures ByPosition(r)
    ensures DistinctBy(r, PositionDriver)
  {
    var latest := LatestPositions(data);
    var ranked := KeepRanked(latest);
    var r := SortByKey(ranked, RankKey);
    LatestPositionsComplete(data);
    RankedFieldFacts(data, latest, ranked, r);
    r
  }

  lemma RankedFieldFacts(data: seq<PositionSample>, latest: seq<PositionSample>, ranked: seq<PositionSample>, r: seq<PositionSample>)
    requires forall i | 0 <= i < |latest| :: IsLatestPosition(data, latest[i])
    requires forall p | IsLatestPosition(data, p) :: p in latest
    requires DistinctBy(latest, PositionDriver)
    requires ranked == KeepRanked(latest)
    requires SortedBy(r, RankKey) && multiset(r) == multiset(ranked)
    ensures forall p :: p in r <==> IsLatestPosition(data, p) && IsRanked(p)
    ensures AllRanked(r)
    ensures ByPosition(r)
    ensures DistinctBy(r, PositionDriver)
  {
    assert forall p :: p in r <==> p in ranked by {
      forall p ensures p in r <==> p in ranked {
        assert p in r <==> p in multiset(r);
        assert p in ranked <==> p in multiset(ranked);
      }
    }
    assert forall i | 0 <= i < |r| :: r[i] in ranked;
    forall i, j | 0 <= i < j < |r| ensures r[i].position.GetOr(0) <= r[j].position.GetOr(0) {
      assert KeyLe(RankKey(r[i]), RankKey(r[j]));
    }
    DistinctSubsequence(latest, ranked);
    PermutationKeepsDistinct(ranked, r, PositionDriver);
  }

  /** Every latest position sample is among the ones `getLatestDataPerDriver` returns. */
  lemma LatestPositionsComplete(data: seq<PositionSample>)
    ensures forall p | IsLatestPosition(data, p) :: p in LatestPositions(data)
  {
    forall p | IsLatestPosition(data, p) ensures p in LatestPositions(data) {
      Latest.LatestComplete(data, PositionDriver, PositionDate, p);
    }
  }

  /** Filtering keeps driver numbers distinct. */
  lemma {:induction false} DistinctSubsequence(s: seq<PositionSample>, r: seq<PositionSample>)
    requires DistinctBy(s, PositionDriver)
    requires r == KeepRanked(s)
    ensures DistinctBy(r, PositionDriver)
    decreases |s|
  {
    if |s| > 0 {
      assert DistinctBy(s[1..], PositionDriver);
      DistinctSubsequence(s[1..], KeepRanked(s[1..]));
      forall p | p in KeepRanked(s[1..]) ensures p.driverNumber != s[0].driverNumber {
        var j :| 0 <= j < |s[1..]| && s[1..][j] == p;
        assert s[j + 1] == p;
      }
    }
  }

  /** The chaser's interval: `parseFloat(interval) || 0`. */
  function IntervalSeconds(p: PositionSample): real {
    p.interval.GetOr(0.0)
  }

  /** A battle needs an interval in the half-open range (0, 1] seconds. */
  predicate InBattleRange(gap: real) {
    0.0 < gap <= 1.0
  }

  /** The battle intensity threshold table. */
  function CalculateBattleIntensity(gap: real): (i: Intensity)
    ensures i == VeryHigh <==> gap <= 0.2
    ensures i == High <==> 0.2 < gap <= 0.5
    ensures i == Medium <==> 0.5 < gap <= 0.8
    ensures i == Low <==> 0.8 < gap
  {
    if gap <= 0.2 then VeryHigh
    else if gap <= 0.5 then High
    else if gap <= 0.8 then Medium
    else Low
  }

  /** Closeness rank of an intensity: 3 for very-high down to 0 for low. */
  function Closeness(i: Intensity): nat {
    match i
    case VeryHigh => 3
    case High => 2
    case Medium => 1
    case Low => 0
  }

  /** A smaller gap never gives a less intense battle. */
  lemma IntensityMonotone(g1: real, g2: real)
    requires g1 <= g2
    ensures Closeness(CalculateBattleIntensity(g1)) >= Closeness(CalculateBattleIntensity(g2))
  {
  }

  /** A battle's id: `"<leading>_<chasing>"`. */
  function BattleId(leading: nat, chasing: nat): string {
    Decimal.JoinPair(leading, '_', chasing)
  }

  /** The id names its two drivers: distinct pairs get distinct ids. */
  lemma BattleIdInjective(a: nat, b: nat, c: nat, d: nat)
    requires BattleId(a, b) == BattleId(c, d)
    ensures a == c && b == d
  {
    Decimal.JoinPairInjective(a, b, c, d, '_');
  }

  function MakeBattle(lead: PositionSample, chase: PositionSample, now: int): Battle
    requires IsRanked(lead) && IsRanked(chase)
  {
    var gap := IntervalSeconds(chase);
    Battle(
      BattleId(lead.driverNumber, chase.driverNumber),
      Car(lead.driverNumber, lead.position.value),
      Car(chase.driverNumber, chase.position.value),
      gap,
      CalculateBattleIntensity(gap),
      now)
  }

  /** Candidate pair `i` of `s`: entries `i` and `i + 1` are within a second. */
  predicate IsBattlePair(s: seq<PositionSample>, i: int) {
    0 <= i < |s| - 1 && InBattleRange(IntervalSeconds(s[i + 1]))
  }

  /** Every battle in `r` is the battle of a close adjacent pair of `s`. */
  ghost predicate BattlesFromPairs(s: seq<PositionSample>, r: seq<Battle>, now: int)
    requires AllRanked(s)
  {
    forall b | b in r :: exists i | IsBattlePair(s, i) :: b == MakeBattle(s[i], s[i + 1], now)
  }

  /** Every close adjacent pair of `s` has its battle in `r`. */
  ghost predicate PairsHaveBattles(s: seq<PositionSample>, r: seq<Battle>, now: int)
    requires AllRanked(s)
  {
    forall i | IsBattlePair(s, i) :: MakeBattle(s[i], s[i + 1], now) in r
  }

  /** Every adjacent pair of `s` is within a second. */
  predicate AllPairsClose(s: seq<PositionSample>) {
    forall i | 0 <= i < |s| - 1 :: IsBattlePair(s, i)
  }

  /** The at-most-one-battle-per-pair bound. */
  function PairCount(n: nat): nat {
    if n == 0 then 0 else n - 1
  }

  /** The indices of the close pairs of `s`, in ascending order. */
  function ClosePairs(s: seq<PositionSample>): (idx: seq<nat>)
    ensures forall j | 0 <= j < |idx| :: IsBattlePair(s, idx[j])
    decreases |s|
  {
    if |s| < 2 then []
    else
      var rest := ClosePairs(s[1..]);
      forall j | 0 <= j < |rest| ensures IsBattlePair(s, rest[j] + 1) {
        TailPair(s, rest[j]);
      }
      (if IsBattlePair(s, 0) then [0] else []) + Shift(rest)
  }

  /** Pair `i` of the tail of `s` is pair `i + 1` of `s`. */
  lemma TailPair(s: seq<PositionSample>, i: int)
    requires |s| >= 1 && 0 <= i
    ensures IsBattlePair(s[1..], i) <==> IsBattlePair(s, i + 1)
  {
    if 0 <= i < |s| - 2 {
      assert s[1..][i + 1] == s[i + 2];
    }
  }

  /** Every index moved one place on. */
  function Shift(idx: seq<nat>): (r: seq<nat>)
    ensures |r| == |idx|
    ensures forall j | 0 <= j < |r| :: r[j] == idx[j] + 1
  {
    seq(|idx|, j requires 0 <= j < |idx| => idx[j] + 1)
  }

  /** Indices that strictly increase along the sequence. */
  ghost predicate Ascending(idx: seq<nat>) {
    forall j, k | 0 <= j < k < |idx| :: idx[j] < idx[k]
  }

  /** The close-pair indices ascend strictly. */
  lemma {:induction false} ClosePairsAscending(s: seq<PositionSample>)
    ensures Ascending(ClosePairs(s))
    decreases |s|
  {
    if |s| >= 2 {
      var rest := ClosePairs(s[1..]);
      ClosePairsAscending(s[1..]);
      var h: seq<nat> := if IsBattlePair(s, 0) then [0] else [];
      ConsShiftAscending(h, rest);
    }
  }

  /** An optional index 0 before an ascending list shifted on is still ascending. */
  lemma ConsShiftAscending(h: seq<nat>, rest: seq<nat>)
    requires h == [] || h == [0]
    requires Ascending(rest)
    ensures Ascending(h + Shift(rest))
  {
    var r := h + Shift(rest);
    forall j, k | 0 <= j < k < |r| ensures r[j] < r[k] {
      assert r[k] == rest[k - |h|] + 1;
      if j >= |h| {
        assert r[j] == rest[j - |h|] + 1;
      }
    }
  }

  /** Every close pair is listed. */
  lemma {:induction false} ClosePairsComplete(s: seq<PositionSample>)
    ensures forall i | IsBattlePair(s, i) :: i in ClosePairs(s)
    decreases |s|
  {
    if |s| >= 2 {
      var rest := ClosePairs(s[1..]);
      ClosePairsComplete(s[1..]);
      var h: seq<nat> := if IsBattlePair(s, 0) then [0] else [];
      forall i | IsBattlePair(s, i) ensures i in ClosePairs(s) {
        if i > 0 {
          TailPair(s, i - 1);
          var k :| 0 <= k < |rest| && rest[k] == i - 1;
          assert (h + Shift(rest))[|h| + k] == i;
        }
      }
    }
  }

  /**
   * `r` is the battle of each close pair of `s`, in rank order, each exactly once: the
   * battles of the close-pair indices `ClosePairs(s)`, one after another.
   */
  ghost predicate BattlesInRankOrder(s: seq<PositionSample>, r: seq<Battle>, now: int)
    requires AllRanked(s)
  {
    var idx := ClosePairs(s);
    && |r| == |idx|
    && forall j | 0 <= j < |r| :: r[j] == PairBattle(s, idx[j], now)
  }

  /** The loop of `detectBattles` over adjacent pairs of a ranked list. */
  function AdjacentBattles(s: seq<PositionSample>, now: int): (r: seq<Battle>)
    requires AllRanked(s)
    ensures |r| <= PairCount(|s|)
    ensures BattlesFromPairs(s, r, now)
    ensures PairsHaveBattles(s, r, now)
    ensures AllPairsClose(s) ==> |r| == PairCount(|s|)
    decreases |s|
  {
    if |s| < 2 then []
    else
      var rest := AdjacentBattles(s[1..], now);
      var head := if InBattleRange(IntervalSeconds(s[1])) then [MakeBattle(s[0], s[1], now)] else [];
      StepSound(s, now, rest, head);
      StepComplete(s, now, rest, head);
      if AllPairsClose(s) then
        StepAllClose(s);
        head + rest
      else
        head + rest
  }

  /** Every battle of the extended list comes from a close pair. */
  lemma StepSound(s: seq<PositionSample>, now: int, rest: seq<Battle>, head: seq<Battle>)
    requires |s| >= 2 && AllRanked(s)
    requires BattlesFromPairs(s[1..], rest, now)
    requires head == if InBattleRange(IntervalSeconds(s[1])) then [MakeBattle(s[0], s[1], now)] else []
    ensures BattlesFromPairs(s, head + rest, now)
  {
    var t := s[1..];
    forall b | b in head + rest ensures exists i | IsBattlePair(s, i) :: b == MakeBattle(s[i], s[i + 1], now) {
      if b in head {
        assert IsBattlePair(s, 0);
      } else {
        var i :| IsBattlePair(t, i) && b == MakeBattle(t[i], t[i + 1], now);
        assert t[i] == s[i + 1] && t[i + 1] == s[i + 2];
        assert IsBattlePair(s, i + 1);
      }
    }
  }

  /** The loop lists the battles of the close pairs in rank order, each once. */
  lemma {:induction false} AdjacentInRankOrder(s: seq<PositionSample>, now: int)
    requires AllRanked(s)
    ensures BattlesInRankOrder(s, AdjacentBattles(s, now), now)
    decreases |s|
  {
    if |s| >= 2 {
      var t := s[1..];
      assert AllRanked(t) by {
        forall i | 0 <= i < |t| ensures IsRanked(t[i]) {
          assert t[i] == s[i + 1];
        }
      }
      AdjacentInRankOrder(t, now);
      var head := if InBattleRange(IntervalSeconds(s[1])) then [MakeBattle(s[0], s[1], now)] else [];
      assert AdjacentBattles(s, now) == head + AdjacentBattles(t, now);
      StepInOrder(s, now, AdjacentBattles(t, now), head);
    }
  }

  /** The extended list keeps the rank order of the close pairs. */
  lemma StepInOrder(s: seq<PositionSample>, now: int, rest: seq<Battle>, head: seq<Battle>)
    requires |s| >= 2 && AllRanked(s)
    requires BattlesInRankOrder(s[1..], rest, now)
    requires head == if InBattleRange(IntervalSeconds(s[1])) then [MakeBattle(s[0], s[1], now)] else []
    ensures BattlesInRankOrder(s, head + rest, now)
  {
    var t := s[1..];
    var h := if IsBattlePair(s, 0) then [0] else [];
    var tail := ClosePairs(t);
    assert ClosePairs(s) == h + Shift(tail);
    var mk := (i: nat) => PairBattle(s, i, now);
    forall k | 0 <= k < |rest| ensures rest[k] == mk(tail[k] + 1) {
      ShiftedBattle(s, now, rest, k);
    }
    ConsInOrder(mk, head, rest, h, tail);
  }

  /** The battle of pair `i` of ranked `s`; pair 0's battle stands in for indices past the end. */
  function PairBattle(s: seq<PositionSample>, i: nat, now: int): Battle
    requires |s| >= 2 && AllRanked(s)
  {
    if i + 1 < |s| then MakeBattle(s[i], s[i + 1], now) else MakeBattle(s[0], s[1], now)
  }

  /**
   * The battle of pair 0, if close, followed by the battles of the shifted indices:
   * `mk(i)` stands for the battle of pair `i`.
   */
  lemma ConsInOrder<B>(mk: nat -> B, head: seq<B>, rest: seq<B>, h: seq<nat>, tail: seq<nat>)
    requires h == [] || h == [0]
    requires head == if h == [0] then [mk(0)] else []
    requires |rest| == |tail|
    requires forall k | 0 <= k < |rest| :: rest[k] == mk(tail[k] + 1)
    ensures var idx := h + Shift(tail);
      && |head + rest| == |idx|
      && forall j | 0 <= j < |idx| :: (head + rest)[j] == mk(idx[j])
  {
    var idx := h + Shift(tail);
    forall j | 0 <= j < |idx| ensures (head + rest)[j] == mk(idx[j]) {
      ConsIndex(h, tail, j);
      if j >= |head| {
        assert (head + rest)[j] == rest[j - |head|];
      }
    }
  }

  /** Index `j` of `h + Shift(tail)`, for a head of at most the index 0. */
  lemma ConsIndex(h: seq<nat>, tail: seq<nat>, j: int)
    requires h == [] || h == [0]
    requires 0 <= j < |h| + |tail|
    ensures |h + Shift(tail)| == |h| + |tail|
    ensures (h + Shift(tail))[j] == if j < |h| then 0 else tail[j - |h|] + 1
  {
  }

  /** Battle `k` of the tail's rank-order list is the battle at the next index of `s`. */
  lemma ShiftedBattle(s: seq<PositionSample>, now: int, rest: seq<Battle>, k: int)
    requires |s| >= 2 && AllRanked(s)
    requires BattlesInRankOrder(s[1..], rest, now)
    requires 0 <= k < |rest|
    ensures var i := ClosePairs(s[1..])[k] + 1;
      i + 1 < |s| && rest[k] == PairBattle(s, i, now)
  {
    var t := s[1..];
    var m := ClosePairs(t)[k];
    assert IsBattlePair(t, m);
    assert t[m] == s[m + 1] && t[m + 1] == s[m + 2];
  }

  /** Every close pair of `s` has its battle in the extended list. */
  lemma StepComplete(s: seq<PositionSample>, now: int, rest: seq<Battle>, head: seq<Battle>)
    requires |s| >= 2 && AllRanked(s)
    requires PairsHaveBattles(s[1..], rest, now)
    requires head == if InBattleRange(IntervalSeconds(s[1])) then [MakeBattle(s[0], s[1], now)] else []
    ensures PairsHaveBattles(s, head + rest, now)
  {
    var t := s[1..];
    forall i | IsBattlePair(s, i) ensures MakeBattle(s[i], s[i + 1], now) in head + rest {
      if i > 0 {
        assert t[i - 1] == s[i] && t[i] == s[i + 1];
        assert IsBattlePair(t, i - 1);
      }
    }
  }

  /** When every pair of `s` is close, so is every pair of its tail. */
  lemma StepAllClose(s: seq<PositionSample>)
    requires |s| >= 2
    requires AllPairsClose(s)
    ensures IsBattlePair(s, 0)
    ensures AllPairsClose(s[1..])
  {
    var t := s[1..];
    forall i | 0 <= i < |t| - 1 ensures IsBattlePair(t, i) {
      assert IsBattlePair(s, i + 1);
      assert t[i + 1] == s[i + 2];
    }
  }

  /**
   * The worked example of the threshold table: over four ranked cars whose chasers'
   * intervals are 0.9, 1.2 and 0.05 seconds, exactly two battles are detected, the
   * first low and the second very high; the 1.2-second pair is not a battle.
   */
  lemma IntervalsExample(s: seq<PositionSample>, now: int)
    requires |s| == 4 && AllRanked(s)
    requires IntervalSeconds(s[1]) == 0.9 && IntervalSeconds(s[2]) == 1.2 && IntervalSeconds(s[3]) == 0.05
    ensures var r := AdjacentBattles(s, now);
      && |r| == 2
      && r[0].id == BattleId(s[0].driverNumber, s[1].driverNumber) && r[0].intensity == Low
      && r[1].id == BattleId(s[2].driverNumber, s[3].driverNumber) && r[1].intensity == VeryHigh
  {
    var t1, t2 := s[1..], s[2..];
    assert t1[1] == s[2] && t1[1..] == t2 && t2[1] == s[3];
    AdjacentStep(s, now);
    AdjacentStep(t1, now);
    AdjacentStep(t2, now);
    assert AdjacentBattles(t2[1..], now) == [];
    var b0, b2 := MakeBattle(s[0], s[1], now), MakeBattle(s[2], s[3], now);
    assert AdjacentBattles(s, now) == [b0] + ([] + ([b2] + []));
  }

  /** One step of the loop: the battle of the first pair, if close, then the rest. */
  lemma AdjacentStep(s: seq<PositionSample>, now: int)
    requires |s| >= 2 && AllRanked(s)
    ensures AllRanked(s[1..])
    ensures AdjacentBattles(s, now)
      == (if InBattleRange(IntervalSeconds(s[1])) then [MakeBattle(s[0], s[1], now)] else []) + AdjacentBattles(s[1..], now)
  {
  }

  /** What every detected battle satisfies. */
  ghost predicate WellFormedBattle(b: Battle, now: int) {
    && InBattleRange(b.gap)
    && b.intensity == CalculateBattleIntensity(b.gap)
    && b.id == BattleId(b.leading.driverNumber, b.chasing.driverNumber)
    && 0 < b.leading.position <= b.chasing.position
    && b.leading.driverNumber != b.chasing.driverNumber
    && b.lastUpdate == now
  }

  /**
   * `detectBattles`: one battle for every adjacent pair of the ranked field whose
   * chaser is within a second. `now` is the wall-clock time stamped on each battle.
   */
  function DetectBattles(positions: Option<seq<PositionSample>>, now: int): (r: seq<Battle>)
    ensures positions.None? ==> r == []
    ensures positions.Some? ==> |r| <= PairCount(|RankedField(positions.value)|)
    ensures positions.Some? ==> BattlesFromPairs(RankedField(positions.value), r, now)
    ensures positions.Some? ==> PairsHaveBattles(RankedField(positions.value), r, now)
    ensures forall b | b in r :: WellFormedBattle(b, now)
  {
    match positions
    case None => []
    case Some(data) =>
      var s := RankedField(data);
      var r := AdjacentBattles(s, now);
      BattlesWellFormed(s, r, now);
      r
  }

  /** The detected battles are those of the close pairs of the ranked field, in rank order, each once. */
  lemma DetectedInRankOrder(data: seq<PositionSample>, now: int)
    ensures BattlesInRankOrder(RankedField(data), DetectBattles(Some(data), now), now)
  {
    AdjacentInRankOrder(RankedField(data), now);
  }

  lemma BattlesWellFormed(s: seq<PositionSample>, r: seq<Battle>, now: int)
    requires AllRanked(s) && ByPosition(s) && DistinctBy(s, PositionDriver)
    requires BattlesFromPairs(s, r, now)
    ensures forall b | b in r :: WellFormedBattle(b, now)
  {
    forall b | b in r ensures WellFormedBattle(b, now) {
      var i :| IsBattlePair(s, i) && b == MakeBattle(s[i], s[i + 1], now);
      assert PositionDriver(s[i]) != PositionDriver(s[i + 1]);
    }
  }

  /**
   * When every adjacent pair of the ranked field is within a second, there is one
   * battle per pair: n ranked drivers give n - 1 battles.
   */
  lemma AllCloseGivesAllPairs(data: seq<PositionSample>, now: int)
    requires AllPairsClose(RankedField(data))
    ensures |DetectBattles(Some(data), now)| == PairCount(|RankedField(data)|)
  {
  }

  /** No battle is listed twice: the ids of the detected battles are pairwise distinct. */
  lemma DetectedBattlesDistinct(data: seq<PositionSample>, now: int)
    ensures var r := DetectBattles(Some(data), now);
      forall j, k | 0 <= j < k < |r| :: r[j].id != r[k].id
  {
    DetectedInRankOrder(data, now);
    RankOrderIdsDistinct(RankedField(data), DetectBattles(Some(data), now), now);
  }

  /** Battles listed in rank order over distinct drivers have distinct ids. */
  lemma RankOrderIdsDistinct(s: seq<PositionSample>, r: seq<Battle>, now: int)
    requires AllRanked(s) && DistinctBy(s, PositionDriver)
    requires BattlesInRankOrder(s, r, now)
    ensures forall j, k | 0 <= j < k < |r| :: r[j].id != r[k].id
  {
    var idx := ClosePairs(s);
    ClosePairsAscending(s);
    forall j, k | 0 <= j < k < |r| ensures r[j].id != r[k].id {
      ClosePairIdsDiffer(s, idx[j], idx[k], now);
    }
  }

  /** Two different close pairs over distinct drivers have different battle ids. */
  lemma ClosePairIdsDiffer(s: seq<PositionSample>, a: int, b: int, now: int)
    requires AllRanked(s) && DistinctBy(s, PositionDriver)
    requires IsBattlePair(s, a) && IsBattlePair(s, b) && a < b
    ensures MakeBattle(s[a], s[a + 1], now).id != MakeBattle(s[b], s[b + 1], now).id
  {
    assert PositionDriver(s[a]) != PositionDriver(s[b]);
    if BattleId(s[a].driverNumber, s[a + 1].driverNumber) == BattleId(s[b].driverNumber, s[b + 1].driverNumber) {
      BattleIdInjective(s[a].driverNumber, s[a + 1].driverNumber, s[b].driverNumber, s[b + 1].driverNumber);
    }
  }

  /** A driver has exactly one latest sample. */
  lemma LatestPositionUnique(data: seq<PositionSample>, p: PositionSample, q: PositionSample)
    requires IsLatestPosition(data, p) && IsLatestPosition(data, q)
    requires p.driverNumber == q.driverNumber
    ensures p == q
  {
    var k1 :| 0 <= k1 < |data| && Latest.IsLatestAt(data, k1, PositionDriver, PositionDate) && data[k1] == p;
    var k2 :| 0 <= k2 < |data| && Latest.IsLatestAt(data, k2, PositionDriver, PositionDate) && data[k2] == q;
    Latest.LatestIsUnique(data, PositionDriver, PositionDate, k1, k2);
  }

  /** The leaderboard shows `car`'s driver, unretired, at `car`'s position. */
  ghost predicate OnBoard(board: seq<LeaderboardEntry>, car: Car) {
    exists e | e in board :: e.driverNumber == car.driverNumber && e.position == Some(car.position) && !e.isRetired
  }

  lemma RankedSampleOnBoard(data: seq<PositionSample>, drivers: seq<Driver>, p: PositionSample)
    requires IsLatestPosition(data, p) && IsRanked(p)
    ensures OnBoard(NormalizeLeaderboard(Some(data), drivers), Car(p.driverNumber, p.position.value))
  {
    var r := NormalizeLeaderboard(Some(data), drivers);
    LeaderboardCoversDrivers(data, drivers);
    LatestRowOnBoard(data, drivers, r, p);
  }

  /** A board of latest rows that covers every driver shows each ranked latest sample. */
  lemma LatestRowOnBoard(data: seq<PositionSample>, drivers: seq<Driver>, r: seq<LeaderboardEntry>, p: PositionSample)
    requires IsLatestPosition(data, p) && IsRanked(p)
    requires RowsFromLatest(data, drivers, r)
    requires forall d :: d in PositionDrivers(data) <==> exists i | 0 <= i < |r| :: r[i].driverNumber == d
    ensures OnBoard(r, Car(p.driverNumber, p.position.value))
  {
    var k :| 0 <= k < |data| && Latest.IsLatestAt(data, k, PositionDriver, PositionDate) && data[k] == p;
    assert PositionDriver(data[k]) in PositionDrivers(data);
    var i :| 0 <= i < |r| && r[i].driverNumber == p.driverNumber;
    assert IsLatestRow(data, drivers, r[i]);
    var q :| IsLatestPosition(data, q) && r[i] == ToEntry(q, drivers);
    LatestPositionUnique(data, p, q);
    assert r[i] in r;
  }

  /**
   * The two views of one feed agree: both cars of every detected battle appear on the
   * leaderboard built from the same samples, unretired and at the same positions.
   */
  lemma BattleCarsOnBoard(data: seq<PositionSample>, drivers: seq<Driver>, now: int)
    ensures var board := NormalizeLeaderboard(Some(data), drivers);
      forall b | b in DetectBattles(Some(data), now) :: OnBoard(board, b.leading) && OnBoard(board, b.chasing)
  {
    var board := NormalizeLeaderboard(Some(data), drivers);
    forall b | b in DetectBattles(Some(data), now) ensures OnBoard(board, b.leading) && OnBoard(board, b.chasing) {
      BattleOnBoard(data, drivers, now, b);
    }
  }

  lemma BattleOnBoard(data: seq<PositionSample>, drivers: seq<Driver>, now: int, b: Battle)
    requires b in DetectBattles(Some(data), now)
    ensures var board := NormalizeLeaderboard(Some(data), drivers);
      OnBoard(board, b.leading) && OnBoard(board, b.chasing)
  {
    var p, q := BattleSamples(data, now, b);
    RankedSampleOnBoard(data, drivers, p);
    RankedSampleOnBoard(data, drivers, q);
  }

  /** The cars of a detected battle are those of two latest, ranked samples. */
  lemma BattleSamples(data: seq<PositionSample>, now: int, b: Battle) returns (p: PositionSample, q: PositionSample)
    requires b in DetectBattles(Some(data), now)
    ensures IsLatestPosition(data, p) && IsRanked(p) && b.leading == Car(p.driverNumber, p.position.value)
    ensures IsLatestPosition(data, q) && IsRanked(q) && b.chasing == Car(q.driverNumber, q.position.value)
  {
    var s := RankedField(data);
    var i := PairOfBattle(s, DetectBattles(Some(data), now), now, b);
    p, q := s[i], s[i + 1];
    InRankedField(data, i);
    InRankedField(data, i + 1);
  }

  lemma InRankedField(data: seq<PositionSample>, i: int)
    requires 0 <= i < |RankedField(data)|
    ensures IsLatestPosition(data, RankedField(data)[i]) && IsRanked(RankedField(data)[i])
  {
    assert RankedField(data)[i] in RankedField(data);
  }

  /** The close pair of `s` whose battle `b` is. */
  lemma PairOfBattle(s: seq<PositionSample>, r: seq<Battle>, now: int, b: Battle) returns (i: int)
    requires AllRanked(s) && BattlesFromPairs(s, r, now) && b in r
    ensures IsBattlePair(s, i)
    ensures b.leading == Car(s[i].driverNumber, s[i].position.value)
    ensures b.chasing == Car(s[i + 1].driverNumber, s[i + 1].position.value)
  {
    i :| IsBattlePair(s, i) && b == MakeBattle(s[i], s[i + 1], now);
  }

  // ---------------------------------------------------------------- track positions

  /** `!!(x && y)`: both coordinates present and non-zero. */
  predicate IsValidLocation(l: LocationSample) {
    l.x.Some? && l.x.value != 0.0 && l.y.Some? && l.y.value != 0.0
  }

  function PointDriver(q: PositionPoint): nat { q.driverNumber }

  function ToPoint(l: LocationSample): PositionPoint {
    PositionPoint(l.driverNumber, l.x.GetOr(0.0), l.y.GetOr(0.0), l.z.GetOr(0.0), l.date)
  }

  function ValidPoints(s: seq<LocationSample>): (r: seq<PositionPoint>)
    ensures |r| <= |s|
    ensures forall q | q in r :: exists l | l in s :: IsValidLocation(l) && q == ToPoint(l)
    ensures forall l | l in s && IsValidLocation(l) :: ToPoint(l) in r
  {
    if |s| == 0 then []
    else (if IsValidLocation(s[0]) then [ToPoint(s[0])] else []) + ValidPoints(s[1..])
  }

  ghost predicate IsLatestLocation(data: seq<LocationSample>, l: LocationSample) {
    Latest.IsLatestSample(data, l, LocationDriver, LocationDate)
  }

  /**
   * `normalizePositions`: the latest location per driver, keeping only points whose
   * x and y are both present and non-zero. The points keep the order in which the
   * input first mentions their drivers, one point per driver.
   */
  function NormalizePositions(locations: Option<seq<LocationSample>>): (r: seq<PositionPoint>)
    ensures locations.None? ==> r == []
    ensures locations.Some? ==> |r| <= |Latest.DriverSet(locations.value, LocationDriver)|
    ensures locations.Some? ==> forall q | q in r ::
      exists l | IsLatestLocation(locations.value, l) :: IsValidLocation(l) && q == ToPoint(l)
    ensures locations.Some? ==> forall l | IsLatestLocation(locations.value, l) && IsValidLocation(l) :: ToPoint(l) in r
    ensures forall q | q in r :: q.x != 0.0 && q.y != 0.0
    ensures locations.Some? ==> forall i, j | 0 <= i < j < |r| ::
      Latest.SeenBefore(locations.value, LocationDriver, PointDriver(r[i]), PointDriver(r[j]))
    ensures DistinctBy(r, PointDriver)
  {
    match locations
    case None => []
    case Some(data) =>
      PositionsFacts(data, LatestLocations(data), ValidPoints(LatestLocations(data)));
      ValidPoints(LatestLocations(data))
  }

  lemma PositionsFacts(data: seq<LocationSample>, latest: seq<LocationSample>, r: seq<PositionPoint>)
    requires latest == LatestLocations(data) && r == ValidPoints(latest)
    ensures |r| <= |Latest.DriverSet(data, LocationDriver)|
    ensures forall q | q in r :: exists l | IsLatestLocation(data, l) :: IsValidLocation(l) && q == ToPoint(l)
    ensures forall l | IsLatestLocation(data, l) && IsValidLocation(l) :: ToPoint(l) in r
    ensures forall i, j | 0 <= i < j < |r| ::
      Latest.SeenBefore(data, LocationDriver, PointDriver(r[i]), PointDriver(r[j]))
    ensures DistinctBy(r, PointDriver)
  {
    LatestLocationsComplete(data);
    PointsFromLatest(data, latest, r);
    Latest.LatestFirstSeenOrder(data, LocationDriver, LocationDate);
    ValidPointsKeepOrder(data, latest, r);
    SeenBeforeDistinct(data, r);
  }

  /** Dropping invalid locations keeps the remaining drivers in their order. */
  lemma {:induction false} ValidPointsKeepOrder(data: seq<LocationSample>, s: seq<LocationSample>, r: seq<PositionPoint>)
    requires forall i, j | 0 <= i < j < |s| ::
      Latest.SeenBefore(data, LocationDriver, LocationDriver(s[i]), LocationDriver(s[j]))
    requires r == ValidPoints(s)
    ensures forall i, j | 0 <= i < j < |r| ::
      Latest.SeenBefore(data, LocationDriver, PointDriver(r[i]), PointDriver(r[j]))
    decreases |s|
  {
    if |s| > 0 {
      var rest := ValidPoints(s[1..]);
      ValidPointsKeepOrder(data, s[1..], rest);
      if IsValidLocation(s[0]) {
        assert r == [ToPoint(s[0])] + rest;
        forall i, j | 0 <= i < j < |r|
          ensures Latest.SeenBefore(data, LocationDriver, PointDriver(r[i]), PointDriver(r[j]))
        {
          if i == 0 {
            assert r[j] == rest[j - 1];
            HeadSeenFirst(data, s, rest, j - 1);
          } else {
            assert r[i] == rest[i - 1] && r[j] == rest[j - 1];
            assert Latest.SeenBefore(data, LocationDriver, PointDriver(rest[i - 1]), PointDriver(rest[j - 1]));
          }
        }
      } else {
        assert r == rest;
      }
    }
  }

  /** The first location's driver is seen before the driver of every valid later one. */
  lemma HeadSeenFirst(data: seq<LocationSample>, s: seq<LocationSample>, rest: seq<PositionPoint>, j: int)
    requires |s| > 0 && rest == ValidPoints(s[1..]) && 0 <= j < |rest|
    requires forall i, j | 0 <= i < j < |s| ::
      Latest.SeenBefore(data, LocationDriver, LocationDriver(s[i]), LocationDriver(s[j]))
    ensures Latest.SeenBefore(data, LocationDriver, LocationDriver(s[0]), PointDriver(rest[j]))
  {
    assert rest[j] in rest;
    var l :| l in s[1..] && IsValidLocation(l) && rest[j] == ToPoint(l);
    var k :| 0 <= k < |s[1..]| && s[1..][k] == l;
    assert s[k + 1] == l && PointDriver(rest[j]) == LocationDriver(s[k + 1]);
    assert Latest.SeenBefore(data, LocationDriver, LocationDriver(s[0]), LocationDriver(s[k + 1]));
  }

  /** Drivers each seen before the next are pairwise distinct. */
  lemma SeenBeforeDistinct(data: seq<LocationSample>, r: seq<PositionPoint>)
    requires forall i, j | 0 <= i < j < |r| ::
      Latest.SeenBefore(data, LocationDriver, PointDriver(r[i]), PointDriver(r[j]))
    ensures DistinctBy(r, PointDriver)
  {
    forall i, j | 0 <= i < j < |r| ensures PointDriver(r[i]) != PointDriver(r[j]) {
      assert Latest.SeenBefore(data, LocationDriver, PointDriver(r[i]), PointDriver(r[j]));
      var p :| 0 <= p < |data| && LocationDriver(data[p]) == PointDriver(r[i])
        && forall q | 0 <= q <= p :: LocationDriver(data[q]) != PointDriver(r[j]);
    }
  }

  lemma PointsFromLatest(data: seq<LocationSample>, latest: seq<LocationSample>, r: seq<PositionPoint>)
    requires forall i | 0 <= i < |latest| :: IsLatestLocation(data, latest[i])
    requires forall q | q in r :: exists l | l in latest :: IsValidLocation(l) && q == ToPoint(l)
    ensures forall q | q in r :: exists l | IsLatestLocation(data, l) :: IsValidLocation(l) && q == ToPoint(l)
  {
    forall q | q in r ensures exists l | IsLatestLocation(data, l) :: IsValidLocation(l) && q == ToPoint(l) {
      var l :| l in latest && IsValidLocation(l) && q == ToPoint(l);
      var k :| 0 <= k < |latest| && latest[k] == l;
      assert IsLatestLocation(data, latest[k]);
    }
  }

  /** Every latest location sample is among the ones `getLatestDataPerDriver` returns. */
  lemma LatestLocationsComplete(data: seq<LocationSample>)
    ensures forall l | IsLatestLocation(data, l) :: l in LatestLocations(data)
  {
    forall l | IsLatestLocation(data, l) ensures l in LatestLocations(data) {
      Latest.LatestComplete(data, LocationDriver, LocationDate, l);
    }
  }

  // ---------------------------------------------------------------- percentages

  /** `normalizePercentage`: clamp into [0, 100]; a missing or unparsable value is 0. */
  function NormalizePercentage(value: Option<real>): (r: real)
    ensures 0.0 <= r <= 100.0
    ensures value.None? ==> r == 0.0
    ensures value.Some? && 0.0 <= value.value <= 100.0 ==> r == value.value
    ensures value.Some? && value.value < 0.0 ==> r == 0.0
    ensures value.Some? && value.value > 100.0 ==> r == 100.0
  {
    match value
    case None => 0.0
    case Some(v) => if v < 0.0 then 0.0 else if v > 100.0 then 100.0 else v
  }

  /** Normalizing an already normalized percentage changes nothing. */
  lemma NormalizePercentageIdempotent(value: Option<real>)
    ensures NormalizePercentage(Some(NormalizePercentage(value))) == NormalizePercentage(value)
  {
  }
}

=== FILE: reconnect.dfy ===
/**
 * The connection state machine of the `useWebSocket` hook
 * (frontend/app/hooks/useWebSocket.js). The hook's refs and React state are one
 * record; socket callbacks, timer callbacks and the caller's actions are transition
 * functions on it. Timers are kept as the multiset of scheduled callbacks: the hook
 * never stores their handles, so nothing ever cancels one.
 */
module ReconnectHook {
  import opened Wrappers

  const MaxReconnectAttempts: nat := 5
  /** The WebSocket "normal closure" close code. */
  const NormalClosure: int := 1000
  /** The fixed delay of a manual `reconnect()`. */
  const ManualReconnectDelay: nat := 1000

  /** `WebSocket.readyState`. */
  datatype ReadyState = Connecting | Open | Closing | Closed

  /**
   * A scheduled callback: a backoff retry (bumps the attempt counter, then connects)
   * or the plain `connect` scheduled by `reconnect()`.
   */
  datatype Timer = RetryTimer(delay: nat) | ConnectTimer(delay: nat)

  /** A parsed JSON value: what `JSON.parse` returns and `JSON.stringify` accepts. */
  datatype Json =
    | Null
    | Bool(b: bool)
    | Number(n: real)
    | Text(s: string)
    | List(items: seq<Json>)
    | Object(fields: seq<(string, Json)>)

  datatype HookError = ConnectionError | CreateFailed

  /**
   * The hook. `sockets` lists every socket ever created (index = socket id) and
   * `current` is `ws.current`; `data`, `isConnected` and `error` are React state,
   * which ignores updates once the component is unmounted. `sent` records what
   * `sendMessage` handed to the socket.
   */
  datatype Hook = Hook(
    urlValid: bool,
    mounted: bool,
    data: Option<Json>,
    isConnected: bool,
    error: Option<HookError>,
    attempts: nat,
    sockets: seq<ReadyState>,
    current: Option<nat>,
    pending: multiset<Timer>,
    sent: seq<Json>)

  /** A socket whose close has begun or finished. */
  predicate ShutDown(s: ReadyState) {
    s == Closing || s == Closed
  }

  /** A socket that is connecting or open. */
  predicate Live(s: ReadyState) {
    s == Connecting || s == Open
  }

  ghost predicate WellFormed(h: Hook) {
    h.current.Some? ==> h.current.value < |h.sockets|
  }

  function Pow2(n: nat): (p: nat)
    ensures p >= 1
  {
    if n == 0 then 1 else 2 * Pow2(n - 1)
  }

  /** `Math.pow(2, attempts) * 1000`. */
  function Backoff(attempts: nat): nat {
    Pow2(attempts) * 1000
  }

  /** `connect()`: a new socket becomes `ws.current`; an invalid URL makes the constructor throw. */
  function Connect(h: Hook): (r: Hook)
    requires WellFormed(h)
    ensures WellFormed(r)
    ensures r.pending == h.pending && r.attempts == h.attempts && r.mounted == h.mounted
    ensures h.urlValid ==> r.sockets == h.sockets + [Connecting] && r.current == Some(|h.sockets|)
    ensures !h.urlValid ==> r.sockets == h.sockets && r.current == h.current
    ensures !h.urlValid && h.mounted ==> r.error == Some(CreateFailed)
  {
    if h.urlValid then h.(sockets := h.sockets + [Connecting], current := Some(|h.sockets|))
    else if h.mounted then h.(error := Some(CreateFailed))
    else h
  }

  /** Mounting: the effect calls `connect()` once. */
  function Mount(urlValid: bool): (h: Hook)
    ensures WellFormed(h) && h.mounted && h.attempts == 0 && h.pending == multiset{}
    ensures !h.isConnected && h.data.None?
    ensures urlValid <==> h.current == Some(0)
  {
    Connect(Hook(urlValid, true, None, false, None, 0, [], None, multiset{}, []))
  }

  /** `onopen`: connected, error cleared, attempt counter reset. */
  function OnOpen(h: Hook, id: nat): (r: Hook)
    requires WellFormed(h) && id < |h.sockets|
    ensures WellFormed(r)
    ensures |r.sockets| == |h.sockets|
    ensures h.sockets[id] == Connecting ==> r.sockets[id] == Open && r.attempts == 0
    ensures h.sockets[id] == Connecting && h.mounted ==> r.isConnected && r.error.None?
    ensures h.sockets[id] == Connecting && !h.mounted ==> r.isConnected == h.isConnected && r.error == h.error
    ensures h.sockets[id] == Connecting ==>
      && r.sockets == h.sockets[id := Open] && r.current == h.current && r.data == h.data
      && r.sent == h.sent && r.mounted == h.mounted && r.urlValid == h.urlValid
    ensures h.sockets[id] != Connecting ==> r == h
    ensures r.pending == h.pending
  {
    if h.sockets[id] != Connecting then h
    else
      var h1 := h.(sockets := h.sockets[id := Open], attempts := 0);
      if h.mounted then h1.(isConnected := true, error := None) else h1
  }

  /**
   * `onmessage`: `parsed` is the result of `JSON.parse` (`None` when it throws). An
   * unparsable message is dropped and nothing else changes.
   */
  function OnMessage(h: Hook, id: nat, parsed: Option<Json>): (r: Hook)
    requires WellFormed(h) && id < |h.sockets|
    ensures WellFormed(r)
    ensures parsed.None? ==> r == h
    ensures h.sockets[id] == Open && h.mounted && parsed.Some? ==> r == h.(data := parsed)
    ensures r.sockets == h.sockets && r.pending == h.pending && r.isConnected == h.isConnected
  {
    if h.sockets[id] == Open && h.mounted && parsed.Some? then h.(data := parsed) else h
  }

  /** `onerror`: records the error; the close event that follows does the rest. */
  function OnError(h: Hook, id: nat): (r: Hook)
    requires WellFormed(h) && id < |h.sockets|
    ensures WellFormed(r)
    ensures h.mounted ==> r.error == Some(ConnectionError)
    ensures r.sockets == h.sockets && r.pending == h.pending && r.attempts == h.attempts
  {
    if h.mounted then h.(error := Some(ConnectionError)) else h
  }

  /** A close with this code and counter schedules a retry. */
  predicate SchedulesRetry(code: int, attempts: nat) {
    code != NormalClosure && attempts < MaxReconnectAttempts
  }

  /**
   * `onclose`: disconnected; unless the close was normal (1000) or the attempts are
   * used up, a retry is scheduled after `2^attempts * 1000` ms.
   */
  function OnClose(h: Hook, id: nat, code: int): (r: Hook)
    requires WellFormed(h) && id < |h.sockets|
    ensures WellFormed(r)
    ensures h.sockets[id] == Closed ==> r == h
    ensures h.sockets[id] != Closed ==> r.sockets == h.sockets[id := Closed]
    ensures h.sockets[id] != Closed && h.mounted ==> !r.isConnected
    ensures h.sockets[id] != Closed && SchedulesRetry(code, h.attempts) ==>
      r.pending == h.pending + multiset{RetryTimer(Backoff(h.attempts))}
    ensures !SchedulesRetry(code, h.attempts) ==> r.pending == h.pending
    ensures r.attempts == h.attempts && r.current == h.current && r.mounted == h.mounted
  {
    if h.sockets[id] == Closed then h
    else
      var h1 := h.(sockets := h.sockets[id := Closed]);
      var h2 := if h.mounted then h1.(isConnected := false) else h1;
      if SchedulesRetry(code, h.attempts)
      then h2.(pending := h2.pending + multiset{RetryTimer(Backoff(h.attempts))})
      else h2
  }

  /** A scheduled callback runs: a retry bumps the counter before connecting. */
  function Fire(h: Hook, t: Timer): (r: Hook)
    requires WellFormed(h) && t in h.pending
    ensures WellFormed(r)
    ensures r.pending == h.pending - multiset{t}
    ensures t.RetryTimer? ==> r.attempts == h.attempts + 1
    ensures t.ConnectTimer? ==> r.attempts == h.attempts
    ensures h.urlValid ==> r.sockets == h.sockets + [Connecting] && r.current == Some(|h.sockets|)
    ensures r.mounted == h.mounted
  {
    var h1 := h.(pending := h.pending - multiset{t});
    match t
    case RetryTimer(_) => Connect(h1.(attempts := h.attempts + 1))
    case ConnectTimer(_) => Connect(h1)
  }

  /** The current socket is open. */
  predicate CurrentOpen(h: Hook)
    requires WellFormed(h)
  {
    h.current.Some? && h.sockets[h.current.value] == Open
  }

  /** `sendMessage`: sends only on an open socket; otherwise only warns. */
  function SendMessage(h: Hook, message: Json): (r: Lookup)
    requires WellFormed(h)
    ensures WellFormed(r.hook)
    ensures r.sent <==> CurrentOpen(h)
    ensures r.sent ==> r.hook == h.(sent := h.sent + [message])
    ensures !r.sent ==> r.hook == h
  {
    if CurrentOpen(h) then Lookup(h.(sent := h.sent + [message]), true) else Lookup(h, false)
  }

  /** The hook after an action, and whether a message went out. */
  datatype Lookup = Lookup(hook: Hook, sent: bool)

  /** `ws.current.close(1000, …)`: a connecting or open socket starts closing. */
  function CloseCurrent(h: Hook): (r: Hook)
    requires WellFormed(h)
    ensures WellFormed(r)
    ensures r.current == h.current && |r.sockets| == |h.sockets|
    ensures r.pending == h.pending && r.attempts == h.attempts && r.mounted == h.mounted
    ensures r.current.Some? ==> ShutDown(r.sockets[r.current.value])
    ensures forall i | 0 <= i < |h.sockets| && Some(i) != h.current :: r.sockets[i] == h.sockets[i]
  {
    match h.current
    case None => h
    case Some(id) =>
      if Live(h.sockets[id]) then h.(sockets := h.sockets[id := Closing])
      else h
  }

  /** `disconnect()`. */
  function Disconnect(h: Hook): (r: Hook)
    requires WellFormed(h)
    ensures WellFormed(r)
  {
    CloseCurrent(h)
  }

  /** `reconnect()`: close normally, reset the counter, connect again after a second. */
  function Reconnect(h: Hook): (r: Hook)
    requires WellFormed(h)
    ensures WellFormed(r)
    ensures r.attempts == 0
    ensures r.pending == h.pending + multiset{ConnectTimer(ManualReconnectDelay)}
    ensures r.current.Some? ==> ShutDown(r.sockets[r.current.value])
  {
    Disconnect(h).(attempts := 0, pending := h.pending + multiset{ConnectTimer(ManualReconnectDelay)})
  }

  /** The effect's cleanup on unmount: a normal close of the current socket, nothing more. */
  function Unmount(h: Hook): (r: Hook)
    requires WellFormed(h)
    ensures WellFormed(r)
    ensures !r.mounted
    ensures r.pending == h.pending && r.attempts == h.attempts
    ensures r.current.Some? ==> ShutDown(r.sockets[r.current.value])
  {
    CloseCurrent(h).(mounted := false)
  }

  // ---------------------------------------------------------------- events and runs

  /** Everything that can happen to the hook. */
  datatype Event =
    | Opened(id: nat)
    | Received(id: nat, parsed: Option<Json>)
    | Errored(id: nat)
    | ClosedWith(id: nat, code: int)
    | TimerFired(timer: Timer)
    | Send(message: Json)
    | DisconnectCalled
    | ReconnectCalled
    | Unmounted

  /** Socket events name an existing socket; only scheduled timers fire. */
  predicate Enabled(h: Hook, e: Event) {
    match e
    case Opened(id) => id < |h.sockets|
    case Received(id, _) => id < |h.sockets|
    case Errored(id) => id < |h.sockets|
    case ClosedWith(id, _) => id < |h.sockets|
    case TimerFired(t) => t in h.pending
    case _ => true
  }

  function Next(h: Hook, e: Event): (r: Hook)
    requires WellFormed(h) && Enabled(h, e)
    ensures WellFormed(r)
  {
    match e
    case Opened(id) => OnOpen(h, id)
    case Received(id, parsed) => OnMessage(h, id, parsed)
    case Errored(id) => OnError(h, id)
    case ClosedWith(id, code) => OnClose(h, id, code)
    case TimerFired(t) => Fire(h, t)
    case Send(m) => SendMessage(h, m).hook
    case DisconnectCalled => Disconnect(h)
    case ReconnectCalled => Reconnect(h)
    case Unmounted => Unmount(h)
  }

  /** A backoff delay the hook can schedule: 1, 2, 4, 8 or 16 seconds. */
  predicate IsBackoffDelay(d: nat) {
    d == 1000 || d == 2000 || d == 4000 || d == 8000 || d == 16000
  }

  lemma BackoffValues(k: nat)
    requires k < MaxReconnectAttempts
    ensures IsBackoffDelay(Backoff(k))
  {
    assert Pow2(0) == 1 && Pow2(1) == 2 && Pow2(2) == 4 && Pow2(3) == 8 && Pow2(4) == 16;
  }

  /** Every pending retry waits one of the five backoff delays; every manual connect waits 1 s. */
  ghost predicate TimersBounded(h: Hook) {
    && (forall t | t in h.pending && t.RetryTimer? :: IsBackoffDelay(t.delay))
    && (forall t | t in h.pending && t.ConnectTimer? :: t.delay == ManualReconnectDelay)
  }

  ghost predicate Inv(h: Hook) {
    WellFormed(h) && TimersBounded(h)
  }

  /** Every transition keeps the invariant. */
  lemma NextKeepsInv(h: Hook, e: Event)
    requires Inv(h) && Enabled(h, e)
    ensures Inv(Next(h, e))
  {
    match e
    case ClosedWith(id, code) =>
      if h.sockets[id] != Closed && SchedulesRetry(code, h.attempts) {
        BackoffValues(h.attempts);
      }
    case _ =>
  }

  /** Whether every event of a run is enabled when it happens. */
  predicate RunEnabled(h: Hook, events: seq<Event>)
    requires WellFormed(h)
    decreases |events|
  {
    |events| == 0 || (Enabled(h, events[0]) && RunEnabled(Next(h, events[0]), events[1..]))
  }

  function Run(h: Hook, events: seq<Event>): Hook
    requires WellFormed(h) && RunEnabled(h, events)
    decreases |events|
  {
    if |events| == 0 then h else Run(Next(h, events[0]), events[1..])
  }

  /** From mounting on, through any run, retries wait at most 16 s and manual connects 1 s. */
  lemma {:induction false} RunKeepsInv(h: Hook, events: seq<Event>)
    requires Inv(h) && RunEnabled(h, events)
    ensures Inv(Run(h, events))
    decreases |events|
  {
    if |events| > 0 {
      NextKeepsInv(h, events[0]);
      RunKeepsInv(Next(h, events[0]), events[1..]);
    }
  }

  lemma MountSatisfiesInv(urlValid: bool)
    ensures Inv(Mount(urlValid))
  {
  }

  // ---------------------------------------------------------------- the backoff schedule

  /** The retries left from counter `k`: 2^k, 2^(k+1), …, 2^4 seconds. */
  function RemainingDelays(k: nat): seq<nat>
    decreases MaxReconnectAttempts - k
  {
    if k >= MaxReconnectAttempts then [] else [Backoff(k)] + RemainingDelays(k + 1)
  }

  lemma RemainingStep(k: nat)
    requires k < MaxReconnectAttempts
    ensures RemainingDelays(k) == [Backoff(k)] + RemainingDelays(k + 1)
  {
  }

  /** The current socket is live (connecting or open) and a new one can be created. */
  ghost predicate CanFail(h: Hook) {
    WellFormed(h) && h.urlValid && h.current.Some? && Live(h.sockets[h.current.value])
  }

  /**
   * `delays` are the retries scheduled when, again and again, the current socket
   * closes with `code` and the retry just scheduled fires; the run ends with a close
   * that schedules nothing.
   */
  ghost predicate FailureRun(h: Hook, code: int, delays: seq<nat>)
    requires CanFail(h)
    decreases |delays|
  {
    var closed := OnClose(h, h.current.value, code);
    if |delays| == 0 then closed.pending == h.pending
    else
      var t := RetryTimer(delays[0]);
      && closed.pending == h.pending + multiset{t}
      && CanFail(Fire(closed, t))
      && FailureRun(Fire(closed, t), code, delays[1..])
  }

  /** The state after one round below the cap: the retry for the counter is scheduled and fires. */
  lemma FailureStep(h: Hook, code: int) returns (next: Hook)
    requires CanFail(h) && code != NormalClosure
    requires h.attempts < MaxReconnectAttempts
    ensures OnClose(h, h.current.value, code).pending == h.pending + multiset{RetryTimer(Backoff(h.attempts))}
    ensures next == Fire(OnClose(h, h.current.value, code), RetryTimer(Backoff(h.attempts)))
    ensures CanFail(next) && next.attempts == h.attempts + 1
  {
    var closed := OnClose(h, h.current.value, code);
    next := Fire(closed, RetryTimer(Backoff(h.attempts)));
    assert next.sockets[next.current.value] == Connecting;
  }

  /**
   * Consecutive abnormal closes without an intervening open schedule exactly the
   * remaining backoff delays and then stop retrying.
   */
  lemma {:induction false} FailuresFollowBackoff(h: Hook, code: int, delays: seq<nat>)
    requires CanFail(h) && code != NormalClosure
    requires h.attempts <= MaxReconnectAttempts
    ensures FailureRun(h, code, delays) <==> delays == RemainingDelays(h.attempts)
    decreases |delays|
  {
    if h.attempts == MaxReconnectAttempts {
      CappedSchedulesNothing(h, code, delays);
    } else {
      RemainingStep(h.attempts);
      if |delays| == 0 {
        RetryScheduled(h, code);
      } else if delays[0] != Backoff(h.attempts) {
        OtherDelayNotScheduled(h, code, delays);
      } else {
        var next := FailureStep(h, code);
        FailuresFollowBackoff(next, code, delays[1..]);
        BackoffDelayRuns(h, code, delays, next);
        HeadMatches(delays, Backoff(h.attempts), RemainingDelays(h.attempts + 1));
      }
    }
  }

  lemma HeadMatches(delays: seq<nat>, x: nat, rest: seq<nat>)
    requires |delays| > 0 && delays[0] == x
    ensures delays == [x] + rest <==> delays[1..] == rest
  {
    assert delays == [x] + delays[1..];
  }

  /** Below the cap, a close schedules a retry, so a run cannot stop there. */
  lemma RetryScheduled(h: Hook, code: int)
    requires CanFail(h) && code != NormalClosure && h.attempts < MaxReconnectAttempts
    ensures !FailureRun(h, code, [])
  {
    var closed := OnClose(h, h.current.value, code);
    assert RetryTimer(Backoff(h.attempts)) in closed.pending - h.pending;
  }

  /** Below the cap, a close schedules no retry other than the counter's backoff. */
  lemma OtherDelayNotScheduled(h: Hook, code: int, delays: seq<nat>)
    requires CanFail(h) && code != NormalClosure && h.attempts < MaxReconnectAttempts
    requires |delays| > 0 && delays[0] != Backoff(h.attempts)
    ensures !FailureRun(h, code, delays)
  {
    var closed := OnClose(h, h.current.value, code);
    assert RetryTimer(delays[0]) !in multiset{RetryTimer(Backoff(h.attempts))};
    assert RetryTimer(delays[0]) !in closed.pending - h.pending;
  }

  /** With the right delay, the run continues from the state after the retry fires. */
  lemma BackoffDelayRuns(h: Hook, code: int, delays: seq<nat>, next: Hook)
    requires CanFail(h) && code != NormalClosure && h.attempts < MaxReconnectAttempts
    requires |delays| > 0 && delays[0] == Backoff(h.attempts)
    requires OnClose(h, h.current.value, code).pending == h.pending + multiset{RetryTimer(Backoff(h.attempts))}
    requires next == Fire(OnClose(h, h.current.value, code), RetryTimer(Backoff(h.attempts))) && CanFail(next)
    ensures FailureRun(h, code, delays) == FailureRun(next, code, delays[1..])
  {
  }

  /** At the cap, a close schedules nothing, so the run stops there. */
  lemma CappedSchedulesNothing(h: Hook, code: int, delays: seq<nat>)
    requires CanFail(h) && h.attempts == MaxReconnectAttempts
    ensures FailureRun(h, code, delays) <==> delays == RemainingDelays(h.attempts)
  {
    var closed := OnClose(h, h.current.value, code);
    assert closed.pending == h.pending;
    if |delays| > 0 {
      assert |h.pending + multiset{RetryTimer(delays[0])}| == |h.pending| + 1;
    }
  }

  /**
   * The scenario of the hook: from a fresh mount, repeated abnormal closes retry after
   * 1, 2, 4, 8 and 16 seconds, and then never again.
   */
  lemma BackoffScheduleFromMount(code: int, delays: seq<nat>)
    requires code != NormalClosure
    ensures FailureRun(Mount(true), code, delays) <==> delays == [1000, 2000, 4000, 8000, 16000]
  {
    FailuresFollowBackoff(Mount(true), code, delays);
    RemainingFromZero();
  }

  lemma RemainingFromZero()
    ensures RemainingDelays(0) == [1000, 2000, 4000, 8000, 16000]
  {
    assert Pow2(0) == 1 && Pow2(1) == 2 && Pow2(2) == 4 && Pow2(3) == 8 && Pow2(4) == 16;
    assert Backoff(0) == 1000 && Backoff(1) == 2000 && Backoff(2) == 4000 && Backoff(3) == 8000 && Backoff(4) == 16000;
    RemainingStep(0);
    RemainingStep(1);
    RemainingStep(2);
    RemainingStep(3);
    RemainingStep(4);
    assert RemainingDelays(5) == [];
    assert RemainingDelays(0) == [1000] + ([2000] + ([4000] + ([8000] + ([16000] + []))));
  }

  /** A normal closure never schedules a retry. */
  lemma NormalCloseNeverRetries(h: Hook, id: nat)
    requires WellFormed(h) && id < |h.sockets|
    ensures OnClose(h, id, NormalClosure).pending == h.pending
  {
  }

  /** Closing what `disconnect()` closed, with the normal code, leaves no retry behind. */
  lemma DisconnectThenCloseNoRetry(h: Hook)
    requires WellFormed(h) && h.current.Some?
    ensures var d := Disconnect(h); OnClose(d, h.current.value, NormalClosure).pending == h.pending
  {
  }

  /**
   * Unmounting cancels nothing: a retry scheduled before it still fires afterwards and
   * opens a new socket on the unmounted hook.
   */
  lemma TimerOutlivesUnmount(h: Hook, t: Timer)
    requires WellFormed(h) && h.urlValid && t in h.pending
    ensures t in Unmount(h).pending
    ensures var r := Fire(Unmount(h), t);
      !r.mounted && |r.sockets| == |h.sockets| + 1 && r.sockets[|h.sockets|] == Connecting
  {
  }

  /** After `onopen` the next failure starts the schedule again at one second. */
  lemma OpenRestartsSchedule(h: Hook, code: int)
    requires CanFail(h) && h.sockets[h.current.value] == Connecting && code != NormalClosure
    ensures var o := OnOpen(h, h.current.value);
      OnClose(o, h.current.value, code).pending == h.pending + multiset{RetryTimer(1000)}
  {
  }
}

=== FILE: sorting.dfy ===
/**
 * The sort that `Array.prototype.sort` performs, for comparators that order elements
 * by an integer key pair: an insertion sort that places each element after every
 * element whose key is at most its own (`InsertPlacement`), so equal keys keep their
 * arrival order.
 */
module Sorting {

  /** A sort key compared lexicographically: `major` first, then `minor`. */
  datatype Key = Key(major: int, minor: int)

  /** `a` sorts no later than `b`. */
  predicate KeyLe(a: Key, b: Key) {
    a.major < b.major || (a.major == b.major && a.minor <= b.minor)
  }

  /** Every element's key is at most the key of every later element. */
  ghost predicate SortedBy<T>(s: seq<T>, key: T -> Key) {
    forall i, j | 0 <= i < j < |s| :: KeyLe(key(s[i]), key(s[j]))
  }

  /**
   * Inserts `x` into sorted `s` after every element whose key is at most `x`'s key,
   * so that elements with equal keys keep their arrival order.
   */
  function Insert<T>(s: seq<T>, x: T, key: T -> Key): (r: seq<T>)
    requires SortedBy(s, key)
    ensures SortedBy(r, key)
    ensures multiset(r) == multiset(s) + multiset{x}
    decreases |s|
  {
    if |s| == 0 then [x]
    else
      var last := s[|s| - 1];
      if KeyLe(key(last), key(x)) then
        AppendSorted(s, x, key);
        s + [x]
      else
        var front := s[..|s| - 1];
        assert s == front + [last];
        var rest := Insert(front, x, key);
        BoundedByLast(s, x, rest, key);
        AppendSorted(rest, last, key);
        rest + [last]
  }

  /** The number of leading elements of sorted `s` whose key is at most `x`'s key. */
  function Place<T>(s: seq<T>, x: T, key: T -> Key): (k: nat)
    ensures k <= |s|
    decreases |s|
  {
    if |s| == 0 then 0
    else if KeyLe(key(s[|s| - 1]), key(x)) then |s|
    else Place(s[..|s| - 1], x, key)
  }

  /**
   * Where `Insert` puts `x`: after every element whose key is at most its own and
   * before every element whose key is greater. Elements with keys equal to `x`'s thus
   * stay ahead of it.
   */
  lemma InsertPlacement<T>(s: seq<T>, x: T, key: T -> Key)
    requires SortedBy(s, key)
    ensures var k := Place(s, x, key);
      && Insert(s, x, key) == s[..k] + [x] + s[k..]
      && (forall i | 0 <= i < k :: KeyLe(key(s[i]), key(x)))
      && (forall i | k <= i < |s| :: !KeyLe(key(s[i]), key(x)))
  {
    InsertAtPlace(s, x, key);
    PlaceSplits(s, x, key);
  }

  /** `Insert` splices `x` in at index `Place(s, x, key)`. */
  lemma {:induction false} InsertAtPlace<T>(s: seq<T>, x: T, key: T -> Key)
    requires SortedBy(s, key)
    ensures Insert(s, x, key) == s[..Place(s, x, key)] + [x] + s[Place(s, x, key)..]
    decreases |s|
  {
    if |s| == 0 {
    } else if KeyLe(key(s[|s| - 1]), key(x)) {
      assert Insert(s, x, key) == s + [x];
      assert s[..|s|] == s && s[|s|..] == [];
    } else {
      var front, last := s[..|s| - 1], s[|s| - 1];
      assert s == front + [last];
      InsertBeforeLast(s, x, key);
      InsertAtPlace(front, x, key);
      var k := Place(front, x, key);
      Splice(front, last, x, k);
    }
  }

  lemma Splice<T>(front: seq<T>, last: T, x: T, k: nat)
    requires k <= |front|
    ensures front[..k] + [x] + front[k..] + [last]
      == (front + [last])[..k] + [x] + (front + [last])[k..]
  {
    var s := front + [last];
    assert s[..k] == front[..k];
    assert s[k..] == front[k..] + [last];
  }

  /** An element smaller than the last goes into the front part. */
  lemma InsertBeforeLast<T>(s: seq<T>, x: T, key: T -> Key)
    requires |s| > 0 && SortedBy(s, key) && !KeyLe(key(s[|s| - 1]), key(x))
    ensures SortedBy(s[..|s| - 1], key)
    ensures Insert(s, x, key) == Insert(s[..|s| - 1], x, key) + [s[|s| - 1]]
    ensures Place(s, x, key) == Place(s[..|s| - 1], x, key)
  {
  }

  /** The elements before `Place(s, x, key)` have keys at most `x`'s; the rest greater. */
  lemma {:induction false} PlaceSplits<T>(s: seq<T>, x: T, key: T -> Key)
    requires SortedBy(s, key)
    ensures forall i | 0 <= i < Place(s, x, key) :: KeyLe(key(s[i]), key(x))
    ensures forall i | Place(s, x, key) <= i < |s| :: !KeyLe(key(s[i]), key(x))
    decreases |s|
  {
    if |s| > 0 {
      var last := s[|s| - 1];
      if KeyLe(key(last), key(x)) {
        forall i | 0 <= i < |s| ensures KeyLe(key(s[i]), key(x)) {
          if i < |s| - 1 {
            assert KeyLe(key(s[i]), key(last));
          }
        }
      } else {
        var front := s[..|s| - 1];
        PlaceSplits(front, x, key);
        forall i | Place(s, x, key) <= i < |s| ensures !KeyLe(key(s[i]), key(x)) {
          if i < |s| - 1 {
            assert s[i] == front[i];
          }
        }
      }
    }
  }

  /**
   * Splicing `x` into sorted `s` at index `k`, after elements no greater than `x` and
   * before elements no smaller, keeps it sorted.
   */
  lemma SpliceSorted<T>(s: seq<T>, k: nat, x: T, key: T -> Key)
    requires k <= |s| && SortedBy(s, key)
    requires forall i | 0 <= i < k :: KeyLe(key(s[i]), key(x))
    requires forall i | k <= i < |s| :: KeyLe(key(x), key(s[i]))
    ensures SortedBy(s[..k] + [x] + s[k..], key)
  {
    var r := s[..k] + [x] + s[k..];
    assert forall i | 0 <= i < k :: r[i] == s[i];
    assert r[k] == x;
    assert forall i | k < i < |r| :: r[i] == s[i - 1];
  }

  /** Appending an element no smaller than every element keeps a sequence sorted. */
  lemma AppendSorted<T>(s: seq<T>, x: T, key: T -> Key)
    requires SortedBy(s, key)
    requires forall i | 0 <= i < |s| :: KeyLe(key(s[i]), key(x))
    ensures SortedBy(s + [x], key)
  {
  }

  /** Every element of `rest` (the front of `s` plus `x`) sorts no later than the last of `s`. */
  lemma BoundedByLast<T>(s: seq<T>, x: T, rest: seq<T>, key: T -> Key)
    requires |s| > 0 && SortedBy(s, key)
    requires !KeyLe(key(s[|s| - 1]), key(x))
    requires multiset(rest) == multiset(s[..|s| - 1]) + multiset{x}
    ensures forall i | 0 <= i < |rest| :: KeyLe(key(rest[i]), key(s[|s| - 1]))
  {
    forall i | 0 <= i < |rest| ensures KeyLe(key(rest[i]), key(s[|s| - 1])) {
      var y := rest[i];
      assert y in multiset(rest);
      if y != x {
        assert y in multiset(s[..|s| - 1]);
        var j :| 0 <= j < |s| - 1 && s[j] == y;
      }
    }
  }

  /** Insertion sort of `s` by `key`, inserting the elements in arrival order. */
  function SortByKey<T>(s: seq<T>, key: T -> Key): (r: seq<T>)
    ensures SortedBy(r, key)
    ensures multiset(r) == multiset(s)
    decreases |s|
  {
    if |s| == 0 then []
    else
      assert s == s[..|s| - 1] + [s[|s| - 1]];
      Insert(SortByKey(s[..|s| - 1], key), s[|s| - 1], key)
  }

  /** Sorting keeps the length and the set of elements. */
  lemma SortKeepsElements<T>(s: seq<T>, key: T -> Key)
    ensures |SortByKey(s, key)| == |s|
    ensures forall x :: x in SortByKey(s, key) <==> x in s
  {
    var r := SortByKey(s, key);
    assert |multiset(r)| == |multiset(s)|;
    forall x ensures x in r <==> x in s {
      assert x in r <==> x in multiset(r);
      assert x in s <==> x in multiset(s);
    }
  }

  /** `f` gives different values to the elements at different indices of `s`. */
  ghost predicate DistinctBy<T>(s: seq<T>, f: T -> nat) {
    forall i, j | 0 <= i < j < |s| :: f(s[i]) != f(s[j])
  }

  /** An element stored twice is counted twice. */
  lemma CountTwice<T>(s: seq<T>, i: int, j: int)
    requires 0 <= i < j < |s| && s[i] == s[j]
    ensures multiset(s)[s[i]] >= 2
  {
    assert s == s[..i] + [s[i]] + s[i + 1..j] + [s[j]] + s[j + 1..];
  }

  /** When `f` is injective on `s`, no element is stored twice. */
  lemma {:induction false} CountOnce<T>(s: seq<T>, f: T -> nat, x: T)
    requires DistinctBy(s, f)
    ensures multiset(s)[x] <= 1
    decreases |s|
  {
    if |s| > 0 {
      var n := |s| - 1;
      assert s == s[..n] + [s[n]];
      CountOnce(s[..n], f, x);
      if s[n] == x {
        assert x !in s[..n];
        assert multiset(s[..n])[x] == 0;
      }
    }
  }

  /** Reordering keeps an injective labelling injective. */
  lemma PermutationKeepsDistinct<T>(a: seq<T>, b: seq<T>, f: T -> nat)
    requires multiset(a) == multiset(b)
    requires DistinctBy(a, f)
    ensures DistinctBy(b, f)
  {
    forall i, j | 0 <= i < j < |b| ensures f(b[i]) != f(b[j]) {
      assert b[i] in multiset(a) && b[j] in multiset(a);
      var p :| 0 <= p < |a| && a[p] == b[i];
      var q :| 0 <= q < |a| && a[q] == b[j];
      if b[i] == b[j] {
        CountTwice(b, i, j);
        CountOnce(a, f, b[i]);
      } else {
        assert p != q;
      }
    }
  }

  /** No two elements share a key, and keys strictly increase along `s`. */
  ghost predicate StrictlySortedBy<T>(s: seq<T>, key: T -> Key) {
    forall i, j | 0 <= i < j < |s| :: KeyLe(key(s[i]), key(s[j])) && key(s[i]) != key(s[j])
  }

  /**
   * With all keys distinct there is only one sorted arrangement: two strictly sorted
   * permutations of the same elements are equal, whatever order they came from.
   */
  lemma {:induction false} StrictSortedUnique<T>(a: seq<T>, b: seq<T>, key: T -> Key)
    requires multiset(a) == multiset(b)
    requires StrictlySortedBy(a, key) && StrictlySortedBy(b, key)
    ensures a == b
    decreases |a|
  {
    assert |a| == |multiset(a)| == |multiset(b)| == |b|;
    if |a| > 0 {
      SmallestFirst(a, b, key);
      SameTail(a, b);
      StrictSortedUnique(a[1..], b[1..], key);
      assert a == [a[0]] + a[1..] && b == [b[0]] + b[1..];
    }
  }

  /** Two strictly sorted permutations start with the same element. */
  lemma SmallestFirst<T>(a: seq<T>, b: seq<T>, key: T -> Key)
    requires |a| > 0 && |b| > 0 && multiset(a) == multiset(b)
    requires StrictlySortedBy(a, key) && StrictlySortedBy(b, key)
    ensures a[0] == b[0]
  {
    assert a[0] in multiset(b) && b[0] in multiset(a);
    var k :| 0 <= k < |b| && b[k] == a[0];
    var m :| 0 <= m < |a| && a[m] == b[0];
    if k > 0 && m > 0 {
      KeyLeAntisymmetric(key(a[0]), key(b[0]));
    }
  }

  /** Permutations with the same first element have permuted tails. */
  lemma SameTail<T>(a: seq<T>, b: seq<T>)
    requires |a| > 0 && |b| > 0 && multiset(a) == multiset(b) && a[0] == b[0]
    ensures multiset(a[1..]) == multiset(b[1..])
  {
    assert a == [a[0]] + a[1..] && b == [b[0]] + b[1..];
    assert multiset(a[1..]) == multiset(a) - multiset{a[0]};
    assert multiset(b[1..]) == multiset(b) - multiset{b[0]};
  }

  lemma KeyLeAntisymmetric(x: Key, y: Key)
    requires KeyLe(x, y) && KeyLe(y, x)
    ensures x == y
  {
  }

  /** A sorted sequence whose elements have pairwise different keys is strictly sorted. */
  lemma SortedDistinctIsStrict<T>(s: seq<T>, key: T -> Key)
    requires SortedBy(s, key)
    requires forall i, j | 0 <= i < j < |s| :: key(s[i]) != key(s[j])
    ensures StrictlySortedBy(s, key)
  {
  }
}

=== FILE: wrappers.dfy ===
/** Optional values: the model's stand-in for JavaScript's null, undefined and NaN. */
module Wrappers {

  /** `None` is a missing, null or unparsable value; `Some(v)` a present one. */
  datatype Option<+T> = None | Some(value: T) {

    /** The value, or `default` when there is none. */
    function GetOr(default: T): T {
      match this
      case Some(v) => v
      case None => default
    }
  }
}
